=== FILE: README.md ===
# annotateGexf, modelled in Dafny

`annotateGexf.py` (from graph-utils) adds columns from tab-separated tables to
a GEXF graph. Each node table column becomes a node attribute. Each edge table
column becomes an edge attribute. A chosen node column can instead set each
node's `viz:color`, and a chosen edge column can instead set each edge's
`weight`. This project models the script's core as pure Dafny functions over
an abstract element tree, and proves what the script promises about them:

- reading the tables into dictionaries (`read_node_annotation`,
  `read_edge_annotation`, `get_column_type`): module `Tables`, file
  `tables.dfy`;
- the rewrite of the `graph` element in `main`: module `Annotate`, file
  `annotate.dfy`;
- the whole run, from tables and document to the rewritten document: module
  `Script`, file `script.dfy`.

The supporting modules are:

- `Results`: the `Result` type, and one `Error` per exception the script lets
  escape.
- `Seqs`: first match and count in a sequence.
- `Strings`: `str.split` and `str.join` on one character.
- `Xml`: `find`, `remove` and `append` on a child list.
- `Gexf`: the GEXF tags and the elements the script builds.

Modelling choices:

- An element is a tag (namespace and local name), an attribute map and a
  sequence of children.
- A table is a list of columns, each with a name and a pandas dtype, and rows
  of cells.
- A cell is a string, a number (its text in the file and the text `str()`
  gives it), or NaN. Keys are looked up as strings, because the script builds
  its keys from XML labels. A numeric table key therefore never matches,
  exactly as in Python.

## Model

| member | source | states |
|---|---|---|
| Tables.Classify | annotateGexf.py:58-68 | a column is declared "integer" exactly when its dtype is an integer dtype, "float" exactly when it is a floating dtype, otherwise "string" (bool included) |
| Tables.ColumnTypes | annotateGexf.py:58-68 | the types map has one key per column name, and each maps to the classification of that column's dtype |
| Tables.ForceStr | annotateGexf.py:37-38 | reading with `dtype=str` keeps the column names and the shape, and makes every column an object column |
| Tables.ForceStrCells | annotateGexf.py:37-38 | under `dtype=str` no cell is a number; a number keeps the text it had in the file; other cells are unchanged |
| Tables.ForceStrTypes | annotateGexf.py:37-41 | with `--force-str` every column type is "string" |
| Tables.Effective | annotateGexf.py:37-40 | whichever way the table is read, it keeps its shape and its column names |
| Tables.IndexBy | annotateGexf.py:42 | a dict built entry by entry holds every key of the entries, and each key maps to the value of its last entry |
| Tables.KeyedColumn | annotateGexf.py:42 | `set_index('node')[col].to_dict()` has exactly the node cells of the rows as keys |
| Tables.KeyedColumnLast | annotateGexf.py:42 | for a repeated node key, the last row's cell wins |
| Tables.PairedColumn | annotateGexf.py:52-53 | a column indexed by two columns has exactly the pairs of the rows as keys |
| Tables.PairedColumnLast | annotateGexf.py:52-53 | for a repeated pair, the last row's cell wins |
| Tables.MergedColumn | annotateGexf.py:52-55 | after `x[name].update(y[name])` the keys are every row's pair in both orientations, and nothing else |
| Tables.MergedSymmetric | annotateGexf.py:52-55 | the merged column answers a pair exactly when it answers the reversed pair |
| Tables.ReversedWins | annotateGexf.py:53-55 | a key that some row lists the reversed way takes the cell of the last such row, even when another row lists the same pair forwards |
| Tables.ForwardFallback | annotateGexf.py:52-55 | a pair that no row lists reversed keeps the cell of the last row listing it forwards |
| Tables.NodeColumnsNames | annotateGexf.py:42 | every column except the index column becomes a dictionary, and the index column does not |
| Tables.NodeColumnsKeys | annotateGexf.py:42 | all node dictionaries have the same key set, the cells of the `node` column |
| Tables.NodeColumnsExact | annotateGexf.py:42 | there is one dictionary fewer than columns, and no two dictionaries share a name |
| Tables.NodeColumnsValues | annotateGexf.py:42 | the dictionary named after column `j` maps each row's node to its cell in column `j`, the last row naming a node winning |
| Tables.EdgeColumnsNames | annotateGexf.py:52 | every column except `source` and `target` becomes a dictionary, and neither of those two does |
| Tables.EdgeColumnsSymmetric | annotateGexf.py:52-55 | every edge dictionary answers a pair exactly when it answers the reversed pair |
| Tables.EdgeColumnsExact | annotateGexf.py:52 | there are two dictionaries fewer than columns, and no two dictionaries share a name |
| Tables.EdgeColumnsValues | annotateGexf.py:52-55 | the dictionary named after column `j` answers both orientations of each row's pair, with column `j`'s cell from the last reversed listing, or from the last forward listing when no row lists the pair reversed |
| Tables.NodeTable | annotateGexf.py:41-42 | building the node dictionaries fails exactly when there is no `node` column; the types cover every column, each classified by its dtype |
| Tables.NodeTableColumns | annotateGexf.py:42 | exactly one dictionary for every column but `node`: one fewer dictionary than columns, with distinct names, each named after a column; none for `node`; all with the same keys |
| Tables.EdgeTable | annotateGexf.py:51-52 | building the edge dictionaries fails exactly when `source` or `target` is missing; the types cover every column |
| Tables.EdgeTableColumns | annotateGexf.py:52-55 | exactly one dictionary for every column but `source` and `target`: two fewer than columns, with distinct names; none for those two; each answers both orientations of a pair; the dictionary named after a column answers both orientations of every row's pair, the reversed key with the cell of the last row listing the pair reversed, the forward key, when no row lists it reversed, with the cell of the last row listing it forward |
| Tables.NodeTableTyped | annotateGexf.py:41-42 | every node dictionary is named after a column, so it has a type |
| Tables.EdgeTableTyped | annotateGexf.py:51-52 | every edge dictionary is named after a column, so it has a type in the edge types |
| Tables.ReadNodeAnnotation | annotateGexf.py:34-42 | no file gives two empty dicts; a file without `node` fails; otherwise the table's dictionaries and types, all "string" under `--force-str` |
| Tables.ReadEdgeAnnotation | annotateGexf.py:44-56 | no file gives two empty dicts; a file without `source` or `target` fails; otherwise the merged dictionaries and types, all "string" under `--force-str` |
| Tables.NodeColumnsTyped | annotateGexf.py:34-42 | every node column the reader returns has a type in the node types |
| Tables.EdgeColumnsTyped | annotateGexf.py:44-56 | every edge column the reader returns has a type in the edge types |
| Tables.ForcedNodeValue | annotateGexf.py:37-42 | with `--force-str`, the node dictionary's value for a node, taken from the last row naming it, prints (`str()`) as that row's field text in the file, and as `nan` for an empty field; the node key is text, not a number |
| Strings.Split | annotateGexf.py:115 | `value.split(',')` has one more part than there are commas, and no part contains a comma |
| Strings.JoinSplit | annotateGexf.py:115 | joining the parts of the split gives back the value |
| Strings.SplitJoin | annotateGexf.py:115 | splitting a join of comma-free parts gives back the parts |
| Xml.Find | annotateGexf.py:84-86 | `find` gives the first child with the tag, and gives none exactly when no child has it |
| Xml.DeleteFirst | annotateGexf.py:87-88 | `remove(find(tag))` loses exactly the first child with the tag and keeps every other child in its order, and loses nothing when there is none |
| Xml.DeleteFirstOthers | annotateGexf.py:116-118 | removing the first child with a tag keeps every child with another tag, in order, and leaves one fewer with the tag when there was one |
| Xml.AppendChild | annotateGexf.py:99-100 | appending adds the child last and leaves the tag, the attributes and the earlier children alone |
| Annotate.Restructure | annotateGexf.py:84-100 | the restructuring fails exactly when `nodes` or `edges` is missing or an attributes block has no `class` |
| Annotate.RestructureKeeps | annotateGexf.py:87-100 | the graph's children afterwards are its old children plus the created blocks, as a multiset |
| Annotate.RestructureOrder | annotateGexf.py:87-100 | the other children keep their order at the front, and the first `nodes` and the first `edges` end up as the last two children |
| Annotate.RestructureNodeBlock | annotateGexf.py:89-96 | the node block is the first block of class `node`, before `nodes` and `edges`; it is the first existing one, or a new `mode="static"` one when there was none; the number of such blocks is unchanged, or one; when both blocks are created, the edge block is appended right after the node block |
| Annotate.RestructureEdgeBlock | annotateGexf.py:89-98 | the same for the edge block and class `edge` |
| Annotate.AddedBlock | annotateGexf.py:91-92 | a created block is the only block of its class, and it comes last |
| Annotate.WithBlockOther | annotateGexf.py:91-98 | creating the node block leaves the edge blocks alone, and the other way round |
| Annotate.NodeLabels | annotateGexf.py:102 | `node_dict` fails exactly when some node lacks `id` or `label`; its keys are the node ids, and each id maps to the label of the last node with that id |
| Annotate.AddAttValue | annotateGexf.py:121-125 | the node gains exactly one entry (`for` = column, `value` = value) after its old ones; with no `attvalues` child a new one holding just that entry is appended last; otherwise the first one keeps its position, tag and attributes and gains the entry after its old ones, and every other child stays where it was |
| Annotate.SetColor | annotateGexf.py:115-119 | a value without exactly three commas fails; otherwise the first colour child is removed, the other children are kept in order, and a new last child is appended that has exactly the attributes `r`, `g`, `b`, `a`, no children, and rejoins to the value |
| Annotate.ColorRejoins | annotateGexf.py:115-119 | the colour built from `r,g,b,a` gives back the value when its components are rejoined with commas |
| Annotate.ReplaceColor | annotateGexf.py:116-119 | removing the first colour child and appending a new one keeps the non-colour children, and leaves as many colour children as before, or one |
| Annotate.AnnotateNode | annotateGexf.py:108-125 | for one node and one column: no `label` fails; a label the column does not hold leaves the node as it is; the colour column sets the colour; any other column adds one entry |
| Annotate.EdgeKey | annotateGexf.py:132-134 | the lookup key is the two endpoints' labels, and it fails exactly when an endpoint attribute is missing or names an unknown node |
| Annotate.AnnotateEdge | annotateGexf.py:131-146 | for one edge and one column: the key fails as above; a key the column does not hold leaves the edge as it is; the weight column sets `weight` and nothing else; any other column adds one entry |
| Annotate.EdgeDirectionAgnostic | annotateGexf.py:52-55 | with a column as the edge reader builds it, an edge is annotated exactly when it would be with its endpoints swapped |
| Annotate.NodeStepsFail | annotateGexf.py:104-125 | across all node columns, a labelled node fails exactly when the colour column gives it a malformed colour |
| Annotate.NodeStepsEntries | annotateGexf.py:104-125 | across all node columns, a labelled node gains one entry per non-colour column that holds its label, in column order |
| Annotate.NodeUntouched | annotateGexf.py:110-113 | a node whose label no column holds, or a child that is not a node, comes through unchanged |
| Annotate.EdgeStepsFail | annotateGexf.py:131-134 | when there is an edge column, an edge fails exactly when it lacks an endpoint or names an unknown node |
| Annotate.EdgeStepsEntries | annotateGexf.py:127-146 | across all edge columns, an edge gains one entry per non-weight column that holds its key, in column order |
| Annotate.EdgeUntouched | annotateGexf.py:135-138 | an edge that no column holds, or a child that is not an edge, comes through unchanged |
| Annotate.NodeStepFacts | annotateGexf.py:108-125 | one node column on a labelled node fails exactly on a malformed colour, keeps the node's tag and attributes, and adds the entry that column gives the label, if any |
| Annotate.NodeStepsKeep | annotateGexf.py:104-125 | annotating a labelled node by all the node columns never changes its tag or its attributes |
| Annotate.NodeStepShape | annotateGexf.py:108-125 | one node column keeps every child that is neither a colour nor `attvalues`; a column that does not set the colour keeps every child outside `attvalues`; the colour column leaves its colour last outside `attvalues` |
| Annotate.NodeStepsPlain | annotateGexf.py:104-125 | across all node columns, every child of a node that is neither a colour nor `attvalues` comes through unchanged and in order |
| Annotate.NodeStepsNoColor | annotateGexf.py:104-125 | when no colour column holds the node's label, every child outside `attvalues` comes through unchanged, the colour included |
| Annotate.NodeStepsColor | annotateGexf.py:104-119 | when column `j` is the last one to set the node's colour, the node's last child outside `attvalues` is the colour that column's value gives |
| Annotate.EdgeStepFacts | annotateGexf.py:131-146 | one edge column fails exactly when the edge's key fails, keeps the edge's tag and key, and adds the entry that column gives the key, if any |
| Annotate.EdgeStepsKeep | annotateGexf.py:127-146 | annotating an edge by all the edge columns never changes its tag or its endpoints' key |
| Annotate.EdgeStepShape | annotateGexf.py:131-146 | one edge column on an edge with a key succeeds, keeps every child outside `attvalues`, and changes no attribute unless it is the weight column, which sets `weight` alone |
| Annotate.EdgeStepsAttrs | annotateGexf.py:127-146 | across all edge columns, every attribute but `weight` and every child outside `attvalues` come through unchanged |
| Annotate.EdgeStepsNoWeight | annotateGexf.py:127-146 | when no weight column holds the edge's key, the edge comes through with its attributes unchanged |
| Annotate.EdgeStepsWeight | annotateGexf.py:135-141 | when column `j` is the last weight column holding the edge's key, the edge's `weight` is `str()` of that column's cell |
| Annotate.NodeChildrenOk | annotateGexf.py:104-125 | when every node is labelled, every child of `nodes` passes every node column exactly when no colour value is malformed |
| Annotate.EdgeChildrenOk | annotateGexf.py:127-146 | every child of `edges` passes every edge column exactly when every edge joins known nodes, or there is no edge column |
| Annotate.NodePassOk | annotateGexf.py:104-125 | when every node is labelled, the node pass succeeds exactly when every node column is typed and no colour is malformed |
| Annotate.EdgePassOk | annotateGexf.py:127-146 | the edge pass succeeds exactly when every edge column is typed and every edge joins known nodes, or there is no edge column |
| Annotate.StepsAllSpec | annotateGexf.py:104-146 | rewriting a child list succeeds exactly when each child's rewrite does, and then yields each child's rewrite at its own position |
| Annotate.PassShape | annotateGexf.py:104-146 | a successful pass keeps the block's head, declares every column in order, and rewrites the container child by child |
| Annotate.AnnotatedOk | annotateGexf.py:102-146 | on a restructured graph, the annotation succeeds exactly when `node_dict` can be built, every column is typed, no colour is malformed and every edge joins known nodes |
| Annotate.Pass | annotateGexf.py:104-146 | a pass keeps the heads of the block and the container, appends one declaration per column, keeps the number of children, and fails when some column has no type |
| Annotate.PassTypesAgree | annotateGexf.py:105-106 | a pass reads the types map only at its columns' names: maps that agree there give the same pass |
| Annotate.PassOk | annotateGexf.py:104-125 | the column-by-column pass succeeds exactly when every column is typed and every child's rewrite by all the columns succeeds |
| Annotate.PassDeclares | annotateGexf.py:104-106 | one declaration per column is appended to the block, in column order, with id = title = the column name and the type from the types map |
| Annotate.PassSteps | annotateGexf.py:104-125 | the outer loop over columns and the inner loop over children rewrite each child exactly as applying all the columns to it in turn would |
| Annotate.PassRewrites | annotateGexf.py:104-146 | a successful pass leaves the container equal to the child-by-child reference rewrite `Rewrite` |
| Annotate.NodePassWhen | annotateGexf.py:104-125 | when every node is labelled, the node pass succeeds exactly when every node column is typed and no colour is malformed |
| Annotate.EdgePassWhen | annotateGexf.py:127-146 | the edge pass succeeds exactly when every edge column is typed and, if there is an edge column, every edge joins two known nodes |
| Annotate.NodePassFacts | annotateGexf.py:104-125 | the node block keeps its head and declares the node columns with the node types; the `nodes` container is rewritten by every node column |
| Annotate.EdgePassFacts | annotateGexf.py:127-146 | the edge block declares the edge columns with the types passed in; the `edges` container is rewritten by every edge column |
| Annotate.TransformOk | annotateGexf.py:84-146 | the graph rewrite succeeds exactly when `nodes`, `edges` and classed blocks are present, every node has an id and a label, every column is typed, no colour is malformed, and (if there is an edge column) every edge joins known nodes |
| Annotate.Transform | annotateGexf.py:84-146 | a rewrite succeeds only on a graph with `nodes`, `edges` and classed blocks, keeps the graph's tag and attributes and the restructured number of children, and fails when an edge column has no type in the types its declarations use |
| Annotate.AnnotateGraphAsWritten | annotateGexf.py:127-129 | as written, a rewrite succeeds only when every edge column is also typed by the node table |
| Annotate.AnnotateGraph | annotateGexf.py:127-129 | the corrected rewrite is the rewrite as written whenever the node types give every edge column the type the edge types give it |
| Annotate.TransformTypesAgree | annotateGexf.py:127-129 | the rewrite reads the edge types only at the edge columns' names |
| Annotate.TransformPlaces | annotateGexf.py:84-146 | a successful rewrite is the restructured graph with the two rewritten blocks and the two rewritten containers put in place |
| Annotate.RestructureLast | annotateGexf.py:87-88 | after restructuring, the last two children are the original first `nodes` and first `edges` |
| Annotate.PlacedNodes | annotateGexf.py:99-125 | in the placed graph, the next-to-last child is the `nodes` container with every node rewritten by every node column |
| Annotate.PlacedEdges | annotateGexf.py:100-146 | in the placed graph, the last child is the `edges` container with every edge rewritten by every edge column |
| Annotate.TransformHeads | annotateGexf.py:84-146 | the graph keeps its tag and attributes, and every child keeps its tag and attributes |
| Annotate.TransformNodeBlock | annotateGexf.py:89-94 | in the result, the node block is the first block of class `node`; it is the old first one or a new static one, and it gains one declaration per node column, typed from the node types |
| Annotate.TransformEdgeBlock | annotateGexf.py:95-98 | the same for the edge block and the edge columns, typed from the edge types passed in |
| Annotate.TransformOthers | annotateGexf.py:87-100 | every other child of the graph is left as it was, in order, ahead of the blocks and the containers |
| Script.AnnotateDocument | annotateGexf.py:84-146 | a document without a `graph` child fails; otherwise its first `graph` child is rewritten, and the root and its other children are kept |
| Script.DocumentOk | annotateGexf.py:84-146 | the document rewrite succeeds exactly when there is a `graph` child, it is ready, and every node and edge column is typed by the types its declarations use |
| Script.Run | annotateGexf.py:72-74 | as written: a bad node table is reported first, then a bad edge table; a successful run keeps the root's tag, attributes and number of children |
| Script.RunOk | annotateGexf.py:72-146 | a run as written succeeds exactly when both tables read, the document has a graph, the graph is ready, and every edge column is also a column of the node table |
| Script.RunCorrected | annotateGexf.py:72-74 | with line 129 corrected: the same error order and root shape |
| Script.RunCorrectedOk | annotateGexf.py:72-146 | a corrected run succeeds exactly when both tables read, the document has a graph, and the graph is ready; nothing about column types can fail |
| Script.RunAgrees | annotateGexf.py:127-129 | when the node table types every edge column as the edge table does, the corrected run and the run as written give the same result |
| Script.DocumentAgrees | annotateGexf.py:127-129 | the document rewrite reads the edge types only at the edge columns' names |
| Script.GraphOk | annotateGexf.py:104-146 | the rewrite succeeds exactly when the graph is ready and every node and edge column is typed by the types its declarations use |
| Script.EdgeOnlyAnnotationFails | annotateGexf.py:127-129 | as written, with no node table, any edge annotation with a column fails, whatever the graph |
| Script.UnsharedEdgeColumnFails | annotateGexf.py:127-129 | as written, an edge column whose name is not also a node column's name fails the run |
| Script.ReadAnnotationsTyped | annotateGexf.py:127-129 | with edge declarations typed from the edge table, annotations as the readers return them always pass the type checks |

## Left out

- Reading and parsing files: `pd.read_table`, `etree.parse`, and writing the
  result (line 148). The tables and the document are parameters. Dtype
  inference is left to the caller, which supplies each column's dtype.
- Namespace registration (lines 77-80), logging, the SIGPIPE handler, docopt
  argument parsing and the `KeyboardInterrupt` handler. None of these changes
  the tree.
- `str()` of a number is taken as given: each numeric cell carries the text
  `str()` gives it. Float formatting is not modelled.
- Dict iteration order: the columns are visited in table order, as the
  dictionaries `to_dict` builds list them. The order decides the order of the
  declarations and which error is reported first.
- RenderGraph.java: a separate Gephi rendering program that does not share
  code with the script.
- Ordering within a node's or an edge's own attributes is not modelled;
  attributes are a map.
- Annotate.Pass: the function's own contract states the heads, the sizes and
  the failure on an untyped column. What it computes is stated by
  `Annotate.PassOk`, `Annotate.PassDeclares` and `Annotate.PassRewrites`.
- Annotate.PlacedNodes: states the rewrite of the `nodes` container for a
  placed layout. Together with `Annotate.TransformPlaces` and
  `Annotate.RestructureLast` it gives the end-to-end statement, which is not
  proved as a single lemma about `Annotate.Transform`.
- Annotate.PlacedEdges: likewise for the `edges` container.
- Script.Run: its contract states the error order and the root's shape. When
  it succeeds is stated by `Script.RunOk`.
- Script.RunCorrected: likewise; when it succeeds is stated by
  `Script.RunCorrectedOk`.
- Annotate.Transform: its own contract states the head, the size and the
  failure on an untyped edge column. When it succeeds is stated by
  `Annotate.TransformOk`, and what it yields by `Annotate.TransformPlaces` and
  the `Transform…` lemmas.
- Element text and tail are not represented, so whitespace and text between
  elements are dropped from the model. The transform neither reads nor
  writes them.

## Findings

The script declares every edge column with the type looked up in the node
types (`node_ctypes[name]`, line 129) instead of the edge types. An edge
column whose name is not also a node column's name therefore raises a
`KeyError` before any edge is annotated. In particular, an edge table given
without a node table always fails. `Annotate.AnnotateGraphAsWritten` is the
rewrite as written: it passes the node types to the edge declarations.
`Script.Run` passes the node types to the edge declarations the same way.
`Annotate.AnnotateGraph` passes the edge table's own types, as does
`Script.RunCorrected`. `Script.RunAgrees` shows the two runs agree wherever
the node table types the edge columns alike.

| source | as written | input that shows it | evidently intended | confidence | as-written member | corrected member |
|---|---|---|---|---|---|---|
| annotateGexf.py:129 | edge declarations are typed by `node_ctypes[name]` | `-e` with a table of columns `source`, `target`, `score`, and no `-n`: `node_ctypes` is empty, so `node_ctypes['score']` raises `KeyError` | the type is `edge_ctypes[name]`, which every edge column read from the table has | high; not executed | Script.EdgeOnlyAnnotationFails | Script.RunCorrectedOk |

=== FILE: annotate.dfy ===
/**
 The rewrite `annotateGexf.py` performs on a parsed GEXF document.

 The graph's `nodes` and `edges` children are taken out; a `node` and an
 `edge` attributes block are found (the first of each class) or created;
 `nodes` and `edges` go back in as the last two children. Then, column by
 column, each node annotation column is declared in the node block and
 applied to every node, and each edge annotation column is declared in the
 edge block and applied to every edge. A node is looked up by its label, an
 edge by the labels of its two endpoints. The colour column replaces a
 node's `viz:color`, the weight column overwrites an edge's `weight`, and
 every other column appends an `attvalue`.
 */
module Annotate {
  import opened Results
  import opened Seqs
  import opened Strings
  import opened Xml
  import opened Tables
  import opened Gexf

  /** `-c` (colour column), `-w` (weight column) and `--force-str`. */
  datatype Options = Options(color: Option<string>, weight: Option<string>, forceStr: bool)

  /** An `attributes` block of class `cls`. */
  predicate IsBlock(e: Element, cls: string)
  {
    e.tag == AttributesTag && "class" in e.attrs && e.attrs["class"] == cls
  }

  function BlockOf(cls: string): Element -> bool
  {
    (e: Element) => IsBlock(e, cls)
  }

  /** An `attributes` block without a `class`: `x.attrib['class']` fails on it. */
  function Unclassed(): Element -> bool
  {
    (e: Element) => e.tag == AttributesTag && "class" !in e.attrs
  }

  function CountBlocks(s: seq<Element>, cls: string): nat
  {
    CountWhere(s, BlockOf(cls))
  }

  /** The blocks the restructuring has to create. */
  ghost function NewBlocks(g: seq<Element>): multiset<Element>
  {
    (if CountBlocks(g, "node") == 0 then multiset{AttributesBlock("node")} else multiset{}) +
    (if CountBlocks(g, "edge") == 0 then multiset{AttributesBlock("edge")} else multiset{})
  }

  /** The graph's children once restructured, with the positions of the node
      and the edge attributes blocks. */
  datatype Layout = Layout(children: seq<Element>, nodeBlock: nat, edgeBlock: nat)

  /** Both blocks sit before the last two children, which are `nodes` and
      `edges`. */
  ghost predicate ValidLayout(l: Layout)
  {
    |l.children| >= 2 && l.nodeBlock < |l.children| - 2 && l.edgeBlock < |l.children| - 2
  }

  /** Deleting the first `tag` child changes nothing `p` can see, when that
      child does not satisfy `p`. */
  lemma DeleteFirstKeeps(s: seq<Element>, tag: QName, p: Element -> bool)
    requires Find(s, tag).Some? ==> !p(s[Find(s, tag).value])
    ensures CountWhere(DeleteFirst(s, tag), p) == CountWhere(s, p)
    ensures FirstWhere(DeleteFirst(s, tag), p).Some? <==> FirstWhere(s, p).Some?
    ensures FirstWhere(s, p).Some? ==>
      DeleteFirst(s, tag)[FirstWhere(DeleteFirst(s, tag), p).value] == s[FirstWhere(s, p).value]
  {
    if Find(s, tag).Some? {
      var i := Find(s, tag).value;
      CountWhereRemove(s, i, p);
      FirstWhereRemove(s, i, p);
    }
  }

  /** The children other than `nodes` and `edges`: neither of those is an
      attributes block, so taking them out leaves the blocks as they were. */
  lemma RestKeepsBlocks(g: seq<Element>, p: Element -> bool)
    requires forall e :: p(e) ==> e.tag == AttributesTag
    ensures var rest := Rest(g);
      && CountWhere(rest, p) == CountWhere(g, p)
      && (FirstWhere(rest, p).Some? <==> FirstWhere(g, p).Some?)
      && (FirstWhere(g, p).Some? ==> rest[FirstWhere(rest, p).value] == g[FirstWhere(g, p).value])
  {
    var g1 := DeleteFirst(g, NodesTag);
    DeleteFirstKeeps(g, NodesTag, p);
    DeleteFirstKeeps(g1, EdgesTag, p);
  }

  /** The children other than the first `nodes` and the first `edges`, in
      order. */
  function Rest(g: seq<Element>): seq<Element>
  {
    DeleteFirst(DeleteFirst(g, NodesTag), EdgesTag)
  }

  /** The restructured children: the rest, a created block for each class
      that has none, then `nodes` and `edges`. */
  function Arrange(rest: seq<Element>, nodes: Element, edges: Element): (l: Layout)
    ensures ValidLayout(l) && l.nodeBlock != l.edgeBlock
  {
    var nb := FirstWhere(rest, BlockOf("node"));
    var eb := FirstWhere(rest, BlockOf("edge"));
    var withNode := WithBlock(rest, "node");
    assert nb.Some? && eb.Some? ==> nb.value != eb.value by {
      assert "node"[0] != "edge"[0];
    }
    Layout(WithBlock(withNode, "edge") + [nodes, edges],
           if nb.None? then |rest| else nb.value,
           if eb.None? then |withNode| else eb.value)
  }

  /** What the restructuring needs of the graph's children: a `nodes` and an
      `edges` child, and a class on every attributes block. */
  predicate Restructurable(g: seq<Element>)
  {
    Find(g, NodesTag).Some? && Find(g, EdgesTag).Some? && FirstWhere(g, Unclassed()).None?
  }

  /** Lines 87-100 of the script: `nodes` and `edges` are taken out, the
      attributes blocks are checked for a class, the first attributes block
      of class `node` (and of class `edge`) is kept or, if there is none,
      created, and `nodes` and `edges` go back in as the last two children.
      It fails exactly when `nodes` or `edges` is missing or an attributes
      block has no class. */
  function Restructure(g: seq<Element>): (r: Result<Layout>)
    ensures r.Err? <==> Find(g, NodesTag).None? || Find(g, EdgesTag).None? || FirstWhere(g, Unclassed()).Some?
    ensures r.Ok? ==> ValidLayout(r.value) && r.value.nodeBlock != r.value.edgeBlock
  {
    match (Find(g, NodesTag), Find(g, EdgesTag))
    case (None, _) => Err(MissingElement("nodes"))
    case (_, None) => Err(MissingElement("edges"))
    case (Some(ni), Some(ei)) =>
      RestKeepsBlocks(g, Unclassed());
      if FirstWhere(Rest(g), Unclassed()).Some? then Err(MissingAttribute("attributes", "class"))
      else Ok(Arrange(Rest(g), g[ni], g[ei]))
  }

  /** Nothing is lost by the restructuring: the children are the old ones
      plus the created blocks. */
  lemma RestructureKeeps(g: seq<Element>)
    requires Restructurable(g)
    ensures multiset(Restructure(g).value.children) == multiset(g) + NewBlocks(g)
  {
    RestructureArranges(g);
    ArrangedKeeps(g, Find(g, NodesTag).value, Find(g, EdgesTag).value);
  }

  /** The same for the arrangement of the rest around the first `nodes` and
      the first `edges`. */
  lemma ArrangedKeeps(g: seq<Element>, ni: nat, ei: nat)
    requires Find(g, NodesTag) == Some(ni) && Find(g, EdgesTag) == Some(ei)
    ensures multiset(Arrange(Rest(g), g[ni], g[ei]).children) == multiset(g) + NewBlocks(g)
  {
    var rest := Rest(g);
    RestShape(g, ni, ei);
    NewBlocksOfRest(g);
    ArrangeKeeps(rest, g[ni], g[ei]);
  }

  /** The blocks `Arrange` creates. */
  function Created(rest: seq<Element>): multiset<Element>
  {
    (if FirstWhere(rest, BlockOf("node")).None? then multiset{AttributesBlock("node")} else multiset{}) +
    (if FirstWhere(rest, BlockOf("edge")).None? then multiset{AttributesBlock("edge")} else multiset{})
  }

  lemma ArrangeKeeps(rest: seq<Element>, nodes: Element, edges: Element)
    ensures multiset(Arrange(rest, nodes, edges).children) == multiset(rest) + Created(rest) + multiset{nodes, edges}
  {
    var withNode := WithBlock(rest, "node");
    WithBlockOther(rest, "node", "edge");
    WithBlockMultiset(rest, "node");
    WithBlockMultiset(withNode, "edge");
  }

  /** A successful restructuring arranges the rest around the first
      `nodes` and `edges` children. */
  lemma RestructureArranges(g: seq<Element>)
    requires Restructurable(g)
    ensures Find(g, NodesTag).Some? && Find(g, EdgesTag).Some?
    ensures Restructure(g).value == Arrange(Rest(g), g[Find(g, NodesTag).value], g[Find(g, EdgesTag).value])
    ensures |Rest(g)| == |g| - 2
  {
    RestShape(g, Find(g, NodesTag).value, Find(g, EdgesTag).value);
  }

  /** A block is only ever added at the end. */
  lemma WithBlockPrefix(s: seq<Element>, cls: string)
    ensures |WithBlock(s, cls)| >= |s|
    ensures forall i :: 0 <= i < |s| ==> WithBlock(s, cls)[i] == s[i]
  {
  }

  /** `Arrange` keeps the rest in order at the front and puts `nodes` and
      `edges` last. */
  lemma ArrangeOrder(rest: seq<Element>, nodes: Element, edges: Element)
    ensures var c := Arrange(rest, nodes, edges).children;
      && |c| >= |rest| + 2
      && (forall i :: 0 <= i < |rest| ==> c[i] == rest[i])
      && c[|c| - 2] == nodes && c[|c| - 1] == edges
  {
    var withNode := WithBlock(rest, "node");
    WithBlockPrefix(rest, "node");
    WithBlockPrefix(withNode, "edge");
  }

  /** The other children keep their order at the front, and the first
      `nodes` and `edges` children come last. */
  lemma RestructureOrder(g: seq<Element>)
    requires Restructurable(g)
    ensures var c := Restructure(g).value.children;
      && |c| >= |g| >= 2
      && (forall i :: 0 <= i < |g| - 2 ==> c[i] == Rest(g)[i])
      && c[|c| - 2] == g[Find(g, NodesTag).value]
      && c[|c| - 1] == g[Find(g, EdgesTag).value]
  {
    RestructureArranges(g);
    ArrangeOrder(Rest(g), g[Find(g, NodesTag).value], g[Find(g, EdgesTag).value]);
  }

  /** The blocks to create are decided on the rest as well as on the whole. */
  lemma NewBlocksOfRest(g: seq<Element>)
    requires Find(g, NodesTag).Some? && Find(g, EdgesTag).Some?
    ensures NewBlocks(g) == Created(Rest(g))
  {
    RestKeepsBlocks(g, BlockOf("node"));
    RestKeepsBlocks(g, BlockOf("edge"));
    CountWhereZero(g, BlockOf("node"));
    CountWhereZero(g, BlockOf("edge"));
  }

  lemma WithBlockMultiset(s: seq<Element>, cls: string)
    ensures multiset(WithBlock(s, cls)) ==
      multiset(s) + if FirstWhere(s, BlockOf(cls)).None? then multiset{AttributesBlock(cls)} else multiset{}
  {
  }

  /** `Arrange` places the block of class `cls` before `nodes` and `edges`:
      the first existing one, or a created one; the count of such blocks
      becomes one if it was zero. */
  lemma ArrangeBlock(rest: seq<Element>, nodes: Element, edges: Element, cls: string)
    requires nodes.tag == NodesTag && edges.tag == EdgesTag
    requires cls == "node" || cls == "edge"
    ensures var l := Arrange(rest, nodes, edges);
      var b := if cls == "node" then l.nodeBlock else l.edgeBlock;
      && b < |l.children| - 2
      && FirstWhere(l.children, BlockOf(cls)) == Some(b)
      && CountBlocks(l.children, cls) == (if CountBlocks(rest, cls) == 0 then 1 else CountBlocks(rest, cls))
      && (FirstWhere(rest, BlockOf(cls)).None? ==> l.children[b] == AttributesBlock(cls))
      && (FirstWhere(rest, BlockOf(cls)).Some? ==> l.children[b] == rest[FirstWhere(rest, BlockOf(cls)).value])
  {
    var withNode := WithBlock(rest, "node");
    var withEdge := WithBlock(withNode, "edge");
    if cls == "node" {
      WithBlockSame(rest, "node");
      WithBlockOther(withNode, "edge", "node");
    } else {
      WithBlockOther(rest, "node", "edge");
      WithBlockSame(withNode, "edge");
    }
    WithBlockPrefix(rest, "node");
    WithBlockPrefix(withNode, "edge");
    AppendNodesEdges(withEdge, nodes, edges, cls);
  }

  /** The node block is the first block of class `node`, placed before
      `nodes` and `edges`: the first existing one, or a new static one when
      there was none; and there are as many node blocks as before, or one.
      When both blocks are created, the edge block comes right after the
      node block. */
  lemma RestructureNodeBlock(g: seq<Element>)
    requires Restructurable(g)
    ensures var l := Restructure(g).value;
      && l.nodeBlock < |l.children| - 2
      && FirstWhere(l.children, BlockOf("node")) == Some(l.nodeBlock)
      && CountBlocks(l.children, "node") == (if CountBlocks(g, "node") == 0 then 1 else CountBlocks(g, "node"))
      && (FirstWhere(g, BlockOf("node")).None? ==> l.children[l.nodeBlock] == AttributesBlock("node"))
      && (FirstWhere(g, BlockOf("node")).Some? ==> l.children[l.nodeBlock] == g[FirstWhere(g, BlockOf("node")).value])
      && (FirstWhere(g, BlockOf("node")).None? && FirstWhere(g, BlockOf("edge")).None? ==>
            l.edgeBlock == l.nodeBlock + 1)
  {
    RestructureArranges(g);
    RestKeepsBlocks(g, BlockOf("node"));
    RestKeepsBlocks(g, BlockOf("edge"));
    ArrangeBlock(Rest(g), g[Find(g, NodesTag).value], g[Find(g, EdgesTag).value], "node");
  }

  /** The edge block likewise: the first block of class `edge`, placed
      before `nodes` and `edges`, the first existing one or a new static
      one; and there are as many edge blocks as before, or one. */
  lemma RestructureEdgeBlock(g: seq<Element>)
    requires Restructurable(g)
    ensures var l := Restructure(g).value;
      && l.edgeBlock < |l.children| - 2
      && FirstWhere(l.children, BlockOf("edge")) == Some(l.edgeBlock)
      && CountBlocks(l.children, "edge") == (if CountBlocks(g, "edge") == 0 then 1 else CountBlocks(g, "edge"))
      && (FirstWhere(g, BlockOf("edge")).None? ==> l.children[l.edgeBlock] == AttributesBlock("edge"))
      && (FirstWhere(g, BlockOf("edge")).Some? ==> l.children[l.edgeBlock] == g[FirstWhere(g, BlockOf("edge")).value])
  {
    RestructureArranges(g);
    RestKeepsBlocks(g, BlockOf("edge"));
    ArrangeBlock(Rest(g), g[Find(g, NodesTag).value], g[Find(g, EdgesTag).value], "edge");
  }

  /** Once `nodes` is out, the first `edges` child is still the one it was. */
  lemma EdgesAfterNodes(g: seq<Element>, ni: nat, ei: nat)
    requires Find(g, NodesTag) == Some(ni) && Find(g, EdgesTag) == Some(ei)
    ensures Find(DeleteFirst(g, NodesTag), EdgesTag).Some?
    ensures DeleteFirst(g, NodesTag)[Find(DeleteFirst(g, NodesTag), EdgesTag).value] == g[ei]
  {
    FirstWhereRemove(g, ni, HasTag(EdgesTag));
  }

  /** Taking out `nodes` and `edges` loses exactly those two children. */
  lemma RestShape(g: seq<Element>, ni: nat, ei: nat)
    requires Find(g, NodesTag) == Some(ni) && Find(g, EdgesTag) == Some(ei)
    ensures var rest := Rest(g);
      |rest| == |g| - 2 && multiset(g) == multiset(rest) + multiset{g[ni], g[ei]}
  {
    EdgesAfterNodes(g, ni, ei);
  }

  /** The children with a block of class `cls` added when there is none. */
  function WithBlock(s: seq<Element>, cls: string): seq<Element>
  {
    if FirstWhere(s, BlockOf(cls)).None? then s + [AttributesBlock(cls)] else s
  }

  /** Adding the missing block: afterwards a block of class `cls` exists,
      the first one if there was one, and there are as many as before or
      one. */
  lemma WithBlockSame(s: seq<Element>, cls: string)
    ensures CountBlocks(WithBlock(s, cls), cls) == if CountBlocks(s, cls) == 0 then 1 else CountBlocks(s, cls)
    ensures FirstWhere(WithBlock(s, cls), BlockOf(cls)) ==
      Some(if FirstWhere(s, BlockOf(cls)).None? then |s| else FirstWhere(s, BlockOf(cls)).value)
  {
    var p := BlockOf(cls);
    CountWhereZero(s, p);
    if FirstWhere(s, p).None? {
      AddedBlock(s, cls);
    }
  }

  /** A created block is a block of its own class and of no other. */
  lemma CreatedBlockClass(cls: string, other: string)
    ensures BlockOf(other)(AttributesBlock(cls)) <==> other == cls
  {
  }

  /** The created block is the only block of its class and comes last. */
  lemma AddedBlock(s: seq<Element>, cls: string)
    requires FirstWhere(s, BlockOf(cls)).None? && CountWhere(s, BlockOf(cls)) == 0
    ensures CountWhere(s + [AttributesBlock(cls)], BlockOf(cls)) == 1
    ensures FirstWhere(s + [AttributesBlock(cls)], BlockOf(cls)) == Some(|s|)
  {
    var p := BlockOf(cls);
    var b := [AttributesBlock(cls)];
    CreatedBlockClass(cls, cls);
    WhereSingle(AttributesBlock(cls), p);
    CountWhereAppend(s, b, p);
    FirstWhereAppendRight(s, b, p);
  }

  /** Adding a block of class `cls` leaves the blocks of another class
      alone. */
  lemma WithBlockOther(s: seq<Element>, cls: string, other: string)
    requires cls != other
    ensures CountBlocks(WithBlock(s, cls), other) == CountBlocks(s, other)
    ensures FirstWhere(WithBlock(s, cls), BlockOf(other)) == FirstWhere(s, BlockOf(other))
  {
    if FirstWhere(s, BlockOf(cls)).None? {
      var b := [AttributesBlock(cls)];
      CreatedBlockClass(cls, other);
      WhereSingle(AttributesBlock(cls), BlockOf(other));
      CountWhereAppend(s, b, BlockOf(other));
      FirstWhereAppend(s, b, BlockOf(other));
    }
  }

  /** `nodes` and `edges` put back at the end are not blocks. */
  lemma AppendNodesEdges(s: seq<Element>, n: Element, e: Element, cls: string)
    requires n.tag == NodesTag && e.tag == EdgesTag
    ensures CountBlocks(s + [n, e], cls) == CountBlocks(s, cls)
    ensures FirstWhere(s, BlockOf(cls)).Some? ==> FirstWhere(s + [n, e], BlockOf(cls)) == FirstWhere(s, BlockOf(cls))
  {
    CountWhereAppend(s, [n, e], BlockOf(cls));
    CountWhereZero([n, e], BlockOf(cls));
    FirstWhereAppend(s, [n, e], BlockOf(cls));
  }

  /** A `node` child lacking the `id` or the `label` the node dictionary
      reads. */
  predicate Unlabelled(e: Element)
  {
    e.tag == NodeTag && !("id" in e.attrs && "label" in e.attrs)
  }

  /** No later node has the same id as node `i`. */
  ghost predicate LastWithId(s: seq<Element>, i: nat)
    requires i < |s| && "id" in s[i].attrs
  {
    forall j :: i < j < |s| && s[j].tag == NodeTag && "id" in s[j].attrs ==> s[j].attrs["id"] != s[i].attrs["id"]
  }

  /** The ids of the nodes that have one. */
  ghost function Ids(s: seq<Element>): set<string>
  {
    set i | 0 <= i < |s| && s[i].tag == NodeTag && "id" in s[i].attrs :: s[i].attrs["id"]
  }

  lemma IdsSnoc(s: seq<Element>)
    requires |s| > 0
    ensures var last := s[|s| - 1];
      Ids(s) == Ids(s[..|s| - 1]) + if last.tag == NodeTag && "id" in last.attrs then {last.attrs["id"]} else {}
  {
    var init := s[..|s| - 1];
    assert forall i :: 0 <= i < |init| ==> init[i] == s[i];
  }

  /** Line 102 of the script, `node_dict`: each node's id mapped to its
      label, a later node with the same id overriding an earlier one. It
      fails exactly when some node lacks its id or its label. */
  function NodeLabels(s: seq<Element>): (r: Result<map<string, string>>)
    ensures r.Err? <==> exists i :: 0 <= i < |s| && Unlabelled(s[i])
    ensures r.Ok? ==> r.value.Keys == Ids(s)
    ensures r.Ok? ==> forall i :: 0 <= i < |s| && s[i].tag == NodeTag && "id" in s[i].attrs && LastWithId(s, i) ==>
      "label" in s[i].attrs && r.value[s[i].attrs["id"]] == s[i].attrs["label"]
    decreases |s|
  {
    if s == [] then Ok(map[])
    else
      var init := s[..|s| - 1];
      var last := s[|s| - 1];
      UnlabelledSnoc(s);
      var m :- NodeLabels(init);
      IdsSnoc(s);
      if last.tag != NodeTag then
        LabelsSnoc(s, m, m);
        Ok(m)
      else if "id" !in last.attrs then Err(MissingAttribute("node", "id"))
      else if "label" !in last.attrs then Err(MissingAttribute("node", "label"))
      else
        var m' := m[last.attrs["id"] := last.attrs["label"]];
        LabelsSnoc(s, m, m');
        Ok(m')
  }

  predicate SomeUnlabelled(s: seq<Element>)
  {
    exists i :: 0 <= i < |s| && Unlabelled(s[i])
  }

  lemma UnlabelledSnoc(s: seq<Element>)
    requires |s| > 0
    ensures SomeUnlabelled(s) <==> SomeUnlabelled(s[..|s| - 1]) || Unlabelled(s[|s| - 1])
  {
    var init := s[..|s| - 1];
    assert forall i :: 0 <= i < |init| ==> init[i] == s[i];
  }

  /** One more node: the labels of the earlier nodes stay, except where the
      new node's id overrides them. */
  lemma LabelsSnoc(s: seq<Element>, m: map<string, string>, m': map<string, string>)
    requires |s| > 0
    requires var init := s[..|s| - 1];
      forall i :: 0 <= i < |init| && init[i].tag == NodeTag && "id" in init[i].attrs && LastWithId(init, i) ==>
        "label" in init[i].attrs && init[i].attrs["id"] in m && m[init[i].attrs["id"]] == init[i].attrs["label"]
    requires var last := s[|s| - 1];
      if last.tag == NodeTag && "id" in last.attrs && "label" in last.attrs
      then m' == m[last.attrs["id"] := last.attrs["label"]]
      else last.tag != NodeTag && m' == m
    ensures forall i :: 0 <= i < |s| && s[i].tag == NodeTag && "id" in s[i].attrs && LastWithId(s, i) ==>
      "label" in s[i].attrs && s[i].attrs["id"] in m' && m'[s[i].attrs["id"]] == s[i].attrs["label"]
  {
    var init := s[..|s| - 1];
    forall i | 0 <= i < |s| && s[i].tag == NodeTag && "id" in s[i].attrs && LastWithId(s, i)
      ensures "label" in s[i].attrs && s[i].attrs["id"] in m' && m'[s[i].attrs["id"]] == s[i].attrs["label"]
    {
      if i < |init| {
        assert init[i] == s[i];
        assert LastWithId(init, i) by {
          forall j | i < j < |init| && init[j].tag == NodeTag && "id" in init[j].attrs
            ensures init[j].attrs["id"] != init[i].attrs["id"]
          {
            assert init[j] == s[j];
          }
        }
      }
    }
  }

  /** The entries of the first `attvalues` child, or none when there is no
      such child. */
  function Entries(children: seq<Element>): seq<Element>
  {
    match Find(children, AttValuesTag)
    case None => []
    case Some(i) => children[i].children
  }

  /** Lines 121-125 (and 142-146): an `attvalue` for the column is appended
      to the first `attvalues` child, which is created when there is none.
      Only that container changes, and there is exactly one more entry. */
  function AddAttValue(e: Element, name: string, value: string): (r: Element)
    ensures r.tag == e.tag && r.attrs == e.attrs
    ensures Entries(r.children) == Entries(e.children) + [AttValue(name, value)]
    ensures DeleteFirst(r.children, AttValuesTag) == DeleteFirst(e.children, AttValuesTag)
    ensures CountTag(r.children, AttValuesTag) ==
      if CountTag(e.children, AttValuesTag) == 0 then 1 else CountTag(e.children, AttValuesTag)
    ensures WithoutTag(r.children, AttValuesTag) == WithoutTag(e.children, AttValuesTag)
    ensures Find(e.children, AttValuesTag).None? ==>
      r.children == e.children + [Element(AttValuesTag, map[], [AttValue(name, value)])]
    ensures Find(e.children, AttValuesTag).Some? ==>
      var i := Find(e.children, AttValuesTag).value;
      && |r.children| == |e.children|
      && r.children[i].tag == e.children[i].tag && r.children[i].attrs == e.children[i].attrs
      && r.children[i].children == e.children[i].children + [AttValue(name, value)]
      && forall j :: 0 <= j < |e.children| && j != i ==> r.children[j] == e.children[j]
  {
    var entry := AttValue(name, value);
    match Find(e.children, AttValuesTag)
    case None =>
      var container := Element(AttValuesTag, map[], [entry]);
      var r := e.(children := e.children + [container]);
      AddedContainer(e.children, container);
      AppendedContainer(e.children, container);
      r
    case Some(i) =>
      var c := AppendChild(e.children[i], entry);
      assert c.tag == e.children[i].tag && c.attrs == e.children[i].attrs && c.children == e.children[i].children + [entry];
      ExtendedContainer(e.children, i, c);
      e.(children := e.children[i := c])
  }

  lemma AddedContainer(s: seq<Element>, c: Element)
    requires Find(s, AttValuesTag).None? && c.tag == AttValuesTag
    ensures Find(s + [c], AttValuesTag) == Some(|s|)
    ensures DeleteFirst(s + [c], AttValuesTag) == s
    ensures CountTag(s, AttValuesTag) == 0 && CountTag(s + [c], AttValuesTag) == 1
    ensures Entries(s) == [] && Entries(s + [c]) == c.children
  {
    FirstWhereIs(s + [c], |s|, HasTag(AttValuesTag));
    assert RemoveAt(s + [c], |s|) == s;
    CountWhereZero(s, HasTag(AttValuesTag));
    CountWhereAppend(s, [c], HasTag(AttValuesTag));
    assert [c][1..] == [];
  }

  /** Appending a container keeps the children outside the containers. */
  lemma AppendedContainer(s: seq<Element>, c: Element)
    requires c.tag == AttValuesTag
    ensures WithoutTag(s + [c], AttValuesTag) == WithoutTag(s, AttValuesTag)
  {
    WithoutTagAppend(s, [c], AttValuesTag);
    WithoutTagSingle(c, AttValuesTag);
  }

  lemma ExtendedContainer(s: seq<Element>, i: nat, c: Element)
    requires Find(s, AttValuesTag) == Some(i) && c.tag == AttValuesTag
    ensures Find(s[i := c], AttValuesTag) == Some(i)
    ensures DeleteFirst(s[i := c], AttValuesTag) == DeleteFirst(s, AttValuesTag)
    ensures CountTag(s[i := c], AttValuesTag) == CountTag(s, AttValuesTag) > 0
    ensures WithoutTag(s[i := c], AttValuesTag) == WithoutTag(s, AttValuesTag)
    ensures Entries(s) == s[i].children && Entries(s[i := c]) == c.children
  {
    WithoutTagUpdate(s, i, c, AttValuesTag);
    FirstWhereIs(s[i := c], i, HasTag(AttValuesTag));
    assert RemoveAt(s[i := c], i) == RemoveAt(s, i);
    CountWhereUpdate(s, i, c, HasTag(AttValuesTag));
    CountWhereZero(s, HasTag(AttValuesTag));
  }

  /** Lines 115-119: the value is split on commas into `r,g,b,a`, which
      fails unless there are exactly three commas; the first `viz:color`
      child is removed and a new one appended. The other children are
      untouched, a node ends with one colour child if it had none (and one
      fewer plus the new one otherwise), and the new colour's components
      joined with commas give back the value. */
  function SetColor(e: Element, value: string): (r: Result<Element>)
    ensures r.Err? <==> Count(value, ',') != 3
    ensures r.Ok? ==> r.value.tag == e.tag && r.value.attrs == e.attrs
    ensures r.Ok? ==> WithoutTag(r.value.children, ColorTag) == WithoutTag(e.children, ColorTag)
    ensures r.Ok? ==> (CountTag(r.value.children, ColorTag) ==
      if CountTag(e.children, ColorTag) == 0 then 1 else CountTag(e.children, ColorTag))
    ensures r.Ok? ==> |r.value.children| > 0 && IsColor(r.value.children[|r.value.children| - 1], value)
    ensures r.Ok? ==> r.value.children[..|r.value.children| - 1] == DeleteFirst(e.children, ColorTag)
  {
    var parts := Split(value, ',');
    if |parts| != 4 then Err(MalformedColor(value))
    else
      var color := ColorElement(parts);
      ColorRejoins(value);
      ReplaceColor(e.children, color);
      Ok(e.(children := DeleteFirst(e.children, ColorTag) + [color]))
  }

  /** The colour built from a value with three commas rejoins to it. */
  lemma ColorRejoins(value: string)
    requires Count(value, ',') == 3
    ensures IsColor(ColorElement(Split(value, ',')), value)
  {
    var parts := Split(value, ',');
    JoinSplit(value, ',');
    assert parts == [parts[0], parts[1], parts[2], parts[3]];
  }

  /** Dropping the first colour child and appending a new one. */
  lemma ReplaceColor(s: seq<Element>, color: Element)
    requires color.tag == ColorTag
    ensures WithoutTag(DeleteFirst(s, ColorTag) + [color], ColorTag) == WithoutTag(s, ColorTag)
    ensures CountTag(DeleteFirst(s, ColorTag) + [color], ColorTag) ==
      if CountTag(s, ColorTag) == 0 then 1 else CountTag(s, ColorTag)
  {
    var kept := DeleteFirst(s, ColorTag);
    DeleteFirstOthers(s, ColorTag);
    WithoutTagAppend(kept, [color], ColorTag);
    CountWhereAppend(kept, [color], HasTag(ColorTag));
    assert [color][1..] == [];
  }

  /** A `viz:color` element with exactly the attributes `r`, `g`, `b` and
      `a`, no children, and components that, joined with commas, are
      `value`. */
  predicate IsColor(c: Element, value: string)
  {
    && c.tag == ColorTag
    && c.attrs.Keys == {"r", "g", "b", "a"} && c.children == []
    && Join([c.attrs["r"], c.attrs["g"], c.attrs["b"], c.attrs["a"]], ',') == value
  }

  /** The text of the cell a column holds for a label. */
  function Lookup(col: NodeColumn, nodeLabel: string): Option<string>
  {
    if Str(nodeLabel) in col.values then Some(Show(col.values[Str(nodeLabel)])) else None
  }

  /** The cell a column holds for a node, looked up by the node's label. */
  function NodeValue(node: Element, col: NodeColumn): Option<string>
    requires "label" in node.attrs
  {
    Lookup(col, node.attrs["label"])
  }

  /** Lines 108-125 for one node and one column: a node without a label
      fails; a node whose label the column does not hold is left as it is;
      the colour column replaces the node's colour and fails on a value
      without exactly three commas; any other column adds an `attvalue`
      and leaves every other child alone. Children that are not `node`
      elements are not visited. */
  function AnnotateNode(node: Element, col: NodeColumn, color: Option<string>): (r: Result<Element>)
    ensures node.tag != NodeTag ==> r == Ok(node)
    ensures node.tag == NodeTag && "label" !in node.attrs ==> r.Err?
    ensures node.tag == NodeTag && "label" in node.attrs && NodeValue(node, col).None? ==> r == Ok(node)
    ensures r.Ok? ==> r.value.tag == node.tag && r.value.attrs == node.attrs
    ensures node.tag == NodeTag && "label" in node.attrs && NodeValue(node, col).Some? && color == Some(col.name) ==>
      && (r.Err? <==> Count(NodeValue(node, col).value, ',') != 3)
      && (r.Ok? ==> WithoutTag(r.value.children, ColorTag) == WithoutTag(node.children, ColorTag))
      && (r.Ok? ==> |r.value.children| > 0 && IsColor(r.value.children[|r.value.children| - 1], NodeValue(node, col).value))
    ensures node.tag == NodeTag && "label" in node.attrs && NodeValue(node, col).Some? && color != Some(col.name) ==>
      && r.Ok?
      && Entries(r.value.children) == Entries(node.children) + [AttValue(col.name, NodeValue(node, col).value)]
      && DeleteFirst(r.value.children, AttValuesTag) == DeleteFirst(node.children, AttValuesTag)
  {
    if node.tag != NodeTag then Ok(node)
    else if "label" !in node.attrs then Err(MissingAttribute("node", "label"))
    else
      match NodeValue(node, col)
      case None => Ok(node)
      case Some(value) =>
        if color == Some(col.name) then SetColor(node, value)
        else Ok(AddAttValue(node, col.name, value))
  }

  /** The key an edge is looked up by: the labels of its two endpoints. It
      fails when the edge lacks its `source` or `target`, or names a node
      the node dictionary does not hold. */
  function EdgeKey(edge: Element, labels: map<string, string>): (r: Result<(Cell, Cell)>)
    ensures r.Err? <==> !(&& "source" in edge.attrs && "target" in edge.attrs
                          && edge.attrs["source"] in labels && edge.attrs["target"] in labels)
    ensures r.Ok? ==> r.value.0 == Str(labels[edge.attrs["source"]]) && r.value.1 == Str(labels[edge.attrs["target"]])
  {
    if "source" !in edge.attrs then Err(MissingAttribute("edge", "source"))
    else if "target" !in edge.attrs then Err(MissingAttribute("edge", "target"))
    else
      var src := edge.attrs["source"];
      var tgt := edge.attrs["target"];
      if src !in labels then Err(UnknownNode(src))
      else if tgt !in labels then Err(UnknownNode(tgt))
      else Ok((Str(labels[src]), Str(labels[tgt])))
  }

  /** Lines 131-146 for one edge and one column: the edge is looked up by
      its endpoints' labels; an edge the column does not hold is left as
      it is; the weight column overwrites the edge's `weight` and nothing
      else; any other column adds an `attvalue`. Children that are not
      `edge` elements are not visited. */
  function AnnotateEdge(edge: Element, col: EdgeColumn, labels: map<string, string>, weight: Option<string>): (r: Result<Element>)
    ensures edge.tag != EdgeTag ==> r == Ok(edge)
    ensures edge.tag == EdgeTag ==> (r.Err? <==> EdgeKey(edge, labels).Err?)
    ensures edge.tag == EdgeTag && EdgeKey(edge, labels).Ok? && !Holds(edge, col, labels) ==> r == Ok(edge)
    ensures r.Ok? ==> r.value.tag == edge.tag && EdgeKey(r.value, labels) == EdgeKey(edge, labels)
    ensures edge.tag == EdgeTag && EdgeKey(edge, labels).Ok? && EdgeKey(edge, labels).value in col.values && weight == Some(col.name) ==>
      && r.Ok? && r.value.children == edge.children
      && r.value.attrs.Keys == edge.attrs.Keys + {"weight"}
      && r.value.attrs["weight"] == Show(col.values[EdgeKey(edge, labels).value])
      && forall k :: k in edge.attrs && k != "weight" ==> r.value.attrs[k] == edge.attrs[k]
    ensures edge.tag == EdgeTag && EdgeKey(edge, labels).Ok? && EdgeKey(edge, labels).value in col.values && weight != Some(col.name) ==>
      && r.Ok? && r.value.attrs == edge.attrs
      && Entries(r.value.children) == Entries(edge.children) + [AttValue(col.name, Show(col.values[EdgeKey(edge, labels).value]))]
      && DeleteFirst(r.value.children, AttValuesTag) == DeleteFirst(edge.children, AttValuesTag)
  {
    if edge.tag != EdgeTag then Ok(edge)
    else
      var key :- EdgeKey(edge, labels);
      if key !in col.values then Ok(edge)
      else
        var value := Show(col.values[key]);
        if weight == Some(col.name) then Ok(edge.(attrs := edge.attrs["weight" := value]))
        else Ok(AddAttValue(edge, col.name, value))
  }

  /** The column holds a value for the edge. */
  predicate Holds(edge: Element, col: EdgeColumn, labels: map<string, string>)
  {
    EdgeKey(edge, labels).Ok? && EdgeKey(edge, labels).value in col.values
  }

  /** With a direction-agnostic column, as the edge table reader builds,
      the column holds a value for an edge exactly when it holds one for
      the edge with its endpoints swapped. */
  lemma EdgeDirectionAgnostic(edge: Element, col: EdgeColumn, labels: map<string, string>)
    requires "source" in edge.attrs && "target" in edge.attrs
    requires forall a, b :: (a, b) in col.values ==> (b, a) in col.values
    ensures var swapped := edge.(attrs := edge.attrs["source" := edge.attrs["target"]]["target" := edge.attrs["source"]]);
      Holds(edge, col, labels) <==> Holds(swapped, col, labels)
  {
    var swapped := edge.(attrs := edge.attrs["source" := edge.attrs["target"]]["target" := edge.attrs["source"]]);
    if EdgeKey(edge, labels).Ok? {
      var k := EdgeKey(edge, labels).value;
      assert EdgeKey(swapped, labels).value == (k.1, k.0);
    }
  }

  /** Every column applied to one element in turn, stopping at the first
      failure. */
  function Steps<C>(e: Element, cols: seq<C>, step: (C, Element) -> Result<Element>): Result<Element>
    decreases |cols|
  {
    if cols == [] then Ok(e)
    else
      var e' :- step(cols[0], e);
      Steps(e', cols[1..], step)
  }

  /** Lines 104-125 (and 127-146): for each column in order, its
      declaration is appended to the attributes block, which fails when the
      column has no type, and then every child of the container is
      rewritten by the column. The loops run column outside, element
      inside; the outcome is as if every child had been rewritten by all
      the columns in turn (`PassOk`, `PassDeclares`, `PassRewrites`). */
  function Pass<C>(block: Element, container: Element, cols: seq<C>, name: C -> string,
                   types: map<string, AttrType>, step: (C, Element) -> Result<Element>): (r: Result<(Element, Element)>)
    ensures r.Ok? ==> r.value.0.tag == block.tag && r.value.0.attrs == block.attrs
    ensures r.Ok? ==> r.value.1.tag == container.tag && r.value.1.attrs == container.attrs
    ensures r.Ok? ==> |r.value.0.children| == |block.children| + |cols|
    ensures r.Ok? ==> |r.value.1.children| == |container.children|
    ensures (exists k :: 0 <= k < |cols| && name(cols[k]) !in types) ==> r.Err?
    decreases |cols|
  {
    if cols == [] then Ok((block, container))
    else
      var n := name(cols[0]);
      if n !in types then Err(UntypedColumn(n))
      else
        var mapped := MapAll(container.children, ColumnStep(step, cols[0]));
        if mapped.Err? then Err(mapped.error)
        else
          var container' := container.(children := mapped.value);
          Pass(AppendChild(block, Declaration(n, types[n])), container', cols[1..], name, types, step)
  }

  /** The whole pass succeeds exactly when every column is typed and every
      child's rewrite by all the columns succeeds. */
  lemma {:induction false} PassOk<C>(block: Element, container: Element, cols: seq<C>, name: C -> string,
                                     types: map<string, AttrType>, step: (C, Element) -> Result<Element>)
    ensures Pass(block, container, cols, name, types, step).Ok? <==>
      && (forall k :: 0 <= k < |cols| ==> name(cols[k]) in types)
      && (forall i :: 0 <= i < |container.children| ==> Steps(container.children[i], cols, step).Ok?)
    decreases |cols|
  {
    if cols != [] && name(cols[0]) in types {
      var n := name(cols[0]);
      var mapped := MapAll(container.children, ColumnStep(step, cols[0]));
      if mapped.Err? {
        assert exists i :: 0 <= i < |container.children| && ColumnStep(step, cols[0])(container.children[i]).Err?;
      } else {
        var container' := container.(children := mapped.value);
        assert forall k :: 0 < k < |cols| ==> cols[k] == cols[1..][k - 1];
        StepsMapped(container, cols, step);
        PassOk(AppendChild(block, Declaration(n, types[n])), container', cols[1..], name, types, step);
      }
    }
  }

  /** One column's rewrite as a function of the element. */
  function ColumnStep<C>(step: (C, Element) -> Result<Element>, c: C): Element -> Result<Element>
  {
    (e: Element) => step(c, e)
  }

  /** Rewriting every child by the first column, then by the rest, is
      rewriting it by all the columns. */
  lemma StepsMapped<C>(container: Element, cols: seq<C>, step: (C, Element) -> Result<Element>)
    requires |cols| > 0 && MapAll(container.children, ColumnStep(step, cols[0])).Ok?
    ensures var after := MapAll(container.children, ColumnStep(step, cols[0])).value;
      forall i :: 0 <= i < |container.children| ==>
        Steps(container.children[i], cols, step) == Steps(after[i], cols[1..], step)
  {
  }

  /** A pass reads the types map only at its columns' names: two maps that
      agree there give the same pass. */
  lemma {:induction false} PassTypesAgree<C>(block: Element, container: Element, cols: seq<C>, name: C -> string,
                                             t1: map<string, AttrType>, t2: map<string, AttrType>,
                                             step: (C, Element) -> Result<Element>)
    requires forall k :: 0 <= k < |cols| ==> (name(cols[k]) in t1 <==> name(cols[k]) in t2)
    requires forall k :: 0 <= k < |cols| && name(cols[k]) in t1 ==> t1[name(cols[k])] == t2[name(cols[k])]
    ensures Pass(block, container, cols, name, t1, step) == Pass(block, container, cols, name, t2, step)
    decreases |cols|
  {
    if cols != [] && name(cols[0]) in t1 {
      var n := name(cols[0]);
      var mapped := MapAll(container.children, ColumnStep(step, cols[0]));
      if mapped.Ok? {
        assert forall k :: 0 < k < |cols| ==> cols[k] == cols[1..][k - 1];
        PassTypesAgree(AppendChild(block, Declaration(n, t1[n])), container.(children := mapped.value),
                       cols[1..], name, t1, t2, step);
      }
    }
  }

  /** A successful pass appends one declaration per column to the block,
      in column order, each typed by `types`. */
  lemma {:induction false} PassDeclares<C>(block: Element, container: Element, cols: seq<C>, name: C -> string,
                                           types: map<string, AttrType>, step: (C, Element) -> Result<Element>)
    requires Pass(block, container, cols, name, types, step).Ok?
    ensures Declares(Pass(block, container, cols, name, types, step).value.0, block.children, cols, name, types)
    decreases |cols|
  {
    var b := Pass(block, container, cols, name, types, step).value.0;
    if cols == [] {
      assert b.children[..|block.children|] == block.children;
    } else {
      var n := name(cols[0]);
      var block' := AppendChild(block, Declaration(n, types[n]));
      var container' := container.(children := MapAll(container.children, ColumnStep(step, cols[0])).value);
      assert Pass(block, container, cols, name, types, step) == Pass(block', container', cols[1..], name, types, step);
      PassDeclares(block', container', cols[1..], name, types, step);
      assert b.children[..|block'.children|] == block'.children;
      assert b.children[..|block.children|] == block.children by {
        assert b.children[..|block.children|] == b.children[..|block'.children|][..|block.children|];
      }
      forall k | 0 <= k < |cols|
        ensures name(cols[k]) in types && b.children[|block.children| + k] == Declaration(name(cols[k]), types[name(cols[k])])
      {
        if k == 0 {
          assert b.children[|block.children|] == block'.children[|block.children|];
        } else {
          assert cols[k] == cols[1..][k - 1];
        }
      }
    }
  }

  /** A successful pass leaves as many children in the container, child
      `i` rewritten by every column in turn. */
  lemma {:induction false} PassSteps<C>(block: Element, container: Element, cols: seq<C>, name: C -> string,
                                        types: map<string, AttrType>, step: (C, Element) -> Result<Element>)
    requires Pass(block, container, cols, name, types, step).Ok?
    ensures var after := Pass(block, container, cols, name, types, step).value.1;
      && |after.children| == |container.children|
      && forall i :: 0 <= i < |container.children| ==> Steps(container.children[i], cols, step) == Ok(after.children[i])
    decreases |cols|
  {
    if cols != [] {
      var n := name(cols[0]);
      var block' := AppendChild(block, Declaration(n, types[n]));
      var mapped := MapAll(container.children, ColumnStep(step, cols[0]));
      var container' := container.(children := mapped.value);
      assert Pass(block, container, cols, name, types, step) == Pass(block', container', cols[1..], name, types, step);
      PassSteps(block', container', cols[1..], name, types, step);
      StepsMapped(container, cols, step);
    }
  }

  function NodeStep(color: Option<string>): (NodeColumn, Element) -> Result<Element>
  {
    (c: NodeColumn, e: Element) => AnnotateNode(e, c, color)
  }

  function EdgeStep(labels: map<string, string>, weight: Option<string>): (EdgeColumn, Element) -> Result<Element>
  {
    (c: EdgeColumn, e: Element) => AnnotateEdge(e, c, labels, weight)
  }

  /** `Entries` sees through every child that is not an `attvalues`
      element. */
  lemma EntriesCons(s: seq<Element>)
    requires |s| > 0
    ensures Entries(s) == if s[0].tag == AttValuesTag then s[0].children else Entries(s[1..])
  {
  }

  /** Colour children play no part in `Entries`. */
  lemma {:induction false} EntriesIgnoreColor(a: seq<Element>, b: seq<Element>)
    requires WithoutTag(a, ColorTag) == WithoutTag(b, ColorTag)
    ensures Entries(a) == Entries(b)
    decreases |a| + |b|
  {
    if |a| > 0 && a[0].tag == ColorTag {
      EntriesCons(a);
      EntriesIgnoreColor(a[1..], b);
    } else if |b| > 0 && b[0].tag == ColorTag {
      EntriesCons(b);
      EntriesIgnoreColor(a, b[1..]);
    } else if |a| > 0 || |b| > 0 {
      // Neither starts with a colour, so each keeps its head: both are non-empty.
      assert |a| > 0 ==> WithoutTag(a, ColorTag) == [a[0]] + WithoutTag(a[1..], ColorTag);
      assert |b| > 0 ==> WithoutTag(b, ColorTag) == [b[0]] + WithoutTag(b[1..], ColorTag);
      assert |a| > 0 && |b| > 0;
      assert a[0] == WithoutTag(a, ColorTag)[0] == WithoutTag(b, ColorTag)[0] == b[0];
      assert WithoutTag(a[1..], ColorTag) == WithoutTag(a, ColorTag)[1..];
      assert WithoutTag(b[1..], ColorTag) == WithoutTag(b, ColorTag)[1..];
      EntriesCons(a);
      EntriesCons(b);
      EntriesIgnoreColor(a[1..], b[1..]);
    }
  }

  /** The entries the node columns add to a node with this label, in
      column order: one for each column holding the label, the colour
      column excepted. */
  function NodeEntries(nodeLabel: string, cols: seq<NodeColumn>, color: Option<string>): seq<Element>
    decreases |cols|
  {
    if cols == [] then []
    else
      (if Lookup(cols[0], nodeLabel).Some? && color != Some(cols[0].name)
       then [AttValue(cols[0].name, Lookup(cols[0], nodeLabel).value)] else []) +
      NodeEntries(nodeLabel, cols[1..], color)
  }

  /** The colour column holds a value for the label that is not four
      comma-separated components. */
  predicate BadColor(nodeLabel: string, col: NodeColumn, color: Option<string>)
  {
    color == Some(col.name) && Lookup(col, nodeLabel).Some? && Count(Lookup(col, nodeLabel).value, ',') != 3
  }

  /** What one node column does to a labelled node, in the terms the
      whole pass needs. */
  lemma NodeStepFacts(node: Element, col: NodeColumn, color: Option<string>)
    requires node.tag == NodeTag && "label" in node.attrs
    ensures var r := NodeStep(color)(col, node);
      && (r.Err? <==> BadColor(node.attrs["label"], col, color))
      && (r.Ok? ==> r.value.tag == node.tag && r.value.attrs == node.attrs)
      && (r.Ok? ==> Entries(r.value.children) == Entries(node.children) + NodeEntries(node.attrs["label"], [col], color))
  {
    var r := AnnotateNode(node, col, color);
    assert NodeStep(color)(col, node) == r;
    assert [col][1..] == [];
    if r.Ok? && Lookup(col, node.attrs["label"]).Some? && color == Some(col.name) {
      EntriesIgnoreColor(r.value.children, node.children);
    }
  }

  /** `NodeEntries` over a non-empty list of columns. */
  lemma NodeEntriesCons(nodeLabel: string, cols: seq<NodeColumn>, color: Option<string>)
    requires |cols| > 0
    ensures NodeEntries(nodeLabel, cols, color) == NodeEntries(nodeLabel, [cols[0]], color) + NodeEntries(nodeLabel, cols[1..], color)
  {
    assert [cols[0]][1..] == [];
  }

  /** Across all node columns, a labelled node fails exactly when the
      colour column holds a malformed colour for it. */
  lemma {:induction false} NodeStepsFail(node: Element, cols: seq<NodeColumn>, color: Option<string>)
    requires node.tag == NodeTag && "label" in node.attrs
    ensures Steps(node, cols, NodeStep(color)).Err? <==>
      exists k :: 0 <= k < |cols| && BadColor(node.attrs["label"], cols[k], color)
    decreases |cols|
  {
    if cols != [] {
      NodeStepFacts(node, cols[0], color);
      var first := NodeStep(color)(cols[0], node);
      assert forall k :: 0 < k < |cols| ==> cols[k] == cols[1..][k - 1];
      if first.Ok? {
        StepsCons(node, cols, NodeStep(color));
        NodeStepsFail(first.value, cols[1..], color);
      }
    }
  }

  /** Across all node columns, a labelled node that comes through keeps its
      tag and attributes. */
  lemma {:induction false} NodeStepsKeep(node: Element, cols: seq<NodeColumn>, color: Option<string>)
    requires node.tag == NodeTag && "label" in node.attrs
    ensures Steps(node, cols, NodeStep(color)).Ok? ==>
      Steps(node, cols, NodeStep(color)).value.tag == node.tag &&
      Steps(node, cols, NodeStep(color)).value.attrs == node.attrs
    decreases |cols|
  {
    if cols != [] {
      NodeStepFacts(node, cols[0], color);
      var first := NodeStep(color)(cols[0], node);
      if first.Ok? {
        StepsCons(node, cols, NodeStep(color));
        NodeStepsKeep(first.value, cols[1..], color);
      }
    }
  }

  /** Across all node columns, a labelled node that comes through gains one
      entry per column holding its label, in column order. */
  lemma {:induction false} NodeStepsEntries(node: Element, cols: seq<NodeColumn>, color: Option<string>)
    requires node.tag == NodeTag && "label" in node.attrs
    ensures Steps(node, cols, NodeStep(color)).Ok? ==>
      Entries(Steps(node, cols, NodeStep(color)).value.children) ==
      Entries(node.children) + NodeEntries(node.attrs["label"], cols, color)
    decreases |cols|
  {
    if cols != [] {
      NodeStepFacts(node, cols[0], color);
      var first := NodeStep(color)(cols[0], node);
      if first.Ok? {
        StepsCons(node, cols, NodeStep(color));
        NodeStepsEntries(first.value, cols[1..], color);
        NodeEntriesCons(node.attrs["label"], cols, color);
      }
    }
  }

  /** `Steps` after a first step that succeeds. */
  lemma StepsCons<C>(e: Element, cols: seq<C>, step: (C, Element) -> Result<Element>)
    requires |cols| > 0 && step(cols[0], e).Ok?
    ensures Steps(e, cols, step) == Steps(step(cols[0], e).value, cols[1..], step)
  {
  }

  /** A node whose label no column holds comes through every column
      unchanged; so does any child that is not a `node`. */
  lemma {:induction false} NodeUntouched(node: Element, cols: seq<NodeColumn>, color: Option<string>)
    requires node.tag != NodeTag || ("label" in node.attrs && forall k :: 0 <= k < |cols| ==> NodeValue(node, cols[k]).None?)
    ensures Steps(node, cols, NodeStep(color)) == Ok(node)
    decreases |cols|
  {
    if cols != [] {
      assert forall k :: 0 < k < |cols| ==> cols[k] == cols[1..][k - 1];
      NodeUntouched(node, cols[1..], color);
    }
  }

  /** The colour column holds a value for the label, so it rewrites the
      node's colour. */
  predicate SetsColor(nodeLabel: string, col: NodeColumn, color: Option<string>)
  {
    color == Some(col.name) && Lookup(col, nodeLabel).Some?
  }

  /** The children annotation never touches: all but `viz:color` and
      `attvalues`. */
  function Plain(s: seq<Element>): seq<Element>
  {
    WithoutTag(WithoutTag(s, ColorTag), AttValuesTag)
  }

  /** Outside the `attvalues`, the last child is the colour `value`. */
  predicate EndsWithColor(children: seq<Element>, value: string)
  {
    var w := WithoutTag(children, AttValuesTag);
    |w| > 0 && IsColor(w[|w| - 1], value)
  }

  /** One node column keeps the plain children; a column that does not set
      the colour keeps every child but the `attvalues`; the colour column
      leaves its colour as the last child outside the `attvalues`. */
  lemma NodeStepShape(node: Element, col: NodeColumn, color: Option<string>)
    requires node.tag == NodeTag && "label" in node.attrs
    ensures var r := NodeStep(color)(col, node);
      && (r.Ok? ==> r.value.tag == node.tag && r.value.attrs == node.attrs)
      && (r.Ok? ==> Plain(r.value.children) == Plain(node.children))
      && (r.Ok? && !SetsColor(node.attrs["label"], col, color) ==>
            WithoutTag(r.value.children, AttValuesTag) == WithoutTag(node.children, AttValuesTag))
      && (r.Ok? && SetsColor(node.attrs["label"], col, color) ==>
            EndsWithColor(r.value.children, Lookup(col, node.attrs["label"]).value))
  {
    var r := AnnotateNode(node, col, color);
    assert NodeStep(color)(col, node) == r;
    var nodeLabel := node.attrs["label"];
    if r.Ok? && Lookup(col, nodeLabel).Some? {
      if color == Some(col.name) {
        var s := r.value.children;
        var c := s[|s| - 1];
        assert s == s[..|s| - 1] + [c];
        WithoutTagAppend(s[..|s| - 1], [c], AttValuesTag);
        WithoutTagSingle(c, AttValuesTag);
      } else {
        WithoutTagCommute(r.value.children, ColorTag, AttValuesTag);
        WithoutTagCommute(node.children, ColorTag, AttValuesTag);
      }
    }
  }

  /** Across all node columns, a labelled node that comes through keeps
      every child that is neither its colour nor its `attvalues`. */
  lemma {:induction false} NodeStepsPlain(node: Element, cols: seq<NodeColumn>, color: Option<string>)
    requires node.tag == NodeTag && "label" in node.attrs
    ensures Steps(node, cols, NodeStep(color)).Ok? ==>
      Plain(Steps(node, cols, NodeStep(color)).value.children) == Plain(node.children)
    decreases |cols|
  {
    if cols != [] {
      NodeStepFacts(node, cols[0], color);
      NodeStepShape(node, cols[0], color);
      var first := NodeStep(color)(cols[0], node);
      if first.Ok? {
        StepsCons(node, cols, NodeStep(color));
        NodeStepsPlain(first.value, cols[1..], color);
      }
    }
  }

  /** Without a colour column holding the node's label, a node that comes
      through keeps every child but its `attvalues`, colour included. */
  lemma {:induction false} NodeStepsNoColor(node: Element, cols: seq<NodeColumn>, color: Option<string>)
    requires node.tag == NodeTag && "label" in node.attrs
    requires forall k :: 0 <= k < |cols| ==> !SetsColor(node.attrs["label"], cols[k], color)
    ensures Steps(node, cols, NodeStep(color)).Ok? ==>
      WithoutTag(Steps(node, cols, NodeStep(color)).value.children, AttValuesTag) == WithoutTag(node.children, AttValuesTag)
    decreases |cols|
  {
    if cols != [] {
      NodeStepFacts(node, cols[0], color);
      NodeStepShape(node, cols[0], color);
      var first := NodeStep(color)(cols[0], node);
      assert forall k :: 0 < k < |cols| ==> cols[k] == cols[1..][k - 1];
      if first.Ok? {
        StepsCons(node, cols, NodeStep(color));
        NodeStepsNoColor(first.value, cols[1..], color);
      }
    }
  }

  /** When the first column sets the node's colour and no later one does,
      a node that comes through ends, outside its `attvalues`, with that
      colour. */
  lemma NodeStepsColorFirst(node: Element, cols: seq<NodeColumn>, color: Option<string>)
    requires node.tag == NodeTag && "label" in node.attrs
    requires |cols| > 0 && SetsColor(node.attrs["label"], cols[0], color)
    requires forall k :: 0 < k < |cols| ==> !SetsColor(node.attrs["label"], cols[k], color)
    ensures Steps(node, cols, NodeStep(color)).Ok? ==>
      EndsWithColor(Steps(node, cols, NodeStep(color)).value.children, Lookup(cols[0], node.attrs["label"]).value)
  {
    NodeStepShape(node, cols[0], color);
    var first := NodeStep(color)(cols[0], node);
    if first.Ok? {
      StepsCons(node, cols, NodeStep(color));
      ColorTail(node.attrs["label"], cols, color, 0);
      NodeStepsNoColor(first.value, cols[1..], color);
    }
  }

  /** When column `j` is the last to set the node's colour, a node that
      comes through ends, outside its `attvalues`, with the colour column
      `j` gives it. */
  lemma {:induction false} NodeStepsColor(node: Element, cols: seq<NodeColumn>, color: Option<string>, j: nat)
    requires node.tag == NodeTag && "label" in node.attrs
    requires j < |cols| && SetsColor(node.attrs["label"], cols[j], color)
    requires forall k :: j < k < |cols| ==> !SetsColor(node.attrs["label"], cols[k], color)
    ensures Steps(node, cols, NodeStep(color)).Ok? ==>
      EndsWithColor(Steps(node, cols, NodeStep(color)).value.children, Lookup(cols[j], node.attrs["label"]).value)
    decreases |cols|
  {
    if j == 0 {
      NodeStepsColorFirst(node, cols, color);
    } else {
      NodeStepShape(node, cols[0], color);
      var first := NodeStep(color)(cols[0], node);
      if first.Ok? {
        StepsCons(node, cols, NodeStep(color));
        ColorTail(node.attrs["label"], cols, color, j);
        NodeStepsColor(first.value, cols[1..], color, j - 1);
      }
    }
  }

  /** The columns after `j` that leave the colour alone are, in the tail,
      those after `j - 1`. */
  lemma ColorTail(nodeLabel: string, cols: seq<NodeColumn>, color: Option<string>, j: nat)
    requires j < |cols| && forall k :: j < k < |cols| ==> !SetsColor(nodeLabel, cols[k], color)
    ensures forall k :: j <= k < |cols| - 1 ==> !SetsColor(nodeLabel, cols[1..][k], color)
    ensures j > 0 ==> cols[1..][j - 1] == cols[j]
  {
    assert forall k :: j <= k < |cols| - 1 ==> cols[1..][k] == cols[k + 1];
  }

  /** The entries the edge columns add to an edge with this key, in column
      order: one for each column holding the key, the weight column
      excepted. */
  function EdgeEntries(key: (Cell, Cell), cols: seq<EdgeColumn>, weight: Option<string>): seq<Element>
    decreases |cols|
  {
    if cols == [] then []
    else
      (if key in cols[0].values && weight != Some(cols[0].name)
       then [AttValue(cols[0].name, Show(cols[0].values[key]))] else []) +
      EdgeEntries(key, cols[1..], weight)
  }

  /** What one edge column does to an edge, in the terms the whole pass
      needs. */
  lemma EdgeStepFacts(edge: Element, col: EdgeColumn, labels: map<string, string>, weight: Option<string>)
    requires edge.tag == EdgeTag
    ensures var r := EdgeStep(labels, weight)(col, edge);
      && (r.Err? <==> EdgeKey(edge, labels).Err?)
      && (r.Ok? ==> r.value.tag == edge.tag && EdgeKey(r.value, labels) == EdgeKey(edge, labels))
      && (r.Ok? ==> Entries(r.value.children) == Entries(edge.children) + EdgeEntries(EdgeKey(edge, labels).value, [col], weight))
  {
    assert EdgeStep(labels, weight)(col, edge) == AnnotateEdge(edge, col, labels, weight);
    assert [col][1..] == [];
  }

  lemma EdgeEntriesCons(key: (Cell, Cell), cols: seq<EdgeColumn>, weight: Option<string>)
    requires |cols| > 0
    ensures EdgeEntries(key, cols, weight) == EdgeEntries(key, [cols[0]], weight) + EdgeEntries(key, cols[1..], weight)
  {
    assert [cols[0]][1..] == [];
  }

  /** Across all edge columns, there being at least one, an edge fails
      exactly when it lacks an endpoint or names an unknown node. */
  lemma {:induction false} EdgeStepsFail(edge: Element, cols: seq<EdgeColumn>, labels: map<string, string>, weight: Option<string>)
    requires edge.tag == EdgeTag && |cols| > 0
    ensures Steps(edge, cols, EdgeStep(labels, weight)).Err? <==> EdgeKey(edge, labels).Err?
    decreases |cols|
  {
    EdgeStepFacts(edge, cols[0], labels, weight);
    var first := EdgeStep(labels, weight)(cols[0], edge);
    if first.Ok? && |cols| > 1 {
      StepsCons(edge, cols, EdgeStep(labels, weight));
      EdgeStepsFail(first.value, cols[1..], labels, weight);
    }
  }

  /** Across all edge columns, an edge that comes through keeps its tag
      and endpoints. */
  lemma {:induction false} EdgeStepsKeep(edge: Element, cols: seq<EdgeColumn>, labels: map<string, string>, weight: Option<string>)
    requires edge.tag == EdgeTag
    ensures Steps(edge, cols, EdgeStep(labels, weight)).Ok? ==>
      Steps(edge, cols, EdgeStep(labels, weight)).value.tag == edge.tag &&
      EdgeKey(Steps(edge, cols, EdgeStep(labels, weight)).value, labels) == EdgeKey(edge, labels)
    decreases |cols|
  {
    if cols != [] {
      EdgeStepFacts(edge, cols[0], labels, weight);
      var first := EdgeStep(labels, weight)(cols[0], edge);
      if first.Ok? {
        StepsCons(edge, cols, EdgeStep(labels, weight));
        EdgeStepsKeep(first.value, cols[1..], labels, weight);
      }
    }
  }

  /** Across all edge columns, an edge that comes through gains one entry
      per column holding its key, in column order. */
  lemma {:induction false} EdgeStepsEntries(edge: Element, cols: seq<EdgeColumn>, labels: map<string, string>, weight: Option<string>)
    requires edge.tag == EdgeTag && EdgeKey(edge, labels).Ok?
    ensures Steps(edge, cols, EdgeStep(labels, weight)).Ok? ==>
      Entries(Steps(edge, cols, EdgeStep(labels, weight)).value.children) ==
      Entries(edge.children) + EdgeEntries(EdgeKey(edge, labels).value, cols, weight)
    decreases |cols|
  {
    if cols != [] {
      EdgeStepFacts(edge, cols[0], labels, weight);
      var first := EdgeStep(labels, weight)(cols[0], edge);
      if first.Ok? {
        StepsCons(edge, cols, EdgeStep(labels, weight));
        EdgeStepsEntries(first.value, cols[1..], labels, weight);
        EdgeEntriesCons(EdgeKey(edge, labels).value, cols, weight);
      }
    }
  }

  /** An edge no column holds comes through every column unchanged; so
      does any child that is not an `edge`. */
  lemma {:induction false} EdgeUntouched(edge: Element, cols: seq<EdgeColumn>, labels: map<string, string>, weight: Option<string>)
    requires edge.tag != EdgeTag || (EdgeKey(edge, labels).Ok? && forall k :: 0 <= k < |cols| ==> !Holds(edge, cols[k], labels))
    ensures Steps(edge, cols, EdgeStep(labels, weight)) == Ok(edge)
    decreases |cols|
  {
    if cols != [] {
      assert forall k :: 0 < k < |cols| ==> cols[k] == cols[1..][k - 1];
      EdgeUntouched(edge, cols[1..], labels, weight);
    }
  }

  /** The weight column holds a value for the key, so it overwrites the
      edge's `weight`. */
  predicate SetsWeight(key: (Cell, Cell), col: EdgeColumn, weight: Option<string>)
  {
    weight == Some(col.name) && key in col.values
  }

  /** One edge column on an edge with a key: it comes through, keeps every
      child but the `attvalues`, and changes no attribute unless it is the
      weight column, which sets `weight` alone. */
  lemma EdgeStepShape(edge: Element, col: EdgeColumn, labels: map<string, string>, weight: Option<string>)
    requires edge.tag == EdgeTag && EdgeKey(edge, labels).Ok?
    ensures var r := EdgeStep(labels, weight)(col, edge); var key := EdgeKey(edge, labels).value;
      && r.Ok?
      && WithoutTag(r.value.children, AttValuesTag) == WithoutTag(edge.children, AttValuesTag)
      && (SetsWeight(key, col, weight) ==> r.value.attrs == edge.attrs["weight" := Show(col.values[key])])
      && (!SetsWeight(key, col, weight) ==> r.value.attrs == edge.attrs)
  {
    assert EdgeStep(labels, weight)(col, edge) == AnnotateEdge(edge, col, labels, weight);
  }

  /** Across all edge columns, an edge that comes through keeps every
      attribute but `weight`, and every child but its `attvalues`. */
  lemma {:induction false} EdgeStepsAttrs(edge: Element, cols: seq<EdgeColumn>, labels: map<string, string>, weight: Option<string>)
    requires edge.tag == EdgeTag
    ensures Steps(edge, cols, EdgeStep(labels, weight)).Ok? ==>
      && Steps(edge, cols, EdgeStep(labels, weight)).value.attrs - {"weight"} == edge.attrs - {"weight"}
      && WithoutTag(Steps(edge, cols, EdgeStep(labels, weight)).value.children, AttValuesTag) == WithoutTag(edge.children, AttValuesTag)
    decreases |cols|
  {
    if cols != [] {
      EdgeStepFacts(edge, cols[0], labels, weight);
      var first := EdgeStep(labels, weight)(cols[0], edge);
      if first.Ok? {
        EdgeStepShape(edge, cols[0], labels, weight);
        var key := EdgeKey(edge, labels).value;
        if SetsWeight(key, cols[0], weight) {
          assert first.value.attrs - {"weight"} == edge.attrs - {"weight"};
        }
        StepsCons(edge, cols, EdgeStep(labels, weight));
        EdgeStepsAttrs(first.value, cols[1..], labels, weight);
      }
    }
  }

  /** Without a weight column holding its key, an edge with a key comes
      through every column with its attributes unchanged. */
  lemma {:induction false} EdgeStepsNoWeight(edge: Element, cols: seq<EdgeColumn>, labels: map<string, string>, weight: Option<string>)
    requires edge.tag == EdgeTag && EdgeKey(edge, labels).Ok?
    requires forall k :: 0 <= k < |cols| ==> !SetsWeight(EdgeKey(edge, labels).value, cols[k], weight)
    ensures Steps(edge, cols, EdgeStep(labels, weight)).Ok?
    ensures Steps(edge, cols, EdgeStep(labels, weight)).value.attrs == edge.attrs
    decreases |cols|
  {
    if cols != [] {
      EdgeStepFacts(edge, cols[0], labels, weight);
      EdgeStepShape(edge, cols[0], labels, weight);
      var first := EdgeStep(labels, weight)(cols[0], edge);
      assert forall k :: 0 < k < |cols| ==> cols[k] == cols[1..][k - 1];
      StepsCons(edge, cols, EdgeStep(labels, weight));
      EdgeStepsNoWeight(first.value, cols[1..], labels, weight);
    }
  }

  /** When column `j` is the last weight column holding its key, an edge
      with a key comes through with the `weight` column `j` holds. */
  lemma {:induction false} EdgeStepsWeight(edge: Element, cols: seq<EdgeColumn>, labels: map<string, string>, weight: Option<string>, j: nat)
    requires edge.tag == EdgeTag && EdgeKey(edge, labels).Ok?
    requires j < |cols| && SetsWeight(EdgeKey(edge, labels).value, cols[j], weight)
    requires forall k :: j < k < |cols| ==> !SetsWeight(EdgeKey(edge, labels).value, cols[k], weight)
    ensures Steps(edge, cols, EdgeStep(labels, weight)).Ok?
    ensures "weight" in Steps(edge, cols, EdgeStep(labels, weight)).value.attrs
    ensures Steps(edge, cols, EdgeStep(labels, weight)).value.attrs["weight"] == Show(cols[j].values[EdgeKey(edge, labels).value])
    decreases |cols|
  {
    EdgeStepFacts(edge, cols[0], labels, weight);
    EdgeStepShape(edge, cols[0], labels, weight);
    var first := EdgeStep(labels, weight)(cols[0], edge).value;
    var key := EdgeKey(edge, labels).value;
    assert EdgeKey(first, labels).value == key;
    StepsCons(edge, cols, EdgeStep(labels, weight));
    WeightTail(key, cols, weight, j);
    if j == 0 {
      EdgeStepsNoWeight(first, cols[1..], labels, weight);
    } else {
      EdgeStepsWeight(first, cols[1..], labels, weight, j - 1);
    }
  }

  /** The columns after `j` that leave the weight alone are, in the tail,
      those after `j - 1`. */
  lemma WeightTail(key: (Cell, Cell), cols: seq<EdgeColumn>, weight: Option<string>, j: nat)
    requires j < |cols| && forall k :: j < k < |cols| ==> !SetsWeight(key, cols[k], weight)
    ensures forall k :: j <= k < |cols| - 1 ==> !SetsWeight(key, cols[1..][k], weight)
    ensures j > 0 ==> cols[1..][j - 1] == cols[j]
  {
    assert forall k :: j <= k < |cols| - 1 ==> cols[1..][k] == cols[k + 1];
  }

  function NodeName(c: NodeColumn): string
  {
    c.name
  }

  function EdgeName(c: EdgeColumn): string
  {
    c.name
  }

  /** Lines 84-146 on the `graph` element, with the type lookup for edge
      declarations given as `edgeTypes`: restructure, then annotate. */
  function Transform(graph: Element, nodes: NodeAnnotation, edges: EdgeAnnotation,
                     edgeTypes: map<string, AttrType>, opts: Options): (r: Result<Element>)
    ensures r.Ok? ==> Restructurable(graph.children)
    ensures r.Ok? ==> SameHead(r.value, graph) && |r.value.children| == |Restructure(graph.children).value.children|
    ensures (exists k :: 0 <= k < |edges.columns| && edges.columns[k].name !in edgeTypes) ==> r.Err?
  {
    var l :- Restructure(graph.children);
    Annotated(graph, l, nodes, edges, edgeTypes, opts)
  }

  /** Lines 102-146 on the restructured graph: build the node dictionary,
      then run the columns. */
  function Annotated(graph: Element, l: Layout, nodes: NodeAnnotation, edges: EdgeAnnotation,
                     edgeTypes: map<string, AttrType>, opts: Options): (r: Result<Element>)
    requires ValidLayout(l)
    ensures r.Ok? ==> SameHead(r.value, graph) && |r.value.children| == |l.children|
    ensures (exists k :: 0 <= k < |edges.columns| && edges.columns[k].name !in edgeTypes) ==> r.Err?
  {
    var labels :- NodeLabels(l.children[|l.children| - 2].children);
    Passes(graph, l, labels, nodes, edges, edgeTypes, opts)
  }

  /** Lines 104-146: run the node columns over `nodes`, then the edge
      columns over `edges`, and put the rewritten blocks and containers in
      place. */
  function Passes(graph: Element, l: Layout, labels: map<string, string>, nodes: NodeAnnotation,
                  edges: EdgeAnnotation, edgeTypes: map<string, AttrType>, opts: Options): (r: Result<Element>)
    requires ValidLayout(l)
    ensures r.Ok? ==> SameHead(r.value, graph) && |r.value.children| == |l.children|
    ensures (exists k :: 0 <= k < |edges.columns| && edges.columns[k].name !in edgeTypes) ==> r.Err?
  {
    var np :- NodePass(l, nodes, opts.color);
    var ep :- EdgePass(l, edges, edgeTypes, labels, opts.weight);
    Ok(Place(graph, l, np, ep))
  }

  /** Lines 104-125: the node columns, declared in the node block and run
      over `nodes`. */
  function NodePass(l: Layout, nodes: NodeAnnotation, color: Option<string>): Result<(Element, Element)>
    requires ValidLayout(l)
  {
    Pass(l.children[l.nodeBlock], l.children[|l.children| - 2], nodes.columns, NodeName, nodes.types, NodeStep(color))
  }

  /** Lines 127-146: the edge columns, declared in the edge block and run
      over `edges`. */
  function EdgePass(l: Layout, edges: EdgeAnnotation, edgeTypes: map<string, AttrType>,
                    labels: map<string, string>, weight: Option<string>): (r: Result<(Element, Element)>)
    requires ValidLayout(l)
    ensures (exists k :: 0 <= k < |edges.columns| && edges.columns[k].name !in edgeTypes) ==> r.Err?
  {
    assert forall k :: 0 <= k < |edges.columns| ==> EdgeName(edges.columns[k]) == edges.columns[k].name;
    Pass(l.children[l.edgeBlock], l.children[|l.children| - 1], edges.columns, EdgeName, edgeTypes, EdgeStep(labels, weight))
  }

  /** When every node is labelled, the node pass succeeds exactly when
      every node column is typed and no node is given a malformed
      colour. */
  lemma NodePassWhen(l: Layout, nodes: NodeAnnotation, color: Option<string>)
    requires ValidLayout(l)
    ensures var s := l.children[|l.children| - 2].children;
      !SomeUnlabelled(s) ==>
        (NodePass(l, nodes, color).Ok? <==>
           (forall k :: 0 <= k < |nodes.columns| ==> nodes.columns[k].name in nodes.types) &&
           ColorsWellFormed(s, nodes.columns, color))
  {
    NodePassOk(l.children[l.nodeBlock], l.children[|l.children| - 2], nodes.columns, nodes.types, color);
  }

  /** The edge pass succeeds exactly when every edge column is typed and,
      there being one, every edge joins two known nodes. */
  lemma EdgePassWhen(l: Layout, edges: EdgeAnnotation, edgeTypes: map<string, AttrType>,
                     labels: map<string, string>, weight: Option<string>)
    requires ValidLayout(l)
    ensures EdgePass(l, edges, edgeTypes, labels, weight).Ok? <==>
      (forall k :: 0 <= k < |edges.columns| ==> edges.columns[k].name in edgeTypes) &&
      EndpointsKnown(l.children[|l.children| - 1].children, edges.columns, labels)
  {
    EdgePassOk(l.children[l.edgeBlock], l.children[|l.children| - 1], edges.columns, edgeTypes, labels, weight);
  }

  /** The graph with the rewritten blocks and containers in place. */
  function Place(graph: Element, l: Layout, np: (Element, Element), ep: (Element, Element)): Element
    requires ValidLayout(l)
  {
    var c := l.children;
    var n := |c|;
    graph.(children := c[l.nodeBlock := np.0][l.edgeBlock := ep.0][n - 2 := np.1][n - 1 := ep.1])
  }

  /** The script as written: edge declarations look their type up among
      the node table's types (line 129), so a rewrite succeeds only when
      every edge column is also a node column. */
  function AnnotateGraphAsWritten(graph: Element, nodes: NodeAnnotation, edges: EdgeAnnotation, opts: Options): (r: Result<Element>)
    ensures r.Ok? ==> forall k :: 0 <= k < |edges.columns| ==> edges.columns[k].name in nodes.types
  {
    Transform(graph, nodes, edges, nodes.types, opts)
  }

  /** Edge declarations typed from the edge table's own types. Wherever the
      node types give every edge column the type the edge types give it,
      this is the script as written. */
  function AnnotateGraph(graph: Element, nodes: NodeAnnotation, edges: EdgeAnnotation, opts: Options): (r: Result<Element>)
    ensures TypesAgree(edges, nodes.types, edges.types) ==> r == AnnotateGraphAsWritten(graph, nodes, edges, opts)
  {
    if TypesAgree(edges, nodes.types, edges.types) then
      TransformTypesAgree(graph, nodes, edges, nodes.types, edges.types, opts);
      Transform(graph, nodes, edges, edges.types, opts)
    else
      Transform(graph, nodes, edges, edges.types, opts)
  }

  /** Both maps type every edge column, and type it alike. */
  predicate TypesAgree(edges: EdgeAnnotation, t1: map<string, AttrType>, t2: map<string, AttrType>)
  {
    forall k :: 0 <= k < |edges.columns| ==>
      edges.columns[k].name in t1 && edges.columns[k].name in t2 && t1[edges.columns[k].name] == t2[edges.columns[k].name]
  }

  /** The transform reads the edge types only at the edge columns' names. */
  lemma TransformTypesAgree(graph: Element, nodes: NodeAnnotation, edges: EdgeAnnotation,
                            t1: map<string, AttrType>, t2: map<string, AttrType>, opts: Options)
    requires TypesAgree(edges, t1, t2)
    ensures Transform(graph, nodes, edges, t1, opts) == Transform(graph, nodes, edges, t2, opts)
  {
    if Restructure(graph.children).Ok? {
      AnnotatedTypesAgree(graph, Restructure(graph.children).value, nodes, edges, t1, t2, opts);
    }
  }

  /** The same on a restructured graph. */
  lemma AnnotatedTypesAgree(graph: Element, l: Layout, nodes: NodeAnnotation, edges: EdgeAnnotation,
                            t1: map<string, AttrType>, t2: map<string, AttrType>, opts: Options)
    requires ValidLayout(l) && TypesAgree(edges, t1, t2)
    ensures Annotated(graph, l, nodes, edges, t1, opts) == Annotated(graph, l, nodes, edges, t2, opts)
  {
    var labels := NodeLabels(l.children[|l.children| - 2].children);
    if labels.Ok? {
      assert Annotated(graph, l, nodes, edges, t1, opts) == Passes(graph, l, labels.value, nodes, edges, t1, opts);
      assert Annotated(graph, l, nodes, edges, t2, opts) == Passes(graph, l, labels.value, nodes, edges, t2, opts);
      EdgePassTypesAgree(l, edges, t1, t2, labels.value, opts.weight);
    }
  }

  /** The same for the edge pass. */
  lemma EdgePassTypesAgree(l: Layout, edges: EdgeAnnotation, t1: map<string, AttrType>, t2: map<string, AttrType>,
                           labels: map<string, string>, weight: Option<string>)
    requires ValidLayout(l) && TypesAgree(edges, t1, t2)
    ensures EdgePass(l, edges, t1, labels, weight) == EdgePass(l, edges, t2, labels, weight)
  {
    assert forall k :: 0 <= k < |edges.columns| ==> EdgeName(edges.columns[k]) == edges.columns[k].name;
    PassTypesAgree(l.children[l.edgeBlock], l.children[|l.children| - 1], edges.columns, EdgeName, t1, t2,
                   EdgeStep(labels, weight));
  }

  /** The first `nodes` child of the graph. */
  function NodesOf(g: seq<Element>): Element
    requires Find(g, NodesTag).Some?
  {
    g[Find(g, NodesTag).value]
  }

  /** The first `edges` child of the graph. */
  function EdgesOf(g: seq<Element>): Element
    requires Find(g, EdgesTag).Some?
  {
    g[Find(g, EdgesTag).value]
  }

  /** No labelled node is given a malformed colour. */
  predicate ColorsWellFormed(s: seq<Element>, cols: seq<NodeColumn>, color: Option<string>)
  {
    forall i, k :: 0 <= i < |s| && s[i].tag == NodeTag && "label" in s[i].attrs && 0 <= k < |cols| ==>
      !BadColor(s[i].attrs["label"], cols[k], color)
  }

  /** When there is an edge column, every edge has both endpoints and both
      are known nodes. */
  predicate EndpointsKnown(s: seq<Element>, cols: seq<EdgeColumn>, labels: map<string, string>)
  {
    cols == [] || forall i :: 0 <= i < |s| && s[i].tag == EdgeTag ==> EdgeKey(s[i], labels).Ok?
  }

  /** The node pass succeeds on every node child exactly when no colour is
      malformed. */
  lemma NodeChildrenOk(s: seq<Element>, cols: seq<NodeColumn>, color: Option<string>)
    requires !SomeUnlabelled(s)
    ensures (forall i :: 0 <= i < |s| ==> Steps(s[i], cols, NodeStep(color)).Ok?) <==> ColorsWellFormed(s, cols, color)
  {
    forall i | 0 <= i < |s|
      ensures Steps(s[i], cols, NodeStep(color)).Ok? <==>
        (s[i].tag == NodeTag ==> forall k :: 0 <= k < |cols| ==> !BadColor(s[i].attrs["label"], cols[k], color))
    {
      if s[i].tag == NodeTag {
        assert !Unlabelled(s[i]);
        NodeStepsFail(s[i], cols, color);
      } else {
        NodeUntouched(s[i], cols, color);
      }
    }
  }

  /** The edge pass succeeds on every edge child exactly when every edge's
      endpoints are known, there being any edge column. */
  lemma EdgeChildrenOk(s: seq<Element>, cols: seq<EdgeColumn>, labels: map<string, string>, weight: Option<string>)
    ensures (forall i :: 0 <= i < |s| ==> Steps(s[i], cols, EdgeStep(labels, weight)).Ok?) <==> EndpointsKnown(s, cols, labels)
  {
    forall i | 0 <= i < |s|
      ensures Steps(s[i], cols, EdgeStep(labels, weight)).Ok? <==>
        (cols == [] || (s[i].tag == EdgeTag ==> EdgeKey(s[i], labels).Ok?))
    {
      if s[i].tag == EdgeTag && cols != [] {
        EdgeStepsFail(s[i], cols, labels, weight);
      } else if s[i].tag != EdgeTag {
        EdgeUntouched(s[i], cols, labels, weight);
      }
    }
  }

  /** The node pass succeeds exactly when every node column is typed and
      no node is given a malformed colour. */
  lemma NodePassOk(block: Element, container: Element, cols: seq<NodeColumn>,
                   types: map<string, AttrType>, color: Option<string>)
    ensures !SomeUnlabelled(container.children) ==>
      (Pass(block, container, cols, NodeName, types, NodeStep(color)).Ok? <==>
       (forall k :: 0 <= k < |cols| ==> cols[k].name in types) && ColorsWellFormed(container.children, cols, color))
  {
    PassOk(block, container, cols, NodeName, types, NodeStep(color));
    if !SomeUnlabelled(container.children) {
      NodeChildrenOk(container.children, cols, color);
    }
    assert forall k :: 0 <= k < |cols| ==> NodeName(cols[k]) == cols[k].name;
  }

  /** The edge pass succeeds exactly when every edge column is typed and,
      there being one, every edge joins two known nodes. */
  lemma EdgePassOk(block: Element, container: Element, cols: seq<EdgeColumn>,
                   types: map<string, AttrType>, labels: map<string, string>, weight: Option<string>)
    ensures Pass(block, container, cols, EdgeName, types, EdgeStep(labels, weight)).Ok? <==>
      (forall k :: 0 <= k < |cols| ==> cols[k].name in types) && EndpointsKnown(container.children, cols, labels)
  {
    PassOk(block, container, cols, EdgeName, types, EdgeStep(labels, weight));
    EdgeChildrenOk(container.children, cols, labels, weight);
    assert forall k :: 0 <= k < |cols| ==> EdgeName(cols[k]) == cols[k].name;
  }

  /** Both passes together succeed exactly when each does. */
  lemma PassesOk(graph: Element, l: Layout, labels: map<string, string>, nodes: NodeAnnotation,
                 edges: EdgeAnnotation, edgeTypes: map<string, AttrType>, opts: Options)
    requires ValidLayout(l)
    ensures Passes(graph, l, labels, nodes, edges, edgeTypes, opts).Ok? <==>
      NodePass(l, nodes, opts.color).Ok? && EdgePass(l, edges, edgeTypes, labels, opts.weight).Ok?
  {
  }

  /** When the annotation of a restructured graph succeeds. */
  lemma AnnotatedOk(graph: Element, l: Layout, nodes: NodeAnnotation, edges: EdgeAnnotation,
                    edgeTypes: map<string, AttrType>, opts: Options)
    requires ValidLayout(l)
    ensures var c := l.children;
      var labels := NodeLabels(c[|c| - 2].children);
      Annotated(graph, l, nodes, edges, edgeTypes, opts).Ok? <==>
      && labels.Ok?
      && (forall k :: 0 <= k < |nodes.columns| ==> nodes.columns[k].name in nodes.types)
      && (forall k :: 0 <= k < |edges.columns| ==> edges.columns[k].name in edgeTypes)
      && ColorsWellFormed(c[|c| - 2].children, nodes.columns, opts.color)
      && EndpointsKnown(c[|c| - 1].children, edges.columns, labels.value)
  {
    var c := l.children;
    var lr := NodeLabels(c[|c| - 2].children);
    if lr.Ok? {
      PassesOk(graph, l, lr.value, nodes, edges, edgeTypes, opts);
      NodePassWhen(l, nodes, opts.color);
      EdgePassWhen(l, edges, edgeTypes, lr.value, opts.weight);
    }
  }

  /** When the transform succeeds: exactly when the graph has `nodes` and
      `edges` and classed attributes blocks, every node has an id and a
      label, every column is typed, no node is given a malformed colour,
      and, there being an edge column, every edge joins two known nodes. */
  lemma TransformOk(graph: Element, nodes: NodeAnnotation, edges: EdgeAnnotation,
                    edgeTypes: map<string, AttrType>, opts: Options)
    ensures Transform(graph, nodes, edges, edgeTypes, opts).Ok? <==>
      && Restructure(graph.children).Ok?
      && var ns := NodesOf(graph.children).children;
         var labels := NodeLabels(ns);
         && labels.Ok?
         && (forall k :: 0 <= k < |nodes.columns| ==> nodes.columns[k].name in nodes.types)
         && (forall k :: 0 <= k < |edges.columns| ==> edges.columns[k].name in edgeTypes)
         && ColorsWellFormed(ns, nodes.columns, opts.color)
         && EndpointsKnown(EdgesOf(graph.children).children, edges.columns, labels.value)
  {
    var g := graph.children;
    if Restructure(g).Ok? {
      RestructureOrder(g);
      RestructureNodeBlock(g);
      RestructureEdgeBlock(g);
      var l := Restructure(g).value;
      assert l.children[|l.children| - 2] == NodesOf(g) && l.children[|l.children| - 1] == EdgesOf(g);
      AnnotatedOk(graph, l, nodes, edges, edgeTypes, opts);
    }
  }

  /** Each column is declared once, in column order, after what the block
      held before, with the type `types` gives its name. */
  ghost predicate Declares<C>(block: Element, before: seq<Element>, cols: seq<C>, name: C -> string,
                              types: map<string, AttrType>)
  {
    && |block.children| == |before| + |cols|
    && block.children[..|before|] == before
    && forall k :: 0 <= k < |cols| ==>
         name(cols[k]) in types && block.children[|before| + k] == Declaration(name(cols[k]), types[name(cols[k])])
  }

  /** Every child rewritten by every column in turn; the first failure
      ends it. */
  function StepsAll<C>(s: seq<Element>, cols: seq<C>, step: (C, Element) -> Result<Element>): Result<seq<Element>>
    decreases |s|
  {
    if s == [] then Ok([])
    else
      var head :- Steps(s[0], cols, step);
      var tail :- StepsAll(s[1..], cols, step);
      Ok([head] + tail)
  }

  /** `StepsAll` succeeds exactly when every child's rewrite does, and then
      child `i` of the result is the rewrite of child `i`. */
  lemma {:induction false} StepsAllSpec<C>(s: seq<Element>, cols: seq<C>, step: (C, Element) -> Result<Element>)
    ensures StepsAll(s, cols, step).Ok? <==> forall i :: 0 <= i < |s| ==> Steps(s[i], cols, step).Ok?
    ensures StepsAll(s, cols, step).Ok? ==>
      && |StepsAll(s, cols, step).value| == |s|
      && forall i :: 0 <= i < |s| ==> StepsAll(s, cols, step).value[i] == Steps(s[i], cols, step).value
    decreases |s|
  {
    if s != [] {
      StepsAllSpec(s[1..], cols, step);
      assert forall i :: 1 <= i < |s| ==> s[i] == s[1..][i - 1];
    }
  }

  /** The container with each of its children rewritten by every column in
      turn, one child after another: it keeps its tag and attributes, and
      by `StepsAllSpec` it exists exactly when every child's rewrite
      succeeds, child `i` then being the rewrite of child `i`. */
  function Rewrite<C>(before: Element, cols: seq<C>, step: (C, Element) -> Result<Element>): Result<Element>
  {
    var children :- StepsAll(before.children, cols, step);
    Ok(before.(children := children))
  }

  /** `after` is `before` rewritten child by child. */
  ghost predicate Rewrites<C>(after: Element, before: Element, cols: seq<C>, step: (C, Element) -> Result<Element>)
  {
    Rewrite(before, cols, step) == Ok(after)
  }

  /** A successful pass rewrites its container. */
  lemma PassRewrites<C>(block: Element, container: Element, cols: seq<C>, name: C -> string,
                        types: map<string, AttrType>, step: (C, Element) -> Result<Element>)
    requires Pass(block, container, cols, name, types, step).Ok?
    ensures Rewrites(Pass(block, container, cols, name, types, step).value.1, container, cols, step)
  {
    var after := Pass(block, container, cols, name, types, step).value.1;
    PassSteps(block, container, cols, name, types, step);
    StepsAllSpec(container.children, cols, step);
    assert StepsAll(container.children, cols, step).value == after.children;
  }

  /** What a successful pass yields: both elements keep their tag and
      attributes, the block declares every column and the container's
      children are rewritten. */
  lemma PassShape<C>(block: Element, container: Element, cols: seq<C>, name: C -> string,
                     types: map<string, AttrType>, step: (C, Element) -> Result<Element>)
    requires Pass(block, container, cols, name, types, step).Ok?
    ensures var p := Pass(block, container, cols, name, types, step).value;
      && p.0.tag == block.tag && p.0.attrs == block.attrs
      && Declares(p.0, block.children, cols, name, types)
      && Rewrites(p.1, container, cols, step)
  {
    PassDeclares(block, container, cols, name, types, step);
    PassRewrites(block, container, cols, name, types, step);
  }

  /** The node pass of a layout: the node block declares the node columns
      with their node types, and every node is rewritten by all of them. */
  lemma NodePassFacts(l: Layout, nodes: NodeAnnotation, color: Option<string>)
    requires ValidLayout(l) && NodePass(l, nodes, color).Ok?
    ensures var p := NodePass(l, nodes, color).value;
      var b := l.children[l.nodeBlock];
      && p.0.tag == b.tag && p.0.attrs == b.attrs
      && Declares(p.0, b.children, nodes.columns, NodeName, nodes.types)
      && Rewrites(p.1, l.children[|l.children| - 2], nodes.columns, NodeStep(color))
  {
    PassShape(l.children[l.nodeBlock], l.children[|l.children| - 2], nodes.columns, NodeName, nodes.types, NodeStep(color));
  }

  /** The edge pass of a layout: the edge block declares the edge columns
      with the types `edgeTypes` gives them, and every edge is rewritten by
      all of them. */
  lemma EdgePassFacts(l: Layout, edges: EdgeAnnotation, edgeTypes: map<string, AttrType>,
                      labels: map<string, string>, weight: Option<string>)
    requires ValidLayout(l) && EdgePass(l, edges, edgeTypes, labels, weight).Ok?
    ensures var p := EdgePass(l, edges, edgeTypes, labels, weight).value;
      var b := l.children[l.edgeBlock];
      && p.0.tag == b.tag && p.0.attrs == b.attrs
      && Declares(p.0, b.children, edges.columns, EdgeName, edgeTypes)
      && Rewrites(p.1, l.children[|l.children| - 1], edges.columns, EdgeStep(labels, weight))
  {
    PassShape(l.children[l.edgeBlock], l.children[|l.children| - 1], edges.columns, EdgeName, edgeTypes,
              EdgeStep(labels, weight));
  }

  /** Where `Place` puts things: the blocks at their positions, `nodes` and
      `edges` last, everything else where it was. */
  lemma PlaceFacts(graph: Element, l: Layout, np: (Element, Element), ep: (Element, Element))
    requires ValidLayout(l) && l.nodeBlock != l.edgeBlock
    ensures var c := l.children;
      var r := Place(graph, l, np, ep);
      && r.tag == graph.tag && r.attrs == graph.attrs
      && |r.children| == |c|
      && r.children[l.nodeBlock] == np.0 && r.children[l.edgeBlock] == ep.0
      && r.children[|c| - 2] == np.1 && r.children[|c| - 1] == ep.1
      && forall i :: 0 <= i < |c| - 2 && i != l.nodeBlock && i != l.edgeBlock ==> r.children[i] == c[i]
  {
  }

  /** A successful transform is the restructured graph with the node pass
      and the edge pass placed into it; the edge pass reads the labels of
      the nodes before they are annotated. */
  lemma TransformPlaces(graph: Element, nodes: NodeAnnotation, edges: EdgeAnnotation,
                        edgeTypes: map<string, AttrType>, opts: Options)
    requires Transform(graph, nodes, edges, edgeTypes, opts).Ok?
    ensures Restructure(graph.children).Ok?
    ensures var l := Restructure(graph.children).value;
      var labels := NodeLabels(NodesOf(graph.children).children);
      && ValidLayout(l) && l.nodeBlock != l.edgeBlock
      && labels.Ok?
      && NodePass(l, nodes, opts.color).Ok?
      && EdgePass(l, edges, edgeTypes, labels.value, opts.weight).Ok?
      && Transform(graph, nodes, edges, edgeTypes, opts) ==
         Ok(Place(graph, l, NodePass(l, nodes, opts.color).value, EdgePass(l, edges, edgeTypes, labels.value, opts.weight).value))
  {
    RestructureLast(graph.children);
  }

  /** Same tag and same attributes. */
  predicate SameHead(a: Element, b: Element)
  {
    a.tag == b.tag && a.attrs == b.attrs
  }

  /** Placing passes that keep every head keeps the head at every position. */
  lemma PlaceHeads(graph: Element, l: Layout, np: (Element, Element), ep: (Element, Element))
    requires ValidLayout(l) && l.nodeBlock != l.edgeBlock
    requires SameHead(np.0, l.children[l.nodeBlock]) && SameHead(ep.0, l.children[l.edgeBlock])
    requires SameHead(np.1, l.children[|l.children| - 2]) && SameHead(ep.1, l.children[|l.children| - 1])
    ensures |Place(graph, l, np, ep).children| == |l.children|
    ensures forall i :: 0 <= i < |l.children| ==> SameHead(Place(graph, l, np, ep).children[i], l.children[i])
  {
    PlaceFacts(graph, l, np, ep);
  }

  /** Whether a child is a block of a class depends on its head alone. */
  lemma BlocksAlike(a: seq<Element>, b: seq<Element>, cls: string)
    requires |a| == |b| && forall i :: 0 <= i < |a| ==> SameHead(a[i], b[i])
    ensures FirstWhere(a, BlockOf(cls)) == FirstWhere(b, BlockOf(cls))
    ensures CountBlocks(a, cls) == CountBlocks(b, cls)
  {
    assert forall i :: 0 <= i < |a| ==> BlockOf(cls)(a[i]) == BlockOf(cls)(b[i]);
    WhereAlike(a, b, BlockOf(cls));
  }

  /** The transformed graph has the heads of the restructured one at every
      position, and the graph element keeps its own. */
  lemma TransformHeads(graph: Element, nodes: NodeAnnotation, edges: EdgeAnnotation,
                       edgeTypes: map<string, AttrType>, opts: Options)
    requires Transform(graph, nodes, edges, edgeTypes, opts).Ok?
    ensures var c := Restructure(graph.children).value.children;
      var r := Transform(graph, nodes, edges, edgeTypes, opts).value;
      && SameHead(r, graph)
      && |r.children| == |c|
      && forall i :: 0 <= i < |c| ==> SameHead(r.children[i], c[i])
  {
    TransformPlaces(graph, nodes, edges, edgeTypes, opts);
    var l := Restructure(graph.children).value;
    var labels := NodeLabels(NodesOf(graph.children).children).value;
    NodePassFacts(l, nodes, opts.color);
    EdgePassFacts(l, edges, edgeTypes, labels, opts.weight);
    PlaceHeads(graph, l, NodePass(l, nodes, opts.color).value, EdgePass(l, edges, edgeTypes, labels, opts.weight).value);
  }

  /** The last two children of a restructured graph are its first `nodes`
      and its first `edges` child. */
  lemma RestructureLast(g: seq<Element>)
    requires Restructurable(g)
    ensures Find(g, NodesTag).Some? && Find(g, EdgesTag).Some?
    ensures var c := Restructure(g).value.children;
      |c| >= 2 && c[|c| - 2] == NodesOf(g) && c[|c| - 1] == EdgesOf(g)
  {
    RestructureOrder(g);
  }

  /** The last two children of a placed graph are the rewritten
      containers. */
  lemma PlaceLast(graph: Element, l: Layout, np: (Element, Element), ep: (Element, Element))
    requires ValidLayout(l) && l.nodeBlock != l.edgeBlock
    ensures var r := Place(graph, l, np, ep);
      && SameHead(r, graph) && |r.children| == |l.children|
      && r.children[|l.children| - 2] == np.1 && r.children[|l.children| - 1] == ep.1
  {
  }

  /** Lines 87-88, 99 and 102-125, in place: in the placed graph the last
      but one child is the `nodes` container of the layout rewritten child
      by child by every node column, as the node pass left it. */
  lemma PlacedNodes(graph: Element, l: Layout, nodes: NodeAnnotation, color: Option<string>,
                    np: (Element, Element), ep: (Element, Element))
    requires ValidLayout(l) && l.nodeBlock != l.edgeBlock
    requires NodePass(l, nodes, color) == Ok(np)
    ensures var r := Place(graph, l, np, ep).children;
      && |r| == |l.children|
      && Rewrite(l.children[|l.children| - 2], nodes.columns, NodeStep(color)) == Ok(r[|r| - 2])
  {
    PlaceLast(graph, l, np, ep);
    PassRewrites(l.children[l.nodeBlock], l.children[|l.children| - 2], nodes.columns, NodeName, nodes.types, NodeStep(color));
  }

  /** Lines 88, 100 and 127-146, in place: the last child is the `edges`
      container rewritten child by child by every edge column, each edge
      looked up through `labels`. */
  lemma PlacedEdges(graph: Element, l: Layout, edges: EdgeAnnotation, edgeTypes: map<string, AttrType>,
                    labels: map<string, string>, weight: Option<string>,
                    np: (Element, Element), ep: (Element, Element))
    requires ValidLayout(l) && l.nodeBlock != l.edgeBlock
    requires EdgePass(l, edges, edgeTypes, labels, weight) == Ok(ep)
    ensures var r := Place(graph, l, np, ep).children;
      && |r| == |l.children|
      && Rewrite(l.children[|l.children| - 1], edges.columns, EdgeStep(labels, weight)) == Ok(r[|r| - 1])
  {
    PlaceLast(graph, l, np, ep);
    PassRewrites(l.children[l.edgeBlock], l.children[|l.children| - 1], edges.columns, EdgeName, edgeTypes, EdgeStep(labels, weight));
  }

  /** Lines 89-94 and 104-106, end to end: the node attributes block is the
      first block of class `node` of the result, before `nodes` and
      `edges`; it is the graph's first such block, or a new static one when
      there was none, with one declaration appended per node column, typed
      from the node types; and there are as many node blocks as before, or
      one. */
  lemma TransformNodeBlock(graph: Element, nodes: NodeAnnotation, edges: EdgeAnnotation,
                           edgeTypes: map<string, AttrType>, opts: Options)
    requires Transform(graph, nodes, edges, edgeTypes, opts).Ok?
    ensures var g := graph.children;
      var i := Restructure(g).value.nodeBlock;
      var r := Transform(graph, nodes, edges, edgeTypes, opts).value.children;
      var first := FirstWhere(g, BlockOf("node"));
      var before := if first.None? then AttributesBlock("node") else g[first.value];
      && i < |r| - 2
      && FirstWhere(r, BlockOf("node")) == Some(i)
      && CountBlocks(r, "node") == (if CountBlocks(g, "node") == 0 then 1 else CountBlocks(g, "node"))
      && SameHead(r[i], before)
      && Declares(r[i], before.children, nodes.columns, NodeName, nodes.types)
  {
    var g := graph.children;
    TransformPlaces(graph, nodes, edges, edgeTypes, opts);
    TransformHeads(graph, nodes, edges, edgeTypes, opts);
    RestructureNodeBlock(g);
    var l := Restructure(g).value;
    var r := Transform(graph, nodes, edges, edgeTypes, opts).value.children;
    BlocksAlike(r, l.children, "node");
    var labels := NodeLabels(NodesOf(g).children).value;
    NodePassFacts(l, nodes, opts.color);
    PlaceFacts(graph, l, NodePass(l, nodes, opts.color).value, EdgePass(l, edges, edgeTypes, labels, opts.weight).value);
  }

  /** Lines 95-98 and 127-129, end to end: the edge attributes block
      likewise, its declarations typed from `edgeTypes`. */
  lemma TransformEdgeBlock(graph: Element, nodes: NodeAnnotation, edges: EdgeAnnotation,
                           edgeTypes: map<string, AttrType>, opts: Options)
    requires Transform(graph, nodes, edges, edgeTypes, opts).Ok?
    ensures var g := graph.children;
      var i := Restructure(g).value.edgeBlock;
      var r := Transform(graph, nodes, edges, edgeTypes, opts).value.children;
      var first := FirstWhere(g, BlockOf("edge"));
      var before := if first.None? then AttributesBlock("edge") else g[first.value];
      && i < |r| - 2
      && FirstWhere(r, BlockOf("edge")) == Some(i)
      && CountBlocks(r, "edge") == (if CountBlocks(g, "edge") == 0 then 1 else CountBlocks(g, "edge"))
      && SameHead(r[i], before)
      && Declares(r[i], before.children, edges.columns, EdgeName, edgeTypes)
  {
    var g := graph.children;
    TransformPlaces(graph, nodes, edges, edgeTypes, opts);
    TransformHeads(graph, nodes, edges, edgeTypes, opts);
    RestructureEdgeBlock(g);
    var l := Restructure(g).value;
    var r := Transform(graph, nodes, edges, edgeTypes, opts).value.children;
    BlocksAlike(r, l.children, "edge");
    var labels := NodeLabels(NodesOf(g).children).value;
    EdgePassFacts(l, edges, edgeTypes, labels, opts.weight);
    PlaceFacts(graph, l, NodePass(l, nodes, opts.color).value, EdgePass(l, edges, edgeTypes, labels, opts.weight).value);
  }

  /** Lines 87-100, end to end: every other child of the graph is left as
      it was, in order, ahead of the created blocks, `nodes` and
      `edges`. */
  lemma TransformOthers(graph: Element, nodes: NodeAnnotation, edges: EdgeAnnotation,
                        edgeTypes: map<string, AttrType>, opts: Options)
    requires Transform(graph, nodes, edges, edgeTypes, opts).Ok?
    ensures var g := graph.children;
      var l := Restructure(g).value;
      var r := Transform(graph, nodes, edges, edgeTypes, opts).value.children;
      && |r| >= |g| >= 2
      && forall i :: 0 <= i < |g| - 2 && i != l.nodeBlock && i != l.edgeBlock ==> r[i] == Rest(g)[i]
  {
    var g := graph.children;
    TransformPlaces(graph, nodes, edges, edgeTypes, opts);
    RestructureOrder(g);
    var l := Restructure(g).value;
    var labels := NodeLabels(NodesOf(g).children).value;
    PlaceFacts(graph, l, NodePass(l, nodes, opts.color).value, EdgePass(l, edges, edgeTypes, labels, opts.weight).value);
  }
}

=== FILE: gexf.dfy ===
/**
 The GEXF 1.3 vocabulary the transform reads and writes: the two namespaces
 the script registers, the qualified tags it looks up, and the elements it
 creates.
 */
module Gexf {
  import opened Xml
  import opened Tables

  const GexfNs: string := "http://www.gexf.net/1.3"
  const VizNs: string := "http://www.gexf.net/1.3/viz"

  const GraphTag: QName := QName(GexfNs, "graph")
  const NodesTag: QName := QName(GexfNs, "nodes")
  const EdgesTag: QName := QName(GexfNs, "edges")
  const NodeTag: QName := QName(GexfNs, "node")
  const EdgeTag: QName := QName(GexfNs, "edge")
  const AttributesTag: QName := QName(GexfNs, "attributes")
  const AttributeTag: QName := QName(GexfNs, "attribute")
  const AttValuesTag: QName := QName(GexfNs, "attvalues")
  const AttValueTag: QName := QName(GexfNs, "attvalue")
  const ColorTag: QName := QName(VizNs, "color")

  /** A fresh `<attributes class=cls mode="static"/>` block. */
  function AttributesBlock(cls: string): Element
  {
    Element(AttributesTag, map["mode" := "static", "class" := cls], [])
  }

  /** `<attribute id=name title=name type=...>`: one column's declaration. */
  function Declaration(name: string, t: AttrType): Element
  {
    Element(AttributeTag, map["id" := name, "title" := name, "type" := t.Name()], [])
  }

  /** `<attvalue for=name value=value>`. */
  function AttValue(name: string, value: string): Element
  {
    Element(AttValueTag, map["for" := name, "value" := value], [])
  }

  /** `<viz:color r g b a>` from the four comma-separated components. */
  function ColorElement(parts: seq<string>): Element
    requires |parts| == 4
  {
    Element(ColorTag, map["r" := parts[0], "g" := parts[1], "b" := parts[2], "a" := parts[3]], [])
  }
}

=== FILE: results.dfy ===
/**
 Failure-compatible wrappers for the annotation transform, and the errors the
 transform can raise. Each `Error` constructor stands for one Python exception
 the script lets escape (a missing element, a `KeyError` on an attribute or a
 dictionary, a `ValueError` from tuple unpacking); none of them is caught, so
 any of them ends the run before anything is written.
 */
module Results {

  datatype Option<+T> = None | Some(value: T)

  datatype Error =
    | MissingIndexColumn(column: string)              // `set_index` on an absent column
    | MissingElement(element: string)                 // `graph`, `nodes` or `edges` not found
    | MissingAttribute(element: string, name: string) // `elem.attrib[name]` raises KeyError
    | UnknownNode(id: string)                         // `node_dict[src]` raises KeyError
    | UntypedColumn(column: string)                   // `node_ctypes[name]` raises KeyError
    | MalformedColor(value: string)                   // `r,g,b,a = value.split(',')` fails

  datatype Result<+T> = Ok(value: T) | Err(error: Error) {

    predicate IsFailure() {
      Err?
    }

    function PropagateFailure<U>(): Result<U>
      requires Err?
    {
      Err(error)
    }

    function Extract(): T
      requires Ok?
    {
      value
    }
  }

  /** Applies `f` to every element in order and stops at the first failure,
      as a Python `for` loop over the elements does. */
  function MapAll<T>(s: seq<T>, f: T -> Result<T>): (r: Result<seq<T>>)
    ensures r.Ok? <==> forall i :: 0 <= i < |s| ==> f(s[i]).Ok?
    ensures r.Ok? ==> |r.value| == |s| && forall i :: 0 <= i < |s| ==> r.value[i] == f(s[i]).value
    decreases |s|
  {
    if s == [] then Ok([])
    else
      var head :- f(s[0]);
      var tail :- MapAll(s[1..], f);
      assert forall i :: 1 <= i < |s| ==> s[i] == s[1..][i - 1];
      Ok([head] + tail)
  }
}

=== FILE: script.dfy ===
/**
 The script end to end (`main`, lines 70-148 of annotateGexf.py): read the
 node and the edge annotation, find the graph of the document, rewrite it,
 and hand the document back for writing. `Run` is the script as written,
 edge declarations typed from the node types (line 129); `RunCorrected`
 types them from the edge table, and the two are related here.
 */
module Script {
  import opened Results
  import opened Xml
  import opened Tables
  import opened Gexf
  import opened Annotate

  /** What the transform needs of the graph itself, whatever the columns'
      types: `nodes` and `edges` and classed attributes blocks, an id and a
      label on every node, no malformed colour, and every edge joining two
      known nodes when there is an edge column. */
  predicate GraphReady(graph: Element, nodes: NodeAnnotation, edges: EdgeAnnotation, opts: Options)
  {
    && Restructure(graph.children).Ok?
    && var ns := NodesOf(graph.children).children;
       var labels := NodeLabels(ns);
       && labels.Ok?
       && ColorsWellFormed(ns, nodes.columns, opts.color)
       && EndpointsKnown(EdgesOf(graph.children).children, edges.columns, labels.value)
  }

  /** Every column of an annotation has a type in `types`. */
  predicate NodeTyped(nodes: NodeAnnotation, types: map<string, AttrType>)
  {
    forall k :: 0 <= k < |nodes.columns| ==> nodes.columns[k].name in types
  }

  predicate EdgeTyped(edges: EdgeAnnotation, types: map<string, AttrType>)
  {
    forall k :: 0 <= k < |edges.columns| ==> edges.columns[k].name in types
  }

  /** Lines 84-146: the first `graph` child of the document root is
      rewritten, edge declarations typed by `edgeTypes`; the root keeps its
      tag, its attributes and every other child. A document without a
      `graph` child fails. */
  function AnnotateDocument(root: Element, nodes: NodeAnnotation, edges: EdgeAnnotation,
                            edgeTypes: map<string, AttrType>, opts: Options): (r: Result<Element>)
    ensures Find(root.children, GraphTag).None? ==> r == Err(MissingElement("graph"))
    ensures Find(root.children, GraphTag).Some? ==>
      var i := Find(root.children, GraphTag).value;
      && (r.Ok? <==> Transform(root.children[i], nodes, edges, edgeTypes, opts).Ok?)
      && (r.Ok? ==>
            && r.value.tag == root.tag && r.value.attrs == root.attrs
            && |r.value.children| == |root.children|
            && r.value.children[i] == Transform(root.children[i], nodes, edges, edgeTypes, opts).value
            && forall j :: 0 <= j < |root.children| && j != i ==> r.value.children[j] == root.children[j])
  {
    match Find(root.children, GraphTag)
    case None => Err(MissingElement("graph"))
    case Some(i) =>
      var graph :- Transform(root.children[i], nodes, edges, edgeTypes, opts);
      Ok(root.(children := root.children[i := graph]))
  }

  /** Lines 71-74 and 84-146 as written: the node table is read, then the
      edge table, then the document is rewritten with the edge
      declarations typed from the node types (line 129); the first failure
      ends the run, so a bad node table is reported before a bad edge
      table, and both before anything about the document. */
  function Run(nodeTable: Option<Table>, edgeTable: Option<Table>, root: Element, opts: Options): (r: Result<Element>)
    requires nodeTable.Some? ==> WellFormed(nodeTable.value)
    requires edgeTable.Some? ==> WellFormed(edgeTable.value)
    ensures ReadNodeAnnotation(nodeTable, opts.forceStr).Err? ==> r == Err(ReadNodeAnnotation(nodeTable, opts.forceStr).error)
    ensures ReadNodeAnnotation(nodeTable, opts.forceStr).Ok? && ReadEdgeAnnotation(edgeTable, opts.forceStr).Err? ==>
      r == Err(ReadEdgeAnnotation(edgeTable, opts.forceStr).error)
    ensures r.Ok? ==> r.value.tag == root.tag && r.value.attrs == root.attrs && |r.value.children| == |root.children|
  {
    var nodes :- ReadNodeAnnotation(nodeTable, opts.forceStr);
    var edges :- ReadEdgeAnnotation(edgeTable, opts.forceStr);
    AnnotateDocument(root, nodes, edges, nodes.types, opts)
  }

  /** The run with line 129 corrected: edge declarations typed from the
      edge table's own types. */
  function RunCorrected(nodeTable: Option<Table>, edgeTable: Option<Table>, root: Element, opts: Options): (r: Result<Element>)
    requires nodeTable.Some? ==> WellFormed(nodeTable.value)
    requires edgeTable.Some? ==> WellFormed(edgeTable.value)
    ensures ReadNodeAnnotation(nodeTable, opts.forceStr).Err? ==> r == Err(ReadNodeAnnotation(nodeTable, opts.forceStr).error)
    ensures ReadNodeAnnotation(nodeTable, opts.forceStr).Ok? && ReadEdgeAnnotation(edgeTable, opts.forceStr).Err? ==>
      r == Err(ReadEdgeAnnotation(edgeTable, opts.forceStr).error)
    ensures r.Ok? ==> r.value.tag == root.tag && r.value.attrs == root.attrs && |r.value.children| == |root.children|
  {
    var nodes :- ReadNodeAnnotation(nodeTable, opts.forceStr);
    var edges :- ReadEdgeAnnotation(edgeTable, opts.forceStr);
    AnnotateDocument(root, nodes, edges, edges.types, opts)
  }

  /** When a graph is annotated: exactly when it is ready and every node
      column and every edge column is typed, the edge columns by the types
      the annotation is declared with. */
  lemma GraphOk(graph: Element, nodes: NodeAnnotation, edges: EdgeAnnotation,
                edgeTypes: map<string, AttrType>, opts: Options)
    ensures Transform(graph, nodes, edges, edgeTypes, opts).Ok? <==>
      GraphReady(graph, nodes, edges, opts) && NodeTyped(nodes, nodes.types) && EdgeTyped(edges, edgeTypes)
  {
    TransformOk(graph, nodes, edges, edgeTypes, opts);
  }

  /** Line 129 as written: without a node table the node types are empty,
      so the first edge column's declaration raises a `KeyError` and any
      edge annotation with a column fails, whatever the graph. */
  lemma EdgeOnlyAnnotationFails(graph: Element, edges: EdgeAnnotation, opts: Options)
    requires |edges.columns| > 0
    ensures AnnotateGraphAsWritten(graph, NodeAnnotation([], map[]), edges, opts).Err?
  {
    UnsharedEdgeColumnFails(graph, NodeAnnotation([], map[]), edges, opts, 0);
  }

  /** Line 129 as written, in general: an edge column whose name is not
      also a node column's fails the run. */
  lemma UnsharedEdgeColumnFails(graph: Element, nodes: NodeAnnotation, edges: EdgeAnnotation, opts: Options, k: nat)
    requires k < |edges.columns| && edges.columns[k].name !in nodes.types
    ensures AnnotateGraphAsWritten(graph, nodes, edges, opts).Err?
  {
    GraphOk(graph, nodes, edges, nodes.types, opts);
  }

  /** The corrected transform on annotations as the script reads them: the
      types never get in the way, and a ready graph is always annotated. */
  lemma ReadAnnotationsTyped(graph: Element, nodeTable: Option<Table>, edgeTable: Option<Table>, opts: Options)
    requires nodeTable.Some? ==> WellFormed(nodeTable.value)
    requires edgeTable.Some? ==> WellFormed(edgeTable.value)
    requires ReadNodeAnnotation(nodeTable, opts.forceStr).Ok? && ReadEdgeAnnotation(edgeTable, opts.forceStr).Ok?
    ensures var nodes := ReadNodeAnnotation(nodeTable, opts.forceStr).value;
      var edges := ReadEdgeAnnotation(edgeTable, opts.forceStr).value;
      AnnotateGraph(graph, nodes, edges, opts).Ok? <==> GraphReady(graph, nodes, edges, opts)
  {
    var nodes := ReadNodeAnnotation(nodeTable, opts.forceStr).value;
    var edges := ReadEdgeAnnotation(edgeTable, opts.forceStr).value;
    NodeColumnsTyped(nodeTable, opts.forceStr);
    EdgeColumnsTyped(edgeTable, opts.forceStr);
    GraphOk(graph, nodes, edges, edges.types, opts);
  }

  /** When a run as written succeeds: exactly when both tables read, the
      document has a `graph` child, that graph is ready for the columns
      read, and every edge column is also typed by the node table. */
  lemma RunOk(nodeTable: Option<Table>, edgeTable: Option<Table>, root: Element, opts: Options)
    requires nodeTable.Some? ==> WellFormed(nodeTable.value)
    requires edgeTable.Some? ==> WellFormed(edgeTable.value)
    ensures Run(nodeTable, edgeTable, root, opts).Ok? <==>
      && ReadNodeAnnotation(nodeTable, opts.forceStr).Ok?
      && ReadEdgeAnnotation(edgeTable, opts.forceStr).Ok?
      && Find(root.children, GraphTag).Some?
      && GraphReady(root.children[Find(root.children, GraphTag).value],
                    ReadNodeAnnotation(nodeTable, opts.forceStr).value,
                    ReadEdgeAnnotation(edgeTable, opts.forceStr).value, opts)
      && EdgeTyped(ReadEdgeAnnotation(edgeTable, opts.forceStr).value, ReadNodeAnnotation(nodeTable, opts.forceStr).value.types)
  {
    var rn := ReadNodeAnnotation(nodeTable, opts.forceStr);
    var re := ReadEdgeAnnotation(edgeTable, opts.forceStr);
    if rn.Ok? && re.Ok? {
      assert Run(nodeTable, edgeTable, root, opts) == AnnotateDocument(root, rn.value, re.value, rn.value.types, opts);
      NodeColumnsTyped(nodeTable, opts.forceStr);
      DocumentOk(root, rn.value, re.value, rn.value.types, opts);
    }
  }

  /** When the document rewrite succeeds: exactly when the document has a
      `graph` child, that graph is ready, and every column is typed. */
  lemma DocumentOk(root: Element, nodes: NodeAnnotation, edges: EdgeAnnotation,
                   edgeTypes: map<string, AttrType>, opts: Options)
    ensures AnnotateDocument(root, nodes, edges, edgeTypes, opts).Ok? <==>
      && Find(root.children, GraphTag).Some?
      && GraphReady(root.children[Find(root.children, GraphTag).value], nodes, edges, opts)
      && NodeTyped(nodes, nodes.types) && EdgeTyped(edges, edgeTypes)
  {
    if Find(root.children, GraphTag).Some? {
      GraphOk(root.children[Find(root.children, GraphTag).value], nodes, edges, edgeTypes, opts);
    }
  }

  /** When a corrected run succeeds: exactly when both tables read, the
      document has a `graph` child, and that graph is ready for the
      columns read; nothing about column types can fail any more. */
  lemma RunCorrectedOk(nodeTable: Option<Table>, edgeTable: Option<Table>, root: Element, opts: Options)
    requires nodeTable.Some? ==> WellFormed(nodeTable.value)
    requires edgeTable.Some? ==> WellFormed(edgeTable.value)
    ensures RunCorrected(nodeTable, edgeTable, root, opts).Ok? <==>
      && ReadNodeAnnotation(nodeTable, opts.forceStr).Ok?
      && ReadEdgeAnnotation(edgeTable, opts.forceStr).Ok?
      && Find(root.children, GraphTag).Some?
      && GraphReady(root.children[Find(root.children, GraphTag).value],
                    ReadNodeAnnotation(nodeTable, opts.forceStr).value,
                    ReadEdgeAnnotation(edgeTable, opts.forceStr).value, opts)
  {
    var rn := ReadNodeAnnotation(nodeTable, opts.forceStr);
    var re := ReadEdgeAnnotation(edgeTable, opts.forceStr);
    if rn.Ok? && re.Ok? && Find(root.children, GraphTag).Some? {
      ReadAnnotationsTyped(root.children[Find(root.children, GraphTag).value], nodeTable, edgeTable, opts);
    }
  }

  /** Where the node table types every edge column as the edge table does,
      the corrected run is the run as written. */
  lemma RunAgrees(nodeTable: Option<Table>, edgeTable: Option<Table>, root: Element, opts: Options)
    requires nodeTable.Some? ==> WellFormed(nodeTable.value)
    requires edgeTable.Some? ==> WellFormed(edgeTable.value)
    requires ReadNodeAnnotation(nodeTable, opts.forceStr).Ok? && ReadEdgeAnnotation(edgeTable, opts.forceStr).Ok?
    requires TypesAgree(ReadEdgeAnnotation(edgeTable, opts.forceStr).value,
                        ReadNodeAnnotation(nodeTable, opts.forceStr).value.types,
                        ReadEdgeAnnotation(edgeTable, opts.forceStr).value.types)
    ensures RunCorrected(nodeTable, edgeTable, root, opts) == Run(nodeTable, edgeTable, root, opts)
  {
    var nodes := ReadNodeAnnotation(nodeTable, opts.forceStr).value;
    var edges := ReadEdgeAnnotation(edgeTable, opts.forceStr).value;
    assert Run(nodeTable, edgeTable, root, opts) == AnnotateDocument(root, nodes, edges, nodes.types, opts);
    assert RunCorrected(nodeTable, edgeTable, root, opts) == AnnotateDocument(root, nodes, edges, edges.types, opts);
    DocumentAgrees(root, nodes, edges, nodes.types, edges.types, opts);
  }

  /** The document rewrite reads the edge types only at the edge columns'
      names. */
  lemma DocumentAgrees(root: Element, nodes: NodeAnnotation, edges: EdgeAnnotation,
                       t1: map<string, AttrType>, t2: map<string, AttrType>, opts: Options)
    requires TypesAgree(edges, t1, t2)
    ensures AnnotateDocument(root, nodes, edges, t1, opts) == AnnotateDocument(root, nodes, edges, t2, opts)
  {
    if Find(root.children, GraphTag).Some? {
      TransformTypesAgree(root.children[Find(root.children, GraphTag).value], nodes, edges, t1, t2, opts);
    }
  }
}

=== FILE: seqs.dfy ===
/**
 Generic helpers over sequences: the first position satisfying a predicate,
 how many positions satisfy it, and removal of one position.
 */
module Seqs {
  import opened Results

  /** Index of the first element of `s` satisfying `p`. */
  function FirstWhere<T>(s: seq<T>, p: T -> bool): (r: Option<nat>)
    ensures r.Some? ==> r.value < |s| && p(s[r.value])
    ensures r.Some? ==> forall j :: 0 <= j < r.value ==> !p(s[j])
    ensures r.None? <==> forall j :: 0 <= j < |s| ==> !p(s[j])
    decreases |s|
  {
    if s == [] then None
    else if p(s[0]) then Some(0)
    else
      match FirstWhere(s[1..], p)
      case None => None
      case Some(i) => Some(i + 1)
  }

  /** Number of elements of `s` satisfying `p`. */
  function CountWhere<T>(s: seq<T>, p: T -> bool): nat
    decreases |s|
  {
    if s == [] then 0 else (if p(s[0]) then 1 else 0) + CountWhere(s[1..], p)
  }

  lemma {:induction false} CountWhereAppend<T>(a: seq<T>, b: seq<T>, p: T -> bool)
    ensures CountWhere(a + b, p) == CountWhere(a, p) + CountWhere(b, p)
    decreases |a|
  {
    if a == [] {
      assert a + b == b;
    } else {
      CountWhereAppend(a[1..], b, p);
      assert (a + b)[1..] == a[1..] + b;
    }
  }

  /** The count is zero exactly when no element satisfies `p`. */
  lemma {:induction false} CountWhereZero<T>(s: seq<T>, p: T -> bool)
    ensures CountWhere(s, p) == 0 <==> forall j :: 0 <= j < |s| ==> !p(s[j])
    decreases |s|
  {
    if s != [] {
      CountWhereZero(s[1..], p);
      assert forall j :: 1 <= j < |s| ==> s[j] == s[1..][j - 1];
    }
  }

  function RemoveAt<T>(s: seq<T>, i: nat): seq<T>
    requires i < |s|
  {
    s[..i] + s[i + 1..]
  }

  /** Removing one position loses exactly that element and keeps the rest. */
  lemma RemoveAtMultiset<T>(s: seq<T>, i: nat)
    requires i < |s|
    ensures multiset(s) == multiset(RemoveAt(s, i)) + multiset{s[i]}
    ensures |RemoveAt(s, i)| == |s| - 1
  {
    assert s == s[..i] + [s[i]] + s[i + 1..];
  }

  /** Removing one position lowers the count by one exactly when the removed
      element satisfies `p`. */
  lemma CountWhereRemove<T>(s: seq<T>, i: nat, p: T -> bool)
    requires i < |s|
    ensures CountWhere(RemoveAt(s, i), p) == CountWhere(s, p) - (if p(s[i]) then 1 else 0)
  {
    assert s == s[..i] + ([s[i]] + s[i + 1..]);
    CountWhereAppend(s[..i], [s[i]] + s[i + 1..], p);
    CountWhereAppend([s[i]], s[i + 1..], p);
    CountWhereAppend(s[..i], s[i + 1..], p);
    assert CountWhere([s[i]], p) == if p(s[i]) then 1 else 0 by {
      assert [s[i]][1..] == [];
    }
  }

  /** Removing an element that fails `p` does not change which element is the
      first to satisfy `p`. */
  lemma {:induction false} FirstWhereRemove<T>(s: seq<T>, i: nat, p: T -> bool)
    requires i < |s| && !p(s[i])
    ensures FirstWhere(RemoveAt(s, i), p).Some? <==> FirstWhere(s, p).Some?
    ensures FirstWhere(s, p).Some? ==>
      RemoveAt(s, i)[FirstWhere(RemoveAt(s, i), p).value] == s[FirstWhere(s, p).value]
  {
    var r := RemoveAt(s, i);
    assert forall j :: 0 <= j < i ==> r[j] == s[j];
    assert forall j :: i <= j < |r| ==> r[j] == s[j + 1];
    match FirstWhere(s, p)
    case None =>
      assert forall j :: 0 <= j < |r| ==> !p(r[j]);
    case Some(k) =>
      var k' := if k < i then k else k - 1;
      assert r[k'] == s[k];
      assert forall j :: 0 <= j < k' ==> !p(r[j]);
      assert FirstWhere(r, p).Some?;
      assert FirstWhere(r, p).value == k';
  }

  /** Replacing an element by one that `p` judges the same way keeps the
      count. */
  lemma CountWhereUpdate<T>(s: seq<T>, i: nat, x: T, p: T -> bool)
    requires i < |s| && p(x) == p(s[i])
    ensures CountWhere(s[i := x], p) == CountWhere(s, p)
  {
    CountWhereRemove(s, i, p);
    CountWhereRemove(s[i := x], i, p);
    assert RemoveAt(s[i := x], i) == RemoveAt(s, i);
  }

  /** `FirstWhere` is characterised by its contract: a position that
      satisfies `p` with none before it is the answer. */
  lemma FirstWhereIs<T>(s: seq<T>, k: nat, p: T -> bool)
    requires k < |s| && p(s[k]) && forall j :: 0 <= j < k ==> !p(s[j])
    ensures FirstWhere(s, p) == Some(k)
  {
  }

  /** The first match in `a + b` is the first match in `a`, or failing that
      the first match in `b`, shifted. */
  lemma FirstWhereAppend<T>(a: seq<T>, b: seq<T>, p: T -> bool)
    ensures FirstWhere(a, p).Some? ==> FirstWhere(a + b, p) == FirstWhere(a, p)
    ensures FirstWhere(a, p).None? && FirstWhere(b, p).Some? ==>
      FirstWhere(a + b, p) == Some(|a| + FirstWhere(b, p).value)
    ensures FirstWhere(a, p).None? && FirstWhere(b, p).None? ==> FirstWhere(a + b, p).None?
  {
    if FirstWhere(a, p).Some? {
      FirstWhereAppendLeft(a, b, p);
    } else if FirstWhere(b, p).Some? {
      FirstWhereAppendRight(a, b, p);
    } else {
      FirstWhereAppendNone(a, b, p);
    }
  }

  lemma FirstWhereAppendLeft<T>(a: seq<T>, b: seq<T>, p: T -> bool)
    requires FirstWhere(a, p).Some?
    ensures FirstWhere(a + b, p) == FirstWhere(a, p)
  {
    var k := FirstWhere(a, p).value;
    assert forall j :: 0 <= j <= k ==> (a + b)[j] == a[j];
    FirstWhereIs(a + b, k, p);
  }

  lemma FirstWhereAppendRight<T>(a: seq<T>, b: seq<T>, p: T -> bool)
    requires FirstWhere(a, p).None? && FirstWhere(b, p).Some?
    ensures FirstWhere(a + b, p) == Some(|a| + FirstWhere(b, p).value)
  {
    var s := a + b;
    var k := FirstWhere(b, p).value;
    forall j | 0 <= j < |a| + k
      ensures !p(s[j])
    {
      if j < |a| {
        assert s[j] == a[j];
      } else {
        assert s[j] == b[j - |a|];
      }
    }
    assert s[|a| + k] == b[k];
    FirstWhereIs(s, |a| + k, p);
  }

  lemma FirstWhereAppendNone<T>(a: seq<T>, b: seq<T>, p: T -> bool)
    requires FirstWhere(a, p).None? && FirstWhere(b, p).None?
    ensures FirstWhere(a + b, p).None?
  {
    var s := a + b;
    forall j | 0 <= j < |s|
      ensures !p(s[j])
    {
      if j < |a| {
        assert s[j] == a[j];
      } else {
        assert s[j] == b[j - |a|];
      }
    }
  }

  /** A one-element sequence matches exactly when its element does. */
  lemma WhereSingle<T>(x: T, p: T -> bool)
    ensures CountWhere([x], p) == if p(x) then 1 else 0
    ensures FirstWhere([x], p) == if p(x) then Some(0) else None
  {
    assert [x][1..] == [];
  }

  /** Two sequences that `p` judges alike position by position have the
      same first match and the same count. */
  lemma {:induction false} WhereAlike<T>(a: seq<T>, b: seq<T>, p: T -> bool)
    requires |a| == |b| && forall j :: 0 <= j < |a| ==> p(a[j]) == p(b[j])
    ensures FirstWhere(a, p) == FirstWhere(b, p)
    ensures CountWhere(a, p) == CountWhere(b, p)
    decreases |a|
  {
    if a != [] {
      assert forall j :: 0 <= j < |a| - 1 ==> a[1..][j] == a[j + 1] && b[1..][j] == b[j + 1];
      WhereAlike(a[1..], b[1..], p);
    }
  }
}

=== FILE: strings.dfy ===
/**
 Python's `str.split(sep)` with an explicit separator, and its inverse
 `sep.join(parts)`. The colour column's value is split on commas into the
 four colour components.
 */
module Strings {

  /** Number of occurrences of `c` in `s`. */
  function Count(s: string, c: char): nat
  {
    if s == [] then 0 else (if s[0] == c then 1 else 0) + Count(s[1..], c)
  }

  /** `s.split(sep)`: never empty, one more part than there are separators,
      and no part contains the separator. */
  function Split(s: string, sep: char): (parts: seq<string>)
    ensures |parts| == Count(s, sep) + 1
    ensures forall i :: 0 <= i < |parts| ==> sep !in parts[i]
    decreases |s|
  {
    if s == [] then [""]
    else
      var tail := Split(s[1..], sep);
      if s[0] == sep then [""] + tail
      else [[s[0]] + tail[0]] + tail[1..]
  }

  /** `sep.join(parts)`. */
  function Join(parts: seq<string>, sep: char): string
    requires |parts| >= 1
    decreases |parts|
  {
    if |parts| == 1 then parts[0] else parts[0] + [sep] + Join(parts[1..], sep)
  }

  /** Joining the parts of a split gives back the original string. */
  lemma {:induction false} JoinSplit(s: string, sep: char)
    ensures Join(Split(s, sep), sep) == s
    decreases |s|
  {
    if s != [] {
      var tail := Split(s[1..], sep);
      JoinSplit(s[1..], sep);
      if s[0] == sep {
        assert Split(s, sep) == [""] + tail;
        assert s == [sep] + s[1..];
      } else {
        var parts := Split(s, sep);
        assert parts == [[s[0]] + tail[0]] + tail[1..];
        if |tail| == 1 {
          assert s == [s[0]] + tail[0];
        } else {
          assert parts[1..] == tail[1..];
          assert Join(tail, sep) == tail[0] + [sep] + Join(tail[1..], sep);
          assert s == [s[0]] + s[1..];
        }
      }
    }
  }

  /** Splitting `x + y` where `x` holds no separator glues `x` onto the first
      part of `y`'s split. */
  lemma {:induction false} SplitPrefix(x: string, y: string, sep: char)
    requires sep !in x
    ensures Split(x + y, sep) == [x + Split(y, sep)[0]] + Split(y, sep)[1..]
    decreases |x|
  {
    if x != [] {
      SplitPrefix(x[1..], y, sep);
      var p := Split(y, sep);
      var tail := Split(x[1..] + y, sep);
      assert (x + y)[0] == x[0] != sep;
      assert (x + y)[1..] == x[1..] + y;
      assert tail[0] == x[1..] + p[0] && tail[1..] == p[1..];
      assert [x[0]] + tail[0] == x + p[0] by {
        assert x == [x[0]] + x[1..];
      }
    } else {
      var parts := Split(y, sep);
      assert x + y == y;
      assert x + parts[0] == parts[0];
      assert parts == [parts[0]] + parts[1..];
    }
  }

  /** Splitting the join of separator-free parts gives back the parts. */
  lemma {:induction false} SplitJoin(parts: seq<string>, sep: char)
    requires |parts| >= 1
    requires forall i :: 0 <= i < |parts| ==> sep !in parts[i]
    ensures Split(Join(parts, sep), sep) == parts
    decreases |parts|
  {
    if |parts| == 1 {
      SplitPrefix(parts[0], [], sep);
      assert parts[0] + [] == parts[0];
    } else {
      var rest := Join(parts[1..], sep);
      SplitJoin(parts[1..], sep);
      SplitPrefix(parts[0], [sep] + rest, sep);
      assert parts[0] + [sep] + rest == parts[0] + ([sep] + rest);
      assert Split([sep] + rest, sep) == [""] + Split(rest, sep) by {
        assert ([sep] + rest)[1..] == rest;
      }
      assert parts[0] + Split([sep] + rest, sep)[0] == parts[0] + "" == parts[0];
      assert Split([sep] + rest, sep)[1..] == parts[1..];
      assert parts == [parts[0]] + parts[1..];
    }
  }
}

=== FILE: tables.dfy ===
/**
 The annotation tables as pandas hands them to the transform.

 A tab-separated annotation file is read into a table of typed cells with one
 inferred dtype per column (the inference itself belongs to pandas and is an
 input here). The node table is indexed by its `node` column and turned into
 a dictionary column -> (node label -> cell); the edge table is indexed by
 `(source, target)` and, so that an edge is found whichever way round it is
 listed, also by `(target, source)`, the second index overriding the first.
 Each column's dtype is classified as a GEXF attribute type.
 */
module Tables {
  import opened Results
  import opened Seqs

  /** A cell as pandas holds it. */
  datatype Cell =
    | Str(text: string)                // a Python str
    | Num(raw: string, shown: string)  // an int or float: its text in the file, and what `str()` prints
    | NaN                              // an empty field

  /** `str(cell)`. */
  function Show(c: Cell): string
  {
    match c
    case Str(t) => t
    case Num(_, shown) => shown
    case NaN => "nan"
  }

  /** The numpy dtype families pandas infers for a column. */
  datatype DType = IntegerDType | FloatDType | BoolDType | ObjectDType

  /** The GEXF attribute types the transform declares. */
  datatype AttrType = IntegerType | FloatType | StringType {
    function Name(): string
    {
      match this
      case IntegerType => "integer"
      case FloatType => "float"
      case StringType => "string"
    }
  }

  /** `get_column_type` for one column: integer dtypes (but not bool, which
      numpy does not count as an integer) declare "integer", floating dtypes
      "float", everything else "string". */
  function Classify(d: DType): (t: AttrType)
    ensures t == IntegerType <==> d == IntegerDType
    ensures t == FloatType <==> d == FloatDType
  {
    match d
    case IntegerDType => IntegerType
    case FloatDType => FloatType
    case _ => StringType
  }

  datatype Column = Column(name: string, dtype: DType)

  datatype Table = Table(columns: seq<Column>, rows: seq<seq<Cell>>)

  /** What pandas guarantees of a table it has read: column names are unique
      (duplicates get renamed on reading) and every row has one cell per
      column. */
  ghost predicate WellFormed(t: Table)
  {
    && (forall i, j :: 0 <= i < j < |t.columns| ==> t.columns[i].name != t.columns[j].name)
    && (forall i :: 0 <= i < |t.rows| ==> |t.rows[i]| == |t.columns|)
  }

  /** A cell as `read_table(..., dtype=str)` leaves it: numbers keep the text
      they had in the file, empty fields are still NaN. */
  function AsText(c: Cell): Cell
  {
    match c
    case Num(raw, _) => Str(raw)
    case _ => c
  }

  /** The table read with `--force-str`: every column has object dtype and no
      cell is a number. */
  function ForceStr(t: Table): (r: Table)
    requires WellFormed(t)
    ensures WellFormed(r)
    ensures |r.columns| == |t.columns| && |r.rows| == |t.rows|
    ensures forall j :: 0 <= j < |r.columns| ==>
      r.columns[j].name == t.columns[j].name && r.columns[j].dtype == ObjectDType
  {
    Table(
      seq(|t.columns|, j requires 0 <= j < |t.columns| => Column(t.columns[j].name, ObjectDType)),
      seq(|t.rows|, i requires 0 <= i < |t.rows| =>
        seq(|t.rows[i]|, j requires 0 <= j < |t.rows[i]| => AsText(t.rows[i][j]))))
  }

  /** With `--force-str` no cell is a number any more: a number keeps the
      text it had in the file, so `str()` of the cell is that text. */
  lemma ForceStrCells(t: Table, i: nat, j: nat)
    requires WellFormed(t) && i < |t.rows| && j < |t.columns|
    ensures !ForceStr(t).rows[i][j].Num?
    ensures t.rows[i][j].Num? ==> Show(ForceStr(t).rows[i][j]) == t.rows[i][j].raw
    ensures !t.rows[i][j].Num? ==> ForceStr(t).rows[i][j] == t.rows[i][j]
  {
  }

  /** The table as the script reads it, with or without `--force-str`. */
  function Effective(t: Table, forceStr: bool): (r: Table)
    requires WellFormed(t)
    ensures WellFormed(r)
    ensures |r.columns| == |t.columns| && |r.rows| == |t.rows|
    ensures forall j :: 0 <= j < |r.columns| ==> r.columns[j].name == t.columns[j].name
  {
    if forceStr then ForceStr(t) else t
  }

  /** The entry for key `e[i].0` is not overridden by a later entry. */
  ghost predicate LastFor<K, V>(e: seq<(K, V)>, i: int)
    requires 0 <= i < |e|
  {
    forall j :: i < j < |e| ==> e[j].0 != e[i].0
  }

  /** A Python dict built by assigning the entries in order: every key of the
      entries is present and holds the value of its last entry. */
  function IndexBy<K, V>(e: seq<(K, V)>): (m: map<K, V>)
    ensures m.Keys == set i | 0 <= i < |e| :: e[i].0
    ensures forall i :: 0 <= i < |e| && LastFor(e, i) ==> m[e[i].0] == e[i].1
    decreases |e|
  {
    if e == [] then map[]
    else
      var prefix := e[..|e| - 1];
      var last := e[|e| - 1];
      assert e == prefix + [last];
      IndexSnocKeys(prefix, last, IndexBy(prefix));
      IndexSnocValues(prefix, last, IndexBy(prefix));
      IndexBy(prefix)[last.0 := last.1]
  }

  /** Assigning one more entry adds its key. */
  lemma IndexSnocKeys<K, V>(prefix: seq<(K, V)>, last: (K, V), m: map<K, V>)
    requires m.Keys == set i | 0 <= i < |prefix| :: prefix[i].0
    ensures m[last.0 := last.1].Keys == set i | 0 <= i < |prefix + [last]| :: (prefix + [last])[i].0
  {
    var e := prefix + [last];
    var keys := set i | 0 <= i < |prefix| :: prefix[i].0;
    forall k | k in keys + {last.0}
      ensures exists i :: 0 <= i < |e| && e[i].0 == k
    {
      if k == last.0 {
        assert e[|prefix|] == last;
      } else {
        var i :| 0 <= i < |prefix| && prefix[i].0 == k;
        assert e[i] == prefix[i];
      }
    }
    forall i | 0 <= i < |e|
      ensures e[i].0 in keys + {last.0}
    {
      if i < |prefix| {
        assert e[i] == prefix[i];
      }
    }
    assert (set i | 0 <= i < |e| :: e[i].0) == keys + {last.0};
  }

  /** Assigning one more entry overrides only the entries with its key. */
  lemma IndexSnocValues<K, V>(prefix: seq<(K, V)>, last: (K, V), m: map<K, V>)
    requires m.Keys == set i | 0 <= i < |prefix| :: prefix[i].0
    requires forall i :: 0 <= i < |prefix| && LastFor(prefix, i) ==> m[prefix[i].0] == prefix[i].1
    ensures forall i :: 0 <= i < |prefix| + 1 && LastFor(prefix + [last], i) ==>
      m[last.0 := last.1][(prefix + [last])[i].0] == (prefix + [last])[i].1
  {
    var e := prefix + [last];
    var m' := m[last.0 := last.1];
    forall i | 0 <= i < |e| && LastFor(e, i)
      ensures m'[e[i].0] == e[i].1
    {
      if i < |prefix| {
        assert e[i] == prefix[i];
        assert e[|prefix|] == last;
        assert LastFor(prefix, i) by {
          forall j | i < j < |prefix|
            ensures prefix[j].0 != prefix[i].0
          {
            assert prefix[j] == e[j];
          }
        }
        assert prefix[i].0 in m;
      }
    }
  }

  /** `col_types`: each column name with its classified type. */
  function ColumnTypes(cols: seq<Column>): (types: map<string, AttrType>)
    requires forall i, j :: 0 <= i < j < |cols| ==> cols[i].name != cols[j].name
    ensures types.Keys == set j | 0 <= j < |cols| :: cols[j].name
    ensures forall j :: 0 <= j < |cols| ==> cols[j].name in types && types[cols[j].name] == Classify(cols[j].dtype)
  {
    var e := seq(|cols|, j requires 0 <= j < |cols| => (cols[j].name, Classify(cols[j].dtype)));
    assert forall j :: 0 <= j < |cols| ==> e[j].0 == cols[j].name && LastFor(e, j);
    assert (set j | 0 <= j < |e| :: e[j].0) == set j | 0 <= j < |cols| :: cols[j].name;
    IndexBy(e)
  }

  /** Position of the column called `name`. */
  function ColumnIndex(cols: seq<Column>, name: string): (r: Option<nat>)
    ensures r.Some? ==> r.value < |cols| && cols[r.value].name == name
    ensures r.None? <==> forall j :: 0 <= j < |cols| ==> cols[j].name != name
  {
    FirstWhere(cols, (c: Column) => c.name == name)
  }

  /** The positions below `n` outside `skip`, in increasing order: the columns
      `to_dict` reports once the index columns are set aside. */
  function Others(n: nat, skip: set<nat>): (r: seq<nat>)
    ensures forall p :: 0 <= p < |r| ==> r[p] < n && r[p] !in skip
    ensures forall j :: 0 <= j < n && j !in skip ==> j in r
    ensures forall p, q :: 0 <= p < q < |r| ==> r[p] < r[q]
  {
    if n == 0 then []
    else Others(n - 1, skip) + (if n - 1 in skip then [] else [n - 1])
  }

  /** Where a kept index sits in `Others`. */
  lemma OthersPosition(n: nat, skip: set<nat>, j: nat) returns (p: nat)
    requires j < n && j !in skip
    ensures p < |Others(n, skip)| && Others(n, skip)[p] == j
  {
    var r := Others(n, skip);
    assert j in r;
    p :| 0 <= p < |r| && r[p] == j;
  }

  /** How many positions below `n` lie outside `skip`. */
  function Kept(n: nat, skip: set<nat>): nat
  {
    if n == 0 then 0 else Kept(n - 1, skip) + (if n - 1 in skip then 0 else 1)
  }

  /** `Others` lists exactly `Kept` positions. */
  lemma {:induction false} OthersKept(n: nat, skip: set<nat>)
    ensures |Others(n, skip)| == Kept(n, skip)
  {
    if n > 0 {
      OthersKept(n - 1, skip);
    }
  }

  /** With nothing below `n` skipped, every position is kept. */
  lemma {:induction false} KeptAll(n: nat, skip: set<nat>)
    requires forall j :: j in skip ==> j >= n
    ensures Kept(n, skip) == n
  {
    if n > 0 {
      KeptAll(n - 1, skip);
    }
  }

  /** With one position below `n` skipped, one fewer is kept. */
  lemma {:induction false} KeptOne(n: nat, skip: set<nat>, k: nat)
    requires k < n && k in skip && forall j :: j in skip ==> j == k || j >= n
    ensures Kept(n, skip) == n - 1
  {
    if n - 1 == k {
      KeptAll(n - 1, skip);
    } else {
      KeptOne(n - 1, skip, k);
    }
  }

  /** With two positions below `n` skipped, two fewer are kept. */
  lemma {:induction false} KeptTwo(n: nat, a: nat, b: nat)
    requires a < n && b < n && a != b
    ensures Kept(n, {a, b}) == n - 2
  {
    if n - 1 == a {
      KeptOne(n - 1, {a, b}, b);
    } else if n - 1 == b {
      KeptOne(n - 1, {a, b}, a);
    } else {
      KeptTwo(n - 1, a, b);
    }
  }

  /** Distinct columns of a well-formed table have distinct names. */
  lemma DistinctNames(t: Table, i: nat, j: nat)
    requires WellFormed(t) && i < |t.columns| && j < |t.columns| && i != j
    ensures t.columns[i].name != t.columns[j].name
  {
    if j < i {
      assert t.columns[j].name != t.columns[i].name;
    }
  }

  ghost predicate Rect(rows: seq<seq<Cell>>, width: nat)
  {
    forall i :: 0 <= i < |rows| ==> |rows[i]| == width
  }

  /** No later row has the same cells at positions `a` and `b` as row `i`. */
  ghost predicate LastPair(rows: seq<seq<Cell>>, a: nat, b: nat, i: nat)
    requires i < |rows| && forall r :: 0 <= r < |rows| ==> a < |rows[r]| && b < |rows[r]|
  {
    forall r :: i < r < |rows| ==> (rows[r][a], rows[r][b]) != (rows[i][a], rows[i][b])
  }

  /** No later row has the same cell at position `k` as row `i`. */
  ghost predicate LastKey(rows: seq<seq<Cell>>, k: nat, i: nat)
    requires i < |rows| && forall r :: 0 <= r < |rows| ==> k < |rows[r]|
  {
    forall r :: i < r < |rows| ==> rows[r][k] != rows[i][k]
  }

  /** `dat.set_index(k)[j].to_dict()`: a dictionary from each row's cell in
      column `k` to its cell in column `j`. */
  function KeyedColumn(rows: seq<seq<Cell>>, width: nat, k: nat, j: nat): (m: map<Cell, Cell>)
    requires Rect(rows, width) && k < width && j < width
    ensures m.Keys == set i | 0 <= i < |rows| :: rows[i][k]
  {
    var e := seq(|rows|, i requires 0 <= i < |rows| => (rows[i][k], rows[i][j]));
    assert forall i :: 0 <= i < |rows| ==> e[i].0 == rows[i][k];
    assert (set i | 0 <= i < |e| :: e[i].0) == set i | 0 <= i < |rows| :: rows[i][k];
    IndexBy(e)
  }

  /** For a repeated key the last row wins. */
  lemma KeyedColumnLast(rows: seq<seq<Cell>>, width: nat, k: nat, j: nat, i: nat)
    requires Rect(rows, width) && k < width && j < width
    requires i < |rows| && LastKey(rows, k, i)
    ensures KeyedColumn(rows, width, k, j)[rows[i][k]] == rows[i][j]
  {
    var e := seq(|rows|, i requires 0 <= i < |rows| => (rows[i][k], rows[i][j]));
    assert LastFor(e, i);
  }

  /** `dat.set_index([a, b])[j].to_dict()`: a dictionary from each row's pair
      of cells in columns `a` and `b` to its cell in column `j`. */
  function PairedColumn(rows: seq<seq<Cell>>, width: nat, a: nat, b: nat, j: nat): (m: map<(Cell, Cell), Cell>)
    requires Rect(rows, width) && a < width && b < width && j < width
    ensures m.Keys == set i | 0 <= i < |rows| :: (rows[i][a], rows[i][b])
  {
    var e := seq(|rows|, i requires 0 <= i < |rows| => ((rows[i][a], rows[i][b]), rows[i][j]));
    assert forall i :: 0 <= i < |rows| ==> e[i].0 == (rows[i][a], rows[i][b]);
    assert (set i | 0 <= i < |e| :: e[i].0) == set i | 0 <= i < |rows| :: (rows[i][a], rows[i][b]);
    IndexBy(e)
  }

  /** For a repeated pair the last row wins. */
  lemma PairedColumnLast(rows: seq<seq<Cell>>, width: nat, a: nat, b: nat, j: nat, i: nat)
    requires Rect(rows, width) && a < width && b < width && j < width
    requires i < |rows| && LastPair(rows, a, b, i)
    ensures PairedColumn(rows, width, a, b, j)[(rows[i][a], rows[i][b])] == rows[i][j]
  {
    var e := seq(|rows|, i requires 0 <= i < |rows| => ((rows[i][a], rows[i][b]), rows[i][j]));
    assert LastFor(e, i);
  }

  /** Some row lists, the other way round, the pair row `i` lists as `(s, t)`. */
  ghost predicate ListedReversed(rows: seq<seq<Cell>>, s: nat, t: nat, i: nat)
    requires i < |rows| && forall r :: 0 <= r < |rows| ==> s < |rows[r]| && t < |rows[r]|
  {
    exists r :: 0 <= r < |rows| && (rows[r][t], rows[r][s]) == (rows[i][s], rows[i][t])
  }

  /** `x[name].update(y[name])` in `read_edge_annotation`: the column indexed
      by `(source, target)`, overridden by the same column indexed by
      `(target, source)`. Every row answers under both orientations of its
      pair, and nothing else does. */
  function MergedColumn(rows: seq<seq<Cell>>, width: nat, s: nat, t: nat, j: nat): (m: map<(Cell, Cell), Cell>)
    requires Rect(rows, width) && s < width && t < width && j < width
    ensures m.Keys == (set i | 0 <= i < |rows| :: (rows[i][s], rows[i][t])) + (set i | 0 <= i < |rows| :: (rows[i][t], rows[i][s]))
  {
    PairedColumn(rows, width, s, t, j) + PairedColumn(rows, width, t, s, j)
  }

  /** The merged column is direction-agnostic: a pair is a key exactly when
      its reverse is. */
  lemma MergedSymmetric(rows: seq<seq<Cell>>, width: nat, s: nat, t: nat, j: nat, a: Cell, b: Cell)
    requires Rect(rows, width) && s < width && t < width && j < width
    ensures (a, b) in MergedColumn(rows, width, s, t, j) <==> (b, a) in MergedColumn(rows, width, s, t, j)
  {
    var m := MergedColumn(rows, width, s, t, j);
    if (a, b) in m {
      var i :| 0 <= i < |rows| && ((rows[i][s], rows[i][t]) == (a, b) || (rows[i][t], rows[i][s]) == (a, b));
      assert (b, a) == (rows[i][t], rows[i][s]) || (b, a) == (rows[i][s], rows[i][t]);
    }
    if (b, a) in m {
      var i :| 0 <= i < |rows| && ((rows[i][s], rows[i][t]) == (b, a) || (rows[i][t], rows[i][s]) == (b, a));
      assert (a, b) == (rows[i][t], rows[i][s]) || (a, b) == (rows[i][s], rows[i][t]);
    }
  }

  /** Where a pair is listed reversed, the reversed listing wins: the key
      `(target, source)` of the last row listing it takes that row's cell,
      even when another row lists the same pair the forward way. */
  lemma ReversedWins(rows: seq<seq<Cell>>, width: nat, s: nat, t: nat, j: nat, i: nat)
    requires Rect(rows, width) && s < width && t < width && j < width
    requires i < |rows| && LastPair(rows, t, s, i)
    ensures MergedColumn(rows, width, s, t, j)[(rows[i][t], rows[i][s])] == rows[i][j]
  {
    var reversed := PairedColumn(rows, width, t, s, j);
    assert (rows[i][t], rows[i][s]) in reversed;
    PairedColumnLast(rows, width, t, s, j, i);
  }

  /** A pair no row lists reversed keeps the cell of the last row listing it
      forward. */
  lemma ForwardFallback(rows: seq<seq<Cell>>, width: nat, s: nat, t: nat, j: nat, i: nat)
    requires Rect(rows, width) && s < width && t < width && j < width
    requires i < |rows| && LastPair(rows, s, t, i) && !ListedReversed(rows, s, t, i)
    ensures MergedColumn(rows, width, s, t, j)[(rows[i][s], rows[i][t])] == rows[i][j]
  {
    var forward := PairedColumn(rows, width, s, t, j);
    var reversed := PairedColumn(rows, width, t, s, j);
    assert (rows[i][s], rows[i][t]) in forward;
    assert (rows[i][s], rows[i][t]) !in reversed;
    PairedColumnLast(rows, width, s, t, j, i);
  }

  datatype NodeColumn = NodeColumn(name: string, values: map<Cell, Cell>)
  datatype EdgeColumn = EdgeColumn(name: string, values: map<(Cell, Cell), Cell>)

  /** The dictionary `read_node_annotation` returns with its column types. */
  datatype NodeAnnotation = NodeAnnotation(columns: seq<NodeColumn>, types: map<string, AttrType>)

  /** The dictionary `read_edge_annotation` returns with its column types. */
  datatype EdgeAnnotation = EdgeAnnotation(columns: seq<EdgeColumn>, types: map<string, AttrType>)

  /** The dictionaries of every column but `k`, in table order, each keyed
      by the cells of column `k`. */
  function NodeColumns(t: Table, k: nat): seq<NodeColumn>
    requires WellFormed(t) && k < |t.columns|
  {
    var others := Others(|t.columns|, {k});
    seq(|others|, p requires 0 <= p < |others| =>
      NodeColumn(t.columns[others[p]].name, KeyedColumn(t.rows, |t.columns|, k, others[p])))
  }

  /** Every column but the index column becomes a dictionary, and the index
      column does not. */
  lemma NodeColumnsNames(t: Table, k: nat)
    requires WellFormed(t) && k < |t.columns|
    ensures forall p :: 0 <= p < |NodeColumns(t, k)| ==> NodeColumns(t, k)[p].name != t.columns[k].name
    ensures forall j :: 0 <= j < |t.columns| && j != k ==>
      exists p :: 0 <= p < |NodeColumns(t, k)| && NodeColumns(t, k)[p].name == t.columns[j].name
  {
    var others := Others(|t.columns|, {k});
    var cols := NodeColumns(t, k);
    forall p | 0 <= p < |cols|
      ensures cols[p].name != t.columns[k].name
    {
      assert cols[p].name == t.columns[others[p]].name;
      DistinctNames(t, others[p], k);
    }
    forall j | 0 <= j < |t.columns| && j != k
      ensures exists p :: 0 <= p < |cols| && cols[p].name == t.columns[j].name
    {
      var p := OthersPosition(|t.columns|, {k}, j);
      assert cols[p].name == t.columns[j].name;
    }
  }

  /** All node dictionaries share one key set, the cells of the index
      column: an empty field still gives an entry (NaN). */
  lemma NodeColumnsKeys(t: Table, k: nat)
    requires WellFormed(t) && k < |t.columns|
    ensures forall p :: 0 <= p < |NodeColumns(t, k)| ==>
      NodeColumns(t, k)[p].values.Keys == set i | 0 <= i < |t.rows| :: t.rows[i][k]
  {
  }

  /** Exactly one node dictionary per column but the index column: one
      fewer dictionary than columns, with distinct names. */
  lemma NodeColumnsExact(t: Table, k: nat)
    requires WellFormed(t) && k < |t.columns|
    ensures |NodeColumns(t, k)| == |t.columns| - 1
    ensures forall p, q :: 0 <= p < q < |NodeColumns(t, k)| ==> NodeColumns(t, k)[p].name != NodeColumns(t, k)[q].name
  {
    var others := Others(|t.columns|, {k});
    var cols := NodeColumns(t, k);
    OthersKept(|t.columns|, {k});
    KeptOne(|t.columns|, {k}, k);
    forall p, q | 0 <= p < q < |cols|
      ensures cols[p].name != cols[q].name
    {
      DistinctNames(t, others[p], others[q]);
    }
  }

  /** The dictionary named after column `j` holds every row's cell as
      `KeyedAnswers` says. */
  lemma NodeColumnsValues(t: Table, k: nat)
    requires WellFormed(t) && k < |t.columns|
    ensures forall i, j, p :: (0 <= i < |t.rows| && 0 <= j < |t.columns| && 0 <= p < |NodeColumns(t, k)| &&
      NodeColumns(t, k)[p].name == t.columns[j].name) ==>
        KeyedAnswers(t.rows, |t.columns|, k, j, i, NodeColumns(t, k)[p].values)
  {
    var others := Others(|t.columns|, {k});
    var cols := NodeColumns(t, k);
    var w := |t.columns|;
    forall i, j, p | 0 <= i < |t.rows| && 0 <= j < |t.columns| && 0 <= p < |cols| && cols[p].name == t.columns[j].name
      ensures KeyedAnswers(t.rows, w, k, j, i, cols[p].values)
    {
      assert cols[p].name == t.columns[others[p]].name;
      assert others[p] == j;
      assert cols[p].values == KeyedColumn(t.rows, w, k, j);
      KeyedRow(t.rows, w, k, j, i);
    }
  }

  /** What a node dictionary `m` holds for row `i` and column `j`: the
      row's node is a key, and it maps to the row's cell when no later row
      names the same node. */
  ghost predicate KeyedAnswers(rows: seq<seq<Cell>>, width: nat, k: nat, j: nat, i: nat, m: map<Cell, Cell>)
    requires Rect(rows, width) && k < width && j < width && i < |rows|
  {
    && rows[i][k] in m
    && (LastKey(rows, k, i) ==> m[rows[i][k]] == rows[i][j])
  }

  /** Row `i` of the keyed column, by `KeyedColumnLast`. */
  lemma KeyedRow(rows: seq<seq<Cell>>, width: nat, k: nat, j: nat, i: nat)
    requires Rect(rows, width) && k < width && j < width && i < |rows|
    ensures KeyedAnswers(rows, width, k, j, i, KeyedColumn(rows, width, k, j))
  {
    if LastKey(rows, k, i) {
      KeyedColumnLast(rows, width, k, j, i);
    }
  }

  /** The dictionaries of every column but `s` and `tg`, in table order, each
      merged over both orientations of the `(s, tg)` pair. */
  function EdgeColumns(t: Table, s: nat, tg: nat): seq<EdgeColumn>
    requires WellFormed(t) && s < |t.columns| && tg < |t.columns|
  {
    var others := Others(|t.columns|, {s, tg});
    seq(|others|, p requires 0 <= p < |others| =>
      EdgeColumn(t.columns[others[p]].name, MergedColumn(t.rows, |t.columns|, s, tg, others[p])))
  }

  /** Every column but the two index columns becomes a dictionary, and
      neither index column does. */
  lemma EdgeColumnsNames(t: Table, s: nat, tg: nat)
    requires WellFormed(t) && s < |t.columns| && tg < |t.columns|
    ensures forall p :: 0 <= p < |EdgeColumns(t, s, tg)| ==>
      EdgeColumns(t, s, tg)[p].name != t.columns[s].name && EdgeColumns(t, s, tg)[p].name != t.columns[tg].name
    ensures forall j :: 0 <= j < |t.columns| && j != s && j != tg ==>
      exists p :: 0 <= p < |EdgeColumns(t, s, tg)| && EdgeColumns(t, s, tg)[p].name == t.columns[j].name
  {
    var others := Others(|t.columns|, {s, tg});
    var cols := EdgeColumns(t, s, tg);
    forall p | 0 <= p < |cols|
      ensures cols[p].name != t.columns[s].name && cols[p].name != t.columns[tg].name
    {
      assert cols[p].name == t.columns[others[p]].name;
      DistinctNames(t, others[p], s);
      DistinctNames(t, others[p], tg);
    }
    forall j | 0 <= j < |t.columns| && j != s && j != tg
      ensures exists p :: 0 <= p < |cols| && cols[p].name == t.columns[j].name
    {
      var p := OthersPosition(|t.columns|, {s, tg}, j);
      assert cols[p].name == t.columns[j].name;
    }
  }

  /** Exactly one edge dictionary per column but the two index columns:
      two fewer dictionaries than columns, with distinct names. */
  lemma EdgeColumnsExact(t: Table, s: nat, tg: nat)
    requires WellFormed(t) && s < |t.columns| && tg < |t.columns| && s != tg
    ensures |EdgeColumns(t, s, tg)| == |t.columns| - 2
    ensures forall p, q :: 0 <= p < q < |EdgeColumns(t, s, tg)| ==> EdgeColumns(t, s, tg)[p].name != EdgeColumns(t, s, tg)[q].name
  {
    var others := Others(|t.columns|, {s, tg});
    var cols := EdgeColumns(t, s, tg);
    OthersKept(|t.columns|, {s, tg});
    KeptTwo(|t.columns|, s, tg);
    forall p, q | 0 <= p < q < |cols|
      ensures cols[p].name != cols[q].name
    {
      DistinctNames(t, others[p], others[q]);
    }
  }

  /** The dictionary named after column `j` answers both orientations of
      every row's pair as `MergedAnswers` says. */
  lemma EdgeColumnsValues(t: Table, s: nat, tg: nat)
    requires WellFormed(t) && s < |t.columns| && tg < |t.columns|
    ensures forall i, j, p :: (0 <= i < |t.rows| && 0 <= j < |t.columns| && 0 <= p < |EdgeColumns(t, s, tg)| &&
      EdgeColumns(t, s, tg)[p].name == t.columns[j].name) ==>
        MergedAnswers(t.rows, |t.columns|, s, tg, j, i, EdgeColumns(t, s, tg)[p].values)
  {
    var others := Others(|t.columns|, {s, tg});
    var cols := EdgeColumns(t, s, tg);
    var w := |t.columns|;
    forall i, j, p | 0 <= i < |t.rows| && 0 <= j < |t.columns| && 0 <= p < |cols| && cols[p].name == t.columns[j].name
      ensures MergedAnswers(t.rows, w, s, tg, j, i, cols[p].values)
    {
      assert cols[p].name == t.columns[others[p]].name;
      assert others[p] == j;
      assert cols[p].values == MergedColumn(t.rows, w, s, tg, j);
      MergedRow(t.rows, w, s, tg, j, i);
    }
  }

  /** What an edge dictionary `m` holds for row `i` and column `j`: both
      orientations of the row's pair are keys. The reversed key takes the
      row's cell when no later row lists the pair reversed. The forward key
      takes it when no later row lists the pair forward and no row lists it
      reversed. */
  ghost predicate MergedAnswers(rows: seq<seq<Cell>>, width: nat, s: nat, t: nat, j: nat, i: nat, m: map<(Cell, Cell), Cell>)
    requires Rect(rows, width) && s < width && t < width && j < width && i < |rows|
  {
    && (rows[i][s], rows[i][t]) in m && (rows[i][t], rows[i][s]) in m
    && (LastPair(rows, t, s, i) ==> m[(rows[i][t], rows[i][s])] == rows[i][j])
    && (LastPair(rows, s, t, i) && !ListedReversed(rows, s, t, i) ==> m[(rows[i][s], rows[i][t])] == rows[i][j])
  }

  /** Row `i` of the merged column, by `ReversedWins` and `ForwardFallback`. */
  lemma MergedRow(rows: seq<seq<Cell>>, width: nat, s: nat, t: nat, j: nat, i: nat)
    requires Rect(rows, width) && s < width && t < width && j < width && i < |rows|
    ensures MergedAnswers(rows, width, s, t, j, i, MergedColumn(rows, width, s, t, j))
  {
    if LastPair(rows, t, s, i) {
      ReversedWins(rows, width, s, t, j, i);
    }
    if LastPair(rows, s, t, i) && !ListedReversed(rows, s, t, i) {
      ForwardFallback(rows, width, s, t, j, i);
    }
  }

  /** Every edge dictionary answers a pair exactly when it answers the pair
      reversed. */
  lemma EdgeColumnsSymmetric(t: Table, s: nat, tg: nat)
    requires WellFormed(t) && s < |t.columns| && tg < |t.columns|
    ensures forall p, a, b :: 0 <= p < |EdgeColumns(t, s, tg)| && (a, b) in EdgeColumns(t, s, tg)[p].values ==>
      (b, a) in EdgeColumns(t, s, tg)[p].values
  {
    var others := Others(|t.columns|, {s, tg});
    var cols := EdgeColumns(t, s, tg);
    forall p, a, b | 0 <= p < |cols| && (a, b) in cols[p].values
      ensures (b, a) in cols[p].values
    {
      MergedSymmetric(t.rows, |t.columns|, s, tg, others[p], a, b);
    }
  }

  /** The node dictionaries and column types of a table as read. */
  function NodeTable(t: Table): (r: Result<NodeAnnotation>)
    requires WellFormed(t)
    ensures r.Err? <==> forall j :: 0 <= j < |t.columns| ==> t.columns[j].name != "node"
    ensures r.Ok? ==> r.value.types.Keys == set j | 0 <= j < |t.columns| :: t.columns[j].name
    ensures r.Ok? ==> forall j :: 0 <= j < |t.columns| ==> r.value.types[t.columns[j].name] == Classify(t.columns[j].dtype)
  {
    var types := ColumnTypes(t.columns);
    match ColumnIndex(t.columns, "node")
    case None => Err(MissingIndexColumn("node"))
    case Some(k) => Ok(NodeAnnotation(NodeColumns(t, k), types))
  }

  /** The node dictionaries of a table as read: exactly one for every
      column but `node` (one fewer than the columns, with distinct names),
      none for `node`, all keyed by the same node names. */
  lemma NodeTableColumns(t: Table)
    requires WellFormed(t) && NodeTable(t).Ok?
    ensures var cols := NodeTable(t).value.columns;
      var k := ColumnIndex(t.columns, "node").value;
      && (forall j :: 0 <= j < |t.columns| && t.columns[j].name != "node" ==>
            exists p :: 0 <= p < |cols| && cols[p].name == t.columns[j].name)
      && (forall p :: 0 <= p < |cols| ==> cols[p].name != "node")
      && |cols| == |t.columns| - 1
      && (forall p, q :: 0 <= p < q < |cols| ==> cols[p].name != cols[q].name)
      && (forall p, q :: 0 <= p < |cols| && 0 <= q < |cols| ==> cols[p].values.Keys == cols[q].values.Keys)
  {
    var k := ColumnIndex(t.columns, "node").value;
    assert NodeTable(t).value.columns == NodeColumns(t, k);
    NodeColumnsShape(t, k);
    assert forall j :: 0 <= j < |t.columns| && t.columns[j].name != "node" ==> j != k;
  }

  /** The node dictionary of a column holds, for every row, that column's
      cell as `KeyedAnswers` says: the row's node is a key, and maps to the
      row's cell when no later row names the same node. */
  lemma NodeTableValues(t: Table)
    requires WellFormed(t) && NodeTable(t).Ok?
    ensures var cols := NodeTable(t).value.columns;
      var k := ColumnIndex(t.columns, "node").value;
      forall i, j, p :: (0 <= i < |t.rows| && 0 <= j < |t.columns| && 0 <= p < |cols| &&
        cols[p].name == t.columns[j].name) ==>
          KeyedAnswers(t.rows, |t.columns|, k, j, i, cols[p].values)
  {
    var k := ColumnIndex(t.columns, "node").value;
    assert NodeTable(t).value.columns == NodeColumns(t, k);
    NodeColumnsValues(t, k);
  }

  /** The shape `NodeTableColumns` states, for the dictionaries indexed by
      column `k`. */
  lemma NodeColumnsShape(t: Table, k: nat)
    requires WellFormed(t) && k < |t.columns|
    ensures var cols := NodeColumns(t, k);
      && (forall j :: 0 <= j < |t.columns| && j != k ==>
            exists p :: 0 <= p < |cols| && cols[p].name == t.columns[j].name)
      && (forall p :: 0 <= p < |cols| ==> cols[p].name != t.columns[k].name)
      && |cols| == |t.columns| - 1
      && (forall p, q :: 0 <= p < q < |cols| ==> cols[p].name != cols[q].name)
      && (forall p, q :: 0 <= p < |cols| && 0 <= q < |cols| ==> cols[p].values.Keys == cols[q].values.Keys)
  {
    NodeColumnsNames(t, k);
    NodeColumnsKeys(t, k);
    NodeColumnsExact(t, k);
  }

  /** With `--force-str`, the value a node dictionary gives for the node
      of row `i` (when no later row names the same node) prints as the text
      that row's field had in the file, an empty field printing as `nan`;
      and the node key itself is no longer a number, so it can match a
      label. */
  lemma ForcedNodeValue(t: Table, j: nat, i: nat)
    requires WellFormed(t) && NodeTable(ForceStr(t)).Ok?
    requires j < |t.columns| && t.columns[j].name != "node" && i < |t.rows|
    requires LastKey(ForceStr(t).rows, ColumnIndex(ForceStr(t).columns, "node").value, i)
    ensures var f := ForceStr(t);
      var k := ColumnIndex(f.columns, "node").value;
      var cols := NodeTable(f).value.columns;
      && f.rows[i][k] == AsText(t.rows[i][k]) && !f.rows[i][k].Num?
      && forall p :: 0 <= p < |cols| && cols[p].name == t.columns[j].name ==>
           && f.rows[i][k] in cols[p].values
           && (t.rows[i][j].Num? ==> Show(cols[p].values[f.rows[i][k]]) == t.rows[i][j].raw)
           && (t.rows[i][j].Str? ==> Show(cols[p].values[f.rows[i][k]]) == t.rows[i][j].text)
           && (t.rows[i][j].NaN? ==> Show(cols[p].values[f.rows[i][k]]) == "nan")
  {
    var f := ForceStr(t);
    var k := ColumnIndex(f.columns, "node").value;
    var cols := NodeTable(f).value.columns;
    assert cols == NodeColumns(f, k);
    var others := Others(|f.columns|, {k});
    ForcedKeyedValue(t, k, j, i);
    forall p | 0 <= p < |cols| && cols[p].name == t.columns[j].name
      ensures f.rows[i][k] in cols[p].values
      ensures t.rows[i][j].Num? ==> Show(cols[p].values[f.rows[i][k]]) == t.rows[i][j].raw
      ensures t.rows[i][j].Str? ==> Show(cols[p].values[f.rows[i][k]]) == t.rows[i][j].text
      ensures t.rows[i][j].NaN? ==> Show(cols[p].values[f.rows[i][k]]) == "nan"
    {
      assert cols[p].name == f.columns[others[p]].name;
      assert others[p] == j;
      assert cols[p].values == KeyedColumn(f.rows, |f.columns|, k, j);
    }
  }

  /** The same for the dictionary of column `j` keyed by column `k`. */
  lemma ForcedKeyedValue(t: Table, k: nat, j: nat, i: nat)
    requires WellFormed(t) && k < |t.columns| && j < |t.columns| && i < |t.rows|
    requires LastKey(ForceStr(t).rows, k, i)
    ensures var f := ForceStr(t);
      var v := KeyedColumn(f.rows, |f.columns|, k, j);
      && f.rows[i][k] in v
      && (t.rows[i][j].Num? ==> Show(v[f.rows[i][k]]) == t.rows[i][j].raw)
      && (t.rows[i][j].Str? ==> Show(v[f.rows[i][k]]) == t.rows[i][j].text)
      && (t.rows[i][j].NaN? ==> Show(v[f.rows[i][k]]) == "nan")
  {
    var f := ForceStr(t);
    KeyedColumnLast(f.rows, |f.columns|, k, j, i);
    ForceStrCells(t, i, j);
  }

  /** The edge dictionaries and column types of a table as read. */
  function EdgeTable(t: Table): (r: Result<EdgeAnnotation>)
    requires WellFormed(t)
    ensures r.Err? <==>
      (forall j :: 0 <= j < |t.columns| ==> t.columns[j].name != "source") ||
      (forall j :: 0 <= j < |t.columns| ==> t.columns[j].name != "target")
    ensures r.Ok? ==> r.value.types.Keys == set j | 0 <= j < |t.columns| :: t.columns[j].name
    ensures r.Ok? ==> forall j :: 0 <= j < |t.columns| ==> r.value.types[t.columns[j].name] == Classify(t.columns[j].dtype)
  {
    var types := ColumnTypes(t.columns);
    match ColumnIndex(t.columns, "source")
    case None => Err(MissingIndexColumn("source"))
    case Some(s) =>
      match ColumnIndex(t.columns, "target")
      case None => Err(MissingIndexColumn("target"))
      case Some(tg) => Ok(EdgeAnnotation(EdgeColumns(t, s, tg), types))
  }

  /** The edge dictionaries of a table as read: exactly one for every
      column but `source` and `target` (two fewer than the columns, with
      distinct names), none for those two; each answers a pair exactly when
      it answers the pair reversed, and the dictionary of a column holds, for
      every row, that column's cells as `MergedAnswers` says. */
  lemma EdgeTableColumns(t: Table)
    requires WellFormed(t) && EdgeTable(t).Ok?
    ensures var cols := EdgeTable(t).value.columns;
      var s := ColumnIndex(t.columns, "source").value;
      var tg := ColumnIndex(t.columns, "target").value;
      && (forall j :: (0 <= j < |t.columns| && t.columns[j].name != "source" && t.columns[j].name != "target") ==>
            exists p :: 0 <= p < |cols| && cols[p].name == t.columns[j].name)
      && (forall p :: 0 <= p < |cols| ==> cols[p].name != "source" && cols[p].name != "target")
      && |cols| == |t.columns| - 2
      && (forall p, q :: 0 <= p < q < |cols| ==> cols[p].name != cols[q].name)
      && (forall p, a, b :: 0 <= p < |cols| && (a, b) in cols[p].values ==> (b, a) in cols[p].values)
      && (forall i, j, p :: (0 <= i < |t.rows| && 0 <= j < |t.columns| && 0 <= p < |cols| &&
            cols[p].name == t.columns[j].name) ==>
              MergedAnswers(t.rows, |t.columns|, s, tg, j, i, cols[p].values))
  {
    var s := ColumnIndex(t.columns, "source").value;
    var tg := ColumnIndex(t.columns, "target").value;
    assert s != tg by {
      assert "source"[0] != "target"[0];
    }
    assert EdgeTable(t).value.columns == EdgeColumns(t, s, tg);
    EdgeColumnsNames(t, s, tg);
    EdgeColumnsSymmetric(t, s, tg);
    EdgeColumnsExact(t, s, tg);
    EdgeColumnsValues(t, s, tg);
    assert forall j :: 0 <= j < |t.columns| && t.columns[j].name != "source" && t.columns[j].name != "target" ==>
      j != s && j != tg;
  }

  /** With `--force-str` every column is declared "string". */
  lemma ForceStrTypes(t: Table, types: map<string, AttrType>)
    requires WellFormed(t)
    requires types.Keys == set j | 0 <= j < |ForceStr(t).columns| :: ForceStr(t).columns[j].name
    requires forall j :: 0 <= j < |ForceStr(t).columns| ==>
      types[ForceStr(t).columns[j].name] == Classify(ForceStr(t).columns[j].dtype)
    ensures forall n :: n in types ==> types[n] == StringType
  {
    var f := ForceStr(t);
    forall n | n in types
      ensures types[n] == StringType
    {
      var j :| 0 <= j < |f.columns| && f.columns[j].name == n;
      assert f.columns[j].dtype == ObjectDType;
    }
  }

  /** `read_node_annotation`: no file gives empty dictionaries; a file
      without a `node` column is an error; otherwise the dictionaries of
      the table as read, and with `--force-str` every type is "string". */
  function ReadNodeAnnotation(table: Option<Table>, forceStr: bool): (r: Result<NodeAnnotation>)
    requires table.Some? ==> WellFormed(table.value)
    ensures table.None? ==> r == Ok(NodeAnnotation([], map[]))
    ensures table.Some? ==> r == NodeTable(Effective(table.value, forceStr))
    ensures table.Some? ==> (r.Err? <==> forall j :: 0 <= j < |table.value.columns| ==> table.value.columns[j].name != "node")
    ensures r.Ok? && forceStr ==> forall n :: n in r.value.types ==> r.value.types[n] == StringType
  {
    match table
    case None => Ok(NodeAnnotation([], map[]))
    case Some(t0) =>
      var r := NodeTable(Effective(t0, forceStr));
      if r.Ok? && forceStr then
        ForceStrTypes(t0, r.value.types);
        r
      else r
  }

  /** `read_edge_annotation`: no file gives empty dictionaries; a file
      without a `source` or a `target` column is an error; otherwise the
      dictionaries of the table as read, and with `--force-str` every type
      is "string". */
  function ReadEdgeAnnotation(table: Option<Table>, forceStr: bool): (r: Result<EdgeAnnotation>)
    requires table.Some? ==> WellFormed(table.value)
    ensures table.None? ==> r == Ok(EdgeAnnotation([], map[]))
    ensures table.Some? ==> r == EdgeTable(Effective(table.value, forceStr))
    ensures table.Some? ==> (r.Err? <==>
      (forall j :: 0 <= j < |table.value.columns| ==> table.value.columns[j].name != "source") ||
      (forall j :: 0 <= j < |table.value.columns| ==> table.value.columns[j].name != "target"))
    ensures r.Ok? && forceStr ==> forall n :: n in r.value.types ==> r.value.types[n] == StringType
  {
    match table
    case None => Ok(EdgeAnnotation([], map[]))
    case Some(t0) =>
      var r := EdgeTable(Effective(t0, forceStr));
      if r.Ok? && forceStr then
        ForceStrTypes(t0, r.value.types);
        r
      else r
  }

  /** Every node dictionary of a table is named after one of its
      columns, and so has a type. */
  lemma NodeTableTyped(t: Table)
    requires WellFormed(t) && NodeTable(t).Ok?
    ensures var a := NodeTable(t).value;
      forall p :: 0 <= p < |a.columns| ==> a.columns[p].name in a.types
  {
    var k := ColumnIndex(t.columns, "node").value;
    var others := Others(|t.columns|, {k});
    var types := ColumnTypes(t.columns);
    assert NodeTable(t).value == NodeAnnotation(NodeColumns(t, k), types);
    forall p | 0 <= p < |others|
      ensures NodeColumns(t, k)[p].name in types
    {
      assert NodeColumns(t, k)[p].name == t.columns[others[p]].name;
    }
  }

  /** Every edge dictionary of a table is named after one of its columns,
      and so has a type. */
  lemma EdgeTableTyped(t: Table)
    requires WellFormed(t) && EdgeTable(t).Ok?
    ensures var a := EdgeTable(t).value;
      forall p :: 0 <= p < |a.columns| ==> a.columns[p].name in a.types
  {
    var s := ColumnIndex(t.columns, "source").value;
    var tg := ColumnIndex(t.columns, "target").value;
    var others := Others(|t.columns|, {s, tg});
    var types := ColumnTypes(t.columns);
    assert EdgeTable(t).value == EdgeAnnotation(EdgeColumns(t, s, tg), types);
    forall p | 0 <= p < |others|
      ensures EdgeColumns(t, s, tg)[p].name in types
    {
      assert EdgeColumns(t, s, tg)[p].name == t.columns[others[p]].name;
    }
  }

  /** Every node column read from a file has a type: the types are those
      of all the table's columns. */
  lemma NodeColumnsTyped(table: Option<Table>, forceStr: bool)
    requires table.Some? ==> WellFormed(table.value)
    requires ReadNodeAnnotation(table, forceStr).Ok?
    ensures var a := ReadNodeAnnotation(table, forceStr).value;
      forall k :: 0 <= k < |a.columns| ==> a.columns[k].name in a.types
  {
    if table.Some? {
      NodeTableTyped(Effective(table.value, forceStr));
    }
  }

  /** Every edge column read from a file has a type in the edge table's
      own types. */
  lemma EdgeColumnsTyped(table: Option<Table>, forceStr: bool)
    requires table.Some? ==> WellFormed(table.value)
    requires ReadEdgeAnnotation(table, forceStr).Ok?
    ensures var a := ReadEdgeAnnotation(table, forceStr).value;
      forall k :: 0 <= k < |a.columns| ==> a.columns[k].name in a.types
  {
    if table.Some? {
      EdgeTableTyped(Effective(table.value, forceStr));
    }
  }
}

=== FILE: xml.dfy ===
/**
 An abstract XML element tree, as ElementTree presents a parsed document:
 every element has a namespace-qualified tag, an attribute dictionary and an
 ordered list of children. Text content plays no part in the transform and is
 not represented. The functions here are the handful of ElementTree
 operations the transform uses: `find` (first child with a tag), `remove`,
 `SubElement`/`append` (add a child at the end).
 */
module Xml {
  import opened Results
  import opened Seqs

  /** `{ns}local`, the form ElementTree uses for a qualified tag. */
  datatype QName = QName(ns: string, local: string)

  datatype Element = Element(tag: QName, attrs: map<string, string>, children: seq<Element>)

  /** The test `find(tag)` applies to each child. */
  function HasTag(tag: QName): Element -> bool
  {
    (e: Element) => e.tag == tag
  }

  /** `parent.find(tag)` over the children `s`, as an index. */
  function Find(s: seq<Element>, tag: QName): (r: Option<nat>)
    ensures r.Some? ==> r.value < |s| && s[r.value].tag == tag
    ensures r.Some? ==> forall j :: 0 <= j < r.value ==> s[j].tag != tag
    ensures r.None? <==> forall j :: 0 <= j < |s| ==> s[j].tag != tag
  {
    FirstWhere(s, HasTag(tag))
  }

  /** Number of children tagged `tag`. */
  function CountTag(s: seq<Element>, tag: QName): nat
  {
    CountWhere(s, HasTag(tag))
  }

  /** `parent.remove(parent.find(tag))` when the tag is present; the children
      are left alone when it is absent. */
  function DeleteFirst(s: seq<Element>, tag: QName): (r: seq<Element>)
    ensures Find(s, tag).None? ==> r == s
    ensures Find(s, tag).Some? ==> |r| == |s| - 1
    ensures Find(s, tag).Some? ==> multiset(s) == multiset(r) + multiset{s[Find(s, tag).value]}
    ensures Find(s, tag).Some? ==>
      r[..Find(s, tag).value] == s[..Find(s, tag).value] && r[Find(s, tag).value..] == s[Find(s, tag).value + 1..]
  {
    match Find(s, tag)
    case None => s
    case Some(i) =>
      RemoveAtMultiset(s, i);
      RemoveAt(s, i)
  }

  /** `parent.append(child)`: the child goes last, nothing else changes. */
  function AppendChild(e: Element, child: Element): (r: Element)
    ensures r.tag == e.tag && r.attrs == e.attrs
    ensures |r.children| == |e.children| + 1
    ensures r.children[..|e.children|] == e.children && r.children[|e.children|] == child
  {
    e.(children := e.children + [child])
  }

  /** The children whose tag is not `tag`, in order. */
  function WithoutTag(s: seq<Element>, tag: QName): seq<Element>
  {
    if s == [] then []
    else (if s[0].tag == tag then [] else [s[0]]) + WithoutTag(s[1..], tag)
  }

  lemma {:induction false} WithoutTagAppend(a: seq<Element>, b: seq<Element>, tag: QName)
    ensures WithoutTag(a + b, tag) == WithoutTag(a, tag) + WithoutTag(b, tag)
    decreases |a|
  {
    if a == [] {
      assert a + b == b;
    } else {
      WithoutTagAppend(a[1..], b, tag);
      assert (a + b)[1..] == a[1..] + b;
    }
  }

  /** A single child is kept exactly when its tag is not `tag`. */
  lemma WithoutTagSingle(x: Element, tag: QName)
    ensures WithoutTag([x], tag) == if x.tag == tag then [] else [x]
  {
    assert [x][1..] == [];
  }

  /** Deleting the first child with `tag` changes nothing else: the children
      with other tags are the same, and one fewer carries `tag` if any did. */
  lemma DeleteFirstOthers(s: seq<Element>, tag: QName)
    ensures WithoutTag(DeleteFirst(s, tag), tag) == WithoutTag(s, tag)
    ensures CountTag(DeleteFirst(s, tag), tag) == if CountTag(s, tag) == 0 then 0 else CountTag(s, tag) - 1
  {
    match Find(s, tag)
    case None =>
      CountWhereZero(s, HasTag(tag));
    case Some(i) =>
      CountWhereRemove(s, i, HasTag(tag));
      RemoveWithout(s, i, tag);
  }

  /** Removing a child tagged `tag` keeps the children with other tags. */
  lemma RemoveWithout(s: seq<Element>, i: nat, tag: QName)
    requires i < |s| && s[i].tag == tag
    ensures WithoutTag(RemoveAt(s, i), tag) == WithoutTag(s, tag)
  {
    var pre, post := s[..i], s[i + 1..];
    assert s == pre + ([s[i]] + post);
    WithoutTagAppend(pre, [s[i]] + post, tag);
    WithoutTagAppend([s[i]], post, tag);
    WithoutTagSingle(s[i], tag);
    WithoutTagAppend(pre, post, tag);
  }

  /** Replacing a child tagged `tag` by another tagged `tag` keeps the
      children with other tags. */
  lemma WithoutTagUpdate(s: seq<Element>, i: nat, c: Element, tag: QName)
    requires i < |s| && s[i].tag == tag && c.tag == tag
    ensures WithoutTag(s[i := c], tag) == WithoutTag(s, tag)
  {
    RemoveWithout(s, i, tag);
    RemoveWithout(s[i := c], i, tag);
    assert RemoveAt(s[i := c], i) == RemoveAt(s, i);
  }

  /** Leaving out two tags does not depend on the order. */
  lemma {:induction false} WithoutTagCommute(s: seq<Element>, a: QName, b: QName)
    ensures WithoutTag(WithoutTag(s, a), b) == WithoutTag(WithoutTag(s, b), a)
    decreases |s|
  {
    if s != [] {
      var head := if s[0].tag == a then [] else [s[0]];
      var head' := if s[0].tag == b then [] else [s[0]];
      WithoutTagAppend(head, WithoutTag(s[1..], a), b);
      WithoutTagAppend(head', WithoutTag(s[1..], b), a);
      WithoutTagSingle(s[0], a);
      WithoutTagSingle(s[0], b);
      if s[0].tag != a { assert WithoutTag(head, b) == WithoutTag([s[0]], b); }
      if s[0].tag != b { assert WithoutTag(head', a) == WithoutTag([s[0]], a); }
      WithoutTagCommute(s[1..], a, b);
    }
  }
}
